=== FILE: README.md ===
# fintech-trader-app: the trading engine and its HTTP validators in Dafny

This project models the decision logic of a robot-trading service. A *robot*
is a stored trading plan for one stock symbol (the *ticker*). It has a buy
threshold, a sell threshold, a plan window, an owner and its accumulated
results (`FactYield`, `DealsCount`). Two engines drive the robots.

- The trading engine (`cmd/trade`). A `Trader` periodically groups the active
  robots by symbol and sends Register, Unregister and Broadcast messages to a
  `Hub`. The hub starts and stops one `Ticker` worker per symbol. Each ticker
  owns one trading `Client` per robot. The client is a small state machine:
  buying, then selling, then the completed deal is booked.
- An older copy of that engine (`cmd/auth-api/handlers/trade`). It has a
  client variant that overwrites the robot's thresholds with the executed
  quotes.

The HTTP API (`cmd/auth-api/handlers`) guards robot activation, deactivation,
deletion and display, and the user sign-up, update and profile reads. Around
both sit the nullable column wrappers (`internal/format`) and the user
serialiser (`internal/user`).

Everything is modelled sequentially, as pure functions:

- A channel message, a select arm or a loop pass is one step function.
- Effects (persisting, broadcasting, stopping a client) are returned values.
- Go's unspecified map iteration order is an input.
- Pointer identity (`*Ticker`, `*Client`) is a natural-number reference into a heap.
- A nullable robot field (`format.NullX`) is an `Option<NullX>`, where `None` is nil: the code treats these fields as pointers (see "Source inconsistencies met while modelling"). The user's `*format.Day` birthday, a real pointer, is an `Option` the same way.
- A nil-pointer dereference, an out-of-range index and a panicking library call become an explicit `Crash`, `None` or `Panicked` outcome.
- Storage answers, the session lookup, the clock and JSON decoding are parameters.
- JSON output is an abstract tree of fields (`Json`).

Modules, one per source concern:

| module | file | models |
|---|---|---|
| `Wrappers`, `Text`, `Civil`, `Json` | wrappers.dfy, text.dfy, civil.dfy, json.dfy | Option/Result; decimal text, int64 range and wrap-around, split/join; calendar times and their order; abstract JSON values |
| `Robots` | robots.dfy | the `Robot` record of internal/robot/robot.go |
| `NullTypes`, `DayFormat`, `Html` | nulltypes.dfy, day.dfy, html.dfy | internal/format/types.go, day.go, html.go |
| `TradeClient`, `LegacyClient` | trade_client.dfy, legacy_client.dfy | the two client state machines |
| `Grouping`, `Reconcile`, `Hub` | grouping.dfy, reconcile.dfy, hub.dfy | `getRobotsByTicker` (three copies), the trader's reconciliation pass, the hub registry |
| `Worker`, `LegacyWorker` | worker.dfy, legacy_worker.dfy | the per-symbol tickers of both engines |
| `Params`, `Respond`, `HttpErrors`, `Sessions` | params.dfy, respond.dfy, httperror.dfy, session.dfy | URL/header/query extraction, `respondWithData`, `HTTPError`, requests and sessions |
| `RobotHandlers`, `UserJson`, `UserHandlers` | robot_handlers.dfy, user_json.dfy, user_handlers.dfy | the robot and user handler guard chains and the user serialiser |

## Model

| member | source | states |
|---|---|---|
| TradeClient.InitClient | cmd/trade/ticker.go:117-131 | a new client trades the given robot and starts buying, not selling |
| TradeClient.Settle | cmd/trade/client.go:63-66 | booking a deal adds the gain to FactYield and one (int64 wrap-around) to DealsCount, and changes no other robot field |
| TradeClient.MakeTrade | cmd/trade/client.go:43-84 | an incompletely configured robot is a no-op; a buy quote above the threshold changes nothing while buying; a quote at or below it buys at the quote and switches to selling; a sell quote at or above the threshold sells at the quote; a recorded buy or sell price is kept on every path that does not trade on that side; a completed cycle persists and broadcasts and returns to buying; an error is logged exactly when the update fails |
| TradeClient.CycleAccounting | cmd/trade/client.go:63-73 | a completed cycle raises FactYield by exactly sell price minus buy price and DealsCount by exactly one |
| TradeClient.UpdateFailureOnlyLogged | cmd/trade/client.go:67-73 | a failed storage update leaves the client state and the broadcast as they are with a successful one |
| TradeClient.TwoTickCycle | cmd/trade/client.go:48-73 | a tick that buys but does not reach the sell threshold leaves the client selling at that buy price; a later tick at or above the sell threshold books exactly the difference of the two quotes and buys again |
| TradeClient.OneTickFullCycle | cmd/trade/client.go:48-73 | one tick meeting both thresholds while buying buys and sells at that tick's quotes, books the deal and is buying again |
| TradeClient.TradeKeepsOneFlag | cmd/trade/client.go:48-73 | from a state with exactly one flag set, any run of ticks keeps exactly one flag set and changes only FactYield and DealsCount |
| TradeClient.InvalidNeverPersists | cmd/trade/client.go:44-46 | a robot missing a threshold or a result field never trades, over any run of ticks |
| TradeClient.SampleScenario | cmd/trade/client.go:43-75 | thresholds 100/110 with ticks (95, 115) then (94, 112) book two deals with yields 20 and 38 |
| LegacyClient.InitClient | cmd/auth-api/handlers/trade/ticker.go:54-65 | a new client has both flags false |
| LegacyClient.CanMakeTrade | cmd/auth-api/handlers/trade/client.go:34-73 | for a client that has a logger and a hub: an invalid robot is a no-op; while buying, a threshold at or above the quote is overwritten with the quote and the client sells, and a quote above it changes nothing; while selling, a threshold at or below the quote is overwritten and selling ends, and a quote below it changes nothing; a threshold is kept on every tick that does not trade on its side; the robot is persisted exactly when every side the client has open is met by the quote, and then FactYield grows by the robot's SellPrice minus BuyPrice, DealsCount by one, and the client buys again; only the thresholds and results of the robot change |
| LegacyClient.FirstTickBooksPhantomDeal | cmd/auth-api/handlers/trade/client.go:52-63 | even with a logger and a hub, a freshly made client, whose flags are both false, books a deal on its first tick using the configured thresholds |
| LegacyClient.CanMakeTradeAsWritten | cmd/auth-api/handlers/trade/client.go:34-65 | as built by initClient, without logger or hub: the tick runs to completion exactly when the intended client would change nothing and persist nothing; every buy, sell or settlement panics, and a settlement has already persisted the booked robot |
| LegacyClient.FirstTickPanicsAsWritten | cmd/auth-api/handlers/trade/ticker.go:54-65 | as written, the first tick such a client could take over a configured robot persists a deal of SellPrice minus BuyPrice and then panics; its `work` panics even earlier, at cmd/auth-api/handlers/trade/client.go:27, before reading any tick |
| LegacyClient.TradingPanicsAsWritten | cmd/auth-api/handlers/trade/client.go:39-63 | as written, every tick on which the intended client would trade or persist panics instead |
| LegacyClient.TwoTickCycle | cmd/auth-api/handlers/trade/client.go:39-63 | a buy on one tick and a sell on a later one leave BuyPrice at the first buy quote and SellPrice at the second sell quote, and book exactly their difference |
| LegacyClient.ThresholdsDrift | cmd/auth-api/handlers/trade/client.go:39-49 | over any run of ticks the buy threshold only falls and the sell threshold only rises |
| Grouping.GetRobotsByTicker | cmd/trade/trader.go:123-136 | fails exactly when a kept robot has no ticker (nil dereference); otherwise the groups are exactly the kept robots filed under their symbol, in input order |
| Grouping.KeepFirstIds | cmd/auth-api/handlers/trade/trader.go:113-119 | deduplication keeps every input id |
| Grouping.KeepFirstDistinct | cmd/auth-api/handlers/trade/trader.go:109-122 | the kept robots have pairwise distinct ids |
| Grouping.FirstOccurrenceWins | cmd/trade/trader.go:127-133 | when an id repeats, its first occurrence is kept and no later one is |
| Grouping.GroupsDisjoint | cmd/trade/trader.go:123-136 | a robot id sits in at most one group, at most once |
| Grouping.EveryIdGrouped | cmd/auth-api/handlers/trade/trader.go:113-119 | every input id appears in some group |
| Grouping.GetIdsByTicker | cmd/auth-api/handlers/trader/operate.go:64-77 | the id-only copy: fails exactly when a kept robot has no ticker; otherwise the keys are the kept symbols and each group lists the ids of that symbol's kept robots in input order |
| Grouping.IdGroupsDisjoint | cmd/auth-api/handlers/trader/operate.go:68-74 | each id appears in at most one id group, at most once |
| Reconcile.New | cmd/trade/trader.go:26-35 | a new trader starts with an empty symbol map |
| Reconcile.Registers | cmd/trade/trader.go:77-84 | exactly one Register per grouped symbol not marked in the symbol map, carrying that symbol's robots |
| Reconcile.Unregisters | cmd/trade/trader.go:86-91 | exactly one Unregister, with no robots, per symbol marked for deletion |
| Reconcile.Broadcasts | cmd/trade/trader.go:93-98 | exactly one Broadcast per symbol not marked for deletion, with that symbol's robots |
| Reconcile.Work | cmd/trade/trader.go:67-103 | a pass leaves the trader's symbol map unchanged |
| Reconcile.WorkCommands | cmd/auth-api/handlers/trade/trader.go:55-81 | Register exactly for grouped unmarked symbols, Unregister exactly for known symbols no longer grouped, Broadcast exactly for every grouped symbol, each with the symbol's robots |
| Reconcile.WorkPhasesOrdered | cmd/auth-api/handlers/trade/trader.go:61-81 | all Registers precede all Unregisters, which precede all Broadcasts, and no symbol repeats within a phase |
| Reconcile.EveryPassReregisters | cmd/trade/trader.go:67-103 | since the map is never written, every pass of a new trader registers and broadcasts every grouped symbol again and unregisters nothing |
| Hub.NewHub | cmd/trade/hub.go:21-31 | a new hub has no tickers and an empty symbol index |
| Hub.Step | cmd/auth-api/handlers/trade/hub.go:34-62 | register starts the ticker with its robots and adds it; unregister of a registered ticker sends stop and removes it, of an unknown one changes nothing; broadcast forwards only to a symbol in the index and is otherwise dropped; the index is never written |
| Hub.RunKeepsNames | cmd/trade/hub.go:33-59 | no sequence of messages changes the symbol index |
| Hub.NewHubDropsBroadcasts | cmd/trade/hub.go:21-59 | a hub made by NewHub forwards no broadcast, whatever it receives |
| Hub.Dispatch | cmd/trade/trader.go:77-91 | the trader's commands become hub messages one for one and kind for kind; each Unregister carries a ticker built anew |
| Hub.DispatchMessages | cmd/trade/trader.go:77-98 | a Register message carries a new ticker and the command's robots, an Unregister message a new ticker, and a Broadcast message the command's symbol and robots |
| Hub.DispatchTickersDistinct | cmd/trade/trader.go:77-91 | every Register and Unregister builds its own ticker: no two messages share one, and none is a ticker made before |
| Hub.DispatchNeverStops | cmd/trade/trader.go:86-91 | fed the trader's commands, the hub never stops a ticker, since an Unregister never names a registered one |
| Worker.InitTicker | cmd/trade/trader.go:105-121 | a new worker for a symbol and robots has no clients and an empty index |
| Worker.Alloc | cmd/trade/ticker.go:117-131 | a client is a fresh buying client at an unused reference; nothing else changes |
| Worker.StartArm | cmd/trade/ticker.go:39-51 | the start arm makes one fresh buying client per robot, in order, adds them all to the client set and indexes each id at its client |
| Worker.StartedWf | cmd/trade/ticker.go:42-48 | the start loop keeps the worker well formed: every client and indexed reference is allocated, and no two ids share a client |
| Worker.StartedClients | cmd/trade/ticker.go:42-47 | the started clients are new, one per robot in robot order, each a buying client of its robot; earlier clients are untouched and the client set gains exactly the started ones |
| Worker.IndexLast | cmd/trade/ticker.go:43-44 | after the loop an id points at the client of the last robot carrying it |
| Worker.StartIsConsistent | cmd/trade/ticker.go:39-51 | starting a new worker over robots with distinct ids gives exactly one indexed client per robot |
| Worker.WorkWithRobots | cmd/trade/ticker.go:73-115 | panics exactly when a departed robot's id is not indexed or its indexed client was already unregistered (a send on a closed channel); otherwise the index is unchanged, departed clients are unregistered and dropped, unindexed robots get fresh clients in input order, and indexed clients only get their robot replaced |
| Worker.VisitFresh | cmd/trade/ticker.go:84-91 | each unindexed robot gets a new client, in input order, and joins the client set |
| Worker.VisitIndexed | cmd/trade/ticker.go:92-95 | an indexed client keeps its flags and prices; its robot becomes the last listed robot with its id |
| Worker.VisitUntouched | cmd/trade/ticker.go:84-98 | clients whose robot is not listed keep their whole state |
| Worker.ConsistentBroadcast | cmd/trade/ticker.go:80-107 | on a consistent worker a broadcast never panics and unregisters exactly the clients whose robot is no longer listed |
| Worker.SecondDepartureCrashes | cmd/trade/ticker.go:80-104 | when two running clients carry one id and only one is indexed, the id's departure unregisters the indexed one, and the next broadcast without the id sends to that stopped client again and panics |
| Worker.DuplicateIdCrashes | cmd/trade/ticker.go:39-104 | a worker started with two robots of one id panics on the second broadcast that lists neither |
| Worker.NewcomerDepartureCrashes | cmd/trade/ticker.go:85-102 | a robot first seen in a broadcast is never indexed, so when it later leaves the worker panics |
| Worker.ReturningRobotStaysDetached | cmd/trade/ticker.go:85-106 | a robot that leaves and comes back is neither re-added nor given a new client |
| Worker.StopArm | cmd/trade/ticker.go:52-62 | if the deal loop takes the stop signal, every client is closed and the set emptied, and nothing else changes; otherwise the arm blocks |
| LegacyWorker.InitTicker | cmd/auth-api/handlers/trade/trader.go:92-107 | a new worker has no clients and waits at its select |
| LegacyWorker.StartArmAsWritten | cmd/auth-api/handlers/trade/ticker.go:30-36 | as written, a non-empty start attaches only the first robot's client; the loop then crashes on the client's nil logger, or, with a logger, stays inside that client's work |
| LegacyWorker.StartCrashesAsWritten | cmd/auth-api/handlers/trade/ticker.go:30-36 | as written, a start with any robot attaches one client and crashes, and nothing afterwards is handled |
| LegacyWorker.OnlyFirstRobotTrades | cmd/auth-api/handlers/trade/ticker.go:30-36 | even with a logger, a start with two or more robots attaches one client and nothing afterwards is handled |
| LegacyWorker.StartArm | cmd/auth-api/handlers/trade/ticker.go:30-34 | the intended start arm attaches one fresh client per robot and keeps the earlier clients |
| LegacyWorker.StopArm | cmd/auth-api/handlers/trade/ticker.go:37-43 | if the stop signal is taken, every client is closed, the set emptied and the loop returns; otherwise the loop is stuck with its clients |
| LegacyWorker.StartThenStop | cmd/auth-api/handlers/trade/ticker.go:26-52 | with the intended arm, a start then a taken stop closes every client and returns |
| NullTypes.ScanInt64 | internal/format/types.go:17-30 | a database null gives an invalid wrapper; a convertible value gives a valid wrapper of it; a conversion error is passed on |
| NullTypes.ScanFloat64 | internal/format/types.go:52-65 | as ScanInt64, for floats |
| NullTypes.ScanString | internal/format/types.go:89-102 | as ScanInt64, for strings |
| NullTypes.ScanTime | internal/format/types.go:140-153 | as ScanInt64, for times |
| NullTypes.ValueInt64 | internal/format/types.go:32-38 | null exactly for an invalid wrapper, otherwise the payload |
| NullTypes.ValueFloat64 | internal/format/types.go:67-73 | null exactly for an invalid wrapper, otherwise the payload |
| NullTypes.ValueString | internal/format/types.go:104-110 | null exactly for an invalid wrapper, otherwise the payload |
| NullTypes.ValueTime | internal/format/types.go:155-161 | null exactly for an invalid wrapper, otherwise the payload |
| NullTypes.ScanValueRoundTrip | internal/format/types.go:17-38 | Value after Scan gives back the original null or payload-typed value, for all four types |
| NullTypes.ValueScanRoundTrip | internal/format/types.go:140-161 | Scan after Value gives back a valid wrapper, and an invalid one as the zero invalid wrapper |
| NullTypes.MarshalInt64 | internal/format/types.go:40-46 | no bytes exactly when invalid, otherwise the number |
| NullTypes.MarshalFloat64 | internal/format/types.go:75-81 | no bytes exactly when invalid, otherwise the number |
| NullTypes.MarshalString | internal/format/types.go:112-117 | always a string; an invalid value encodes the two-quote literal, not the empty string |
| NullTypes.MarshalTime | internal/format/types.go:127-137 | none exactly when invalid; otherwise the quoted timestamp text |
| DayFormat.ParseQuotedDate | internal/format/day.go:17-21 | a date is accepted only from a twelve-character quoted YYYY-MM-DD naming a real calendar day |
| DayFormat.UnmarshalDay | internal/format/day.go:17-32 | succeeds exactly on an accepted date and stores its midnight as valid; on failure the Day becomes invalid |
| DayFormat.MarshalDay | internal/format/day.go:34-43 | none when invalid; otherwise the unquoted date text |
| DayFormat.ValueDay | internal/format/day.go:45-51 | null exactly when invalid, otherwise the stored time |
| DayFormat.ScanDay | internal/format/day.go:53-66 | null gives an invalid Day, a time a valid one, anything else an error |
| DayFormat.MarshalUnmarshalRoundTrip | internal/format/day.go:17-43 | for a four-digit year, unmarshalling the quoted marshal output recovers the same date |
| Html.PrintNullInt64 | internal/format/html.go:8-14 | empty exactly for a nil or invalid value; otherwise decimal text that parses back to the value |
| Html.PrintNullFloat64 | internal/format/html.go:16-22 | empty for a nil or invalid value, otherwise the rendering of the value |
| Html.PrintNullString | internal/format/html.go:24-30 | empty for a nil or invalid value, otherwise the string unchanged |
| Html.PrintNullTime | internal/format/html.go:32-40 | empty exactly for a nil or invalid value; otherwise UTC text ending in Z, equal to the year-MM-DDTHH:MM:SSZ stamp for a four-digit year and twenty characters long for a valid time in years 0-9999 |
| Html.PrintNullTimeMatchesJson | internal/format/html.go:32-40 | for a four-digit year, the printed time is the text inside the quotes of the time's JSON encoding |
| Civil.LayoutMatchesStamp | internal/format/html.go:37-39 | the layout "2006-01-02T15:04:05Z" gives the same text as the %d-%02d-%02dT%02d:%02d:%02dZ stamp for four-digit years, and twenty characters for a valid time in years 0-9999 |
| Html.JoinNullIntAsWritten | internal/format/html.go:42-48 | as written: empty for a nil or invalid value |
| Html.JoinNullIntAsWrittenCrashes | internal/format/html.go:47 | as written, every valid value panics, because the base passed to the formatter is 64 |
| Html.JoinNullInt | internal/format/html.go:42-48 | empty for a nil or invalid value; otherwise the prefix followed by decimal text that parses back to the value |
| Html.NullPrintsEmpty | internal/format/html.go:8-48 | every print helper gives the empty string for a nil or invalid argument |
| Params.TokenFromReq | cmd/auth-api/handlers/user.go:270-277 | none exactly when the header has no space (index out of range); otherwise a space-free field |
| Params.TokenOfHeader | cmd/auth-api/handlers/user.go:270-277 | for a header of space-separated fields, the second field is the token |
| Params.IDFromParams | cmd/auth-api/handlers/user.go:256-268 | no segment exactly when the path has fewer than four slashes; otherwise segment 4 parsed as a base-10 int64, or an error |
| Params.IDOfPath | cmd/auth-api/handlers/user.go:256-268 | a path whose segment 4 is the decimal text of an int64 yields that id |
| Params.IDAndTickerFromParams | cmd/auth-api/handlers/robot.go:184-201 | an absent user gives id 0; fails exactly when a present user value is not an int64; the ticker is passed verbatim |
| Params.FiltersOfQuery | cmd/auth-api/handlers/robot.go:184-201 | a query with a decimal user and a ticker yields exactly that pair |
| Respond.SortByIdCorrect | cmd/auth-api/handlers/user.go:383-393 | the HTML order is sorted by ascending robot id, a permutation of the input, and stable among equal ids |
| Respond.RespondWithData | cmd/auth-api/handlers/user.go:380-395 | JSON keeps input order; HTML sorts stably by ascending id; any other Accept value fails with the "info's type is absent" error |
| HttpErrors.ErrorText | cmd/auth-api/handlers/httperror.go:27-33 | the context alone without a cause; otherwise context, ": " and the cause |
| HttpErrors.ResponseBody | cmd/auth-api/handlers/httperror.go:35-46 | no body exactly when the detail is empty; otherwise an object whose only key is "error", holding the detail as a string |
| HttpErrors.BodyDeterminedByDetail | cmd/auth-api/handlers/httperror.go:35-46 | two errors have the same body exactly when their details agree |
| HttpErrors.ResponseHeaders | cmd/auth-api/handlers/httperror.go:48-52 | the status of the error and the single JSON content-type header |
| RobotHandlers.IntoPlanRange | cmd/auth-api/handlers/robot.go:304-315 | false if either bound is nil; otherwise true exactly when start is not after now and now is not after end |
| RobotHandlers.PlanRangeInclusive | cmd/auth-api/handlers/robot.go:304-315 | both bounds are inside the window whenever the window is not empty |
| RobotHandlers.PlanRangeConvex | cmd/auth-api/handlers/robot.go:304-315 | any time between two accepted times is accepted |
| RobotHandlers.CanBeChangeActivation | cmd/auth-api/handlers/robot.go:296-302 | true exactly when the caller owns the robot and now is within the plan window |
| RobotHandlers.CopyForFavourite | cmd/auth-api/handlers/robot.go:237-246 | the copy belongs to the caller, has the original as parent, is a favourite, inactive and never activated; reverting those fields gives back the original |
| RobotHandlers.CopyForFavouriteIdempotent | cmd/auth-api/handlers/robot.go:237-246 | copying a copy for the same caller changes nothing further |
| RobotHandlers.GetRobotAndUserIDAsWritten | cmd/auth-api/handlers/robot.go:100-122 | as written: a path without segment 4 or a header without a space panics; an unparsable id or a failed session lookup is an error; a non-positive id or session user 0 gives ids (-1, -1) with no error |
| RobotHandlers.GetRobotAndUserID | cmd/auth-api/handlers/robot.go:100-122 | corrected: success only with a positive id and a session user other than 0, returning both |
| RobotHandlers.GetRobotAndUserIDAgrees | cmd/auth-api/handlers/robot.go:100-122 | the corrected lookup differs from the written one only where the written one returns the sentinel ids |
| RobotHandlers.FindRobotAsWritten | cmd/auth-api/handlers/robot.go:124-135 | as written: a storage error is an error, a robot with id 0 is returned as nil with no error |
| RobotHandlers.FindRobot | cmd/auth-api/handlers/robot.go:124-135 | corrected: a storage error or a robot with id 0 is an error, never a nil result |
| RobotHandlers.Start | cmd/auth-api/handlers/robot.go:54-66 | the common prelude: a panic crashes, an id error answers 400, a lookup error 500, a nil robot crashes; otherwise the handler proceeds with the ids and the robot |
| RobotHandlers.SentinelCrashesAsWritten | cmd/auth-api/handlers/robot.go:106-131 | as written, a non-positive URL id reaches a nil robot and crashes; the corrected chain answers 400 |
| RobotHandlers.LocateCrashesOnlyOnShortInput | cmd/auth-api/handlers/robot.go:100-135 | with the corrected lookups, the prelude crashes only on a path without segment 4 or a header without a space |
| RobotHandlers.Activate | cmd/auth-api/handlers/robot.go:248-294 | refused with 400 unless the change is allowed and the robot is inactive; a failed update answers 500; otherwise the robot becomes active with ActivatedAt set to now and nothing else changes |
| RobotHandlers.Deactivate | cmd/auth-api/handlers/robot.go:317-363 | refused with 400 unless the change is allowed and the robot is active; a failed update answers 500; otherwise the robot becomes inactive with DeactivatedAt set to now and nothing else changes |
| RobotHandlers.DeleteRobot | cmd/auth-api/handlers/robot.go:53-98 | a deleted robot answers 404 "robot with id N don't exist" before ownership is checked; a foreign robot answers 400; otherwise DeletedAt is set to now and 200 is answered |
| RobotHandlers.GetRobot | cmd/auth-api/handlers/robot.go:365-400 | deleted gives 404, foreign gives 400, otherwise the robot is shown in the requested representation; nothing is saved |
| UserHandlers.CheckEmail | cmd/auth-api/handlers/user.go:220-235 | fails exactly when the lookup errs (500) or finds a user other than 0 and the caller (400 "user E is already registered"); otherwise ("", -1, no error) |
| UserHandlers.CheckEmailOwnOrFree | cmd/auth-api/handlers/user.go:220-235 | a free email or the caller's own passes; anybody else's is refused with 400 |
| UserHandlers.SignUp | cmd/auth-api/handlers/user.go:26-65 | a body that does not decode answers 400; the user is created exactly when the email lookup returns id 0 and hashing and creation succeed; a taken email answers 409 |
| UserHandlers.SignUpOnce | cmd/auth-api/handlers/user.go:50-64 | a free email is created, a taken one answers 409 "user E is already registered" |
| UserHandlers.ReadAccess | cmd/auth-api/handlers/user.go:162-176 | a path without segment 4 crashes, an unparsable id is refused, a non-positive id answers 400 "incorrect id: N"; otherwise the id and the bearer token are read |
| UserHandlers.UpdateUser | cmd/auth-api/handlers/user.go:152-218 | a non-decoding body answers 400; the id checks come first; a failed session lookup answers 500; a token that is not the session's answers 404 "user N don't find"; a refused email answers with checkEmail's status and message; a failed initUser or update answers 500; the serialised user is returned exactly when all checks and both steps pass and the birthday is present |
| UserHandlers.UpdateUserEmailRule | cmd/auth-api/handlers/user.go:185-191 | for an authorised update, an email held by another user is refused with 400 "user E is already registered", while a free email or the caller's own is accepted and returns the serialised user |
| UserHandlers.GetUser | cmd/auth-api/handlers/user.go:279-325 | the id checks come first; a token mismatch answers 404 "don't find user with ID N"; success returns exactly the serialised stored user |
| UserHandlers.GetUserRobots | cmd/auth-api/handlers/user.go:327-378 | in order: id checks (400), session user 0 (404), token mismatch (400 "tokens don't match"); success lists the owned robots as respondWithData does |
| UserHandlers.NonPositiveIdRefusedFirst | cmd/auth-api/handlers/user.go:169-174 | a non-positive URL id answers 400 "incorrect id: N" before the session is consulted, in all three user readers |
| UserHandlers.OwnerSeesSortedRobots | cmd/auth-api/handlers/user.go:355-377 | the owner asking for HTML gets their robots sorted by id |
| UserJson.MarshalUser | internal/user/user.go:27-46 | none exactly when the birthday pointer is nil; otherwise an object with four fields, or three when the birthday is invalid |
| UserJson.MarshalUserFields | internal/user/user.go:27-46 | the fields are first_name, last_name, then birthday only when valid, then email; names and email verbatim, birthday as year-MM-DD with month and day zero-padded and the year unpadded |
| UserJson.MarshalIgnoresPrivateFields | internal/user/user.go:35-45 | the id, the password and the timestamps never affect the output, and neither id nor password is a member name |
| UserJson.MarshalUserDetermines | internal/user/user.go:35-45 | equal serialisations mean equal names, email and birthday text |
| UserJson.BirthdayReadsBack | internal/user/user.go:28-33 | for a four-digit year, the serialised birthday, quoted, unmarshals back to the same date |

## Left out

- Goroutines, channels, mutexes, `time.Ticker` loops and the select shells of `Ticker.run`, `Hub.Run` and `StartDeals`. Each arm is one atomic step. `Client.work` and `makeDeals` are price-stream I/O; only a tick's two prices are used.
- Floating point: prices and yields are mathematical reals, with no rounding or `%2f` formatting.
- The clock is a parameter (`now`). Time zones and locations are ignored: times are UTC calendar components.
- Storage (SQL), the session store, bcrypt/sha256 hashing, JSON decoding and `html/template` rendering are parameters: an `Option`, a `bool` failure flag or an abstract payload.
- The logger, and errors from writing a response (`respondJSON`, template execution).
- `format.NewNullTime()` and `format.NewNullInt64()` are called but not defined in internal/format/types.go. They are modelled as a valid wrapper of `now` (or of the value) that never fails.
- The `makeFavourite`, `createRobot`, `getRobots` and `signIn` handlers are not part of this model. Their bodies are storage and hashing calls; the pure pieces they use (`copyForFavourite`, `IDAndTickerFromParams`, `respondWithData`) are modelled.
- `initUser` in `updateUser` is a failure flag; its field copying is not modelled.
- NullTypes.ScanInt64, NullTypes.ScanFloat64, NullTypes.ScanString: of database/sql's conversion rules, only exact-type and decimal-text conversions are modelled. Float to int, text to float, and float or time to string are treated as conversion errors.
- RobotHandlers.CopyForFavourite: returns a new record; the source also mutates its argument in place, and that aliasing is not modelled.
- RobotHandlers.IntoPlanRange: reads only the times of the bounds, not their Valid flags, exactly as the source does.
- Worker.StopArm and LegacyWorker.StopArm: whether the deal loop takes the stop signal is a parameter (`received`). In cmd/trade the deal loop never receives on `stopDeals`, so the arm blocks there.
- TradeClient.CycleAccounting: requires DealsCount below the int64 maximum; `Settle` itself models the wrap-around.
- DayFormat.MarshalUnmarshalRoundTrip and UserJson.BirthdayReadsBack: hold only for years 1000-9999. The marshaller does not pad the year, so other years do not read back.
- Html.PrintNullFloat64: the `%2f` rendering is a parameter.
- UserHandlers.CheckEmail, UserHandlers.SignUp, UserHandlers.UpdateUser: a lookup by email that finds no user is read as a user with id 0. The postgres user storage answers nil with no error instead (internal/postgres/user.go:58-59), and checkEmail would then dereference nil at cmd/auth-api/handlers/user.go:227; that crash is not modelled.

### Behaviour of the code worth knowing

- cmd/trade `makeTrade` checks the sell threshold right after a buy in the same call. So a tick meeting both thresholds completes a whole cycle: with thresholds 100/110, the tick (95, 115) books a yield of 20 (`TradeClient.OneTickFullCycle`, `TradeClient.SampleScenario`).
- The trader's symbol map `tickers` is never written. Every pass re-registers every symbol and never unregisters one (`Reconcile.EveryPassReregisters`).
- `Hub.names` is never populated, so every broadcast is dropped (`Hub.NewHubDropsBroadcasts`).
- Unregister is sent with a freshly built ticker. Hub membership is by pointer, so no ticker is ever stopped (`Hub.DispatchNeverStops`).

### Source inconsistencies met while modelling

- cmd/trade/trader.go:114 and cmd/auth-api/handlers/trade/trader.go:101 initialise a field `id`. The cmd/trade ticker declares its index as `ids` (cmd/trade/ticker.go:17); the model uses one index, empty at creation.
- cmd/trade/ticker.go:23 declares `start` as `chan bool`, but cmd/trade/trader.go:110 makes it a robot-list channel and the hub sends the robot list on it (cmd/trade/hub.go:41). The model hands the worker its robots at creation and treats the start message as a signal.
- Both hubs close a ticker's `start` and `stop` after unregistering it, and the cmd/trade ticker's deferred cleanup closes them again. This would panic, but no ticker is ever unregistered (see above), so the model does not reach it.
- The postgres session storage defines only `Find`, not the `FindByToken` and `FindByID` that the handlers call, and the user storage defines only `Find`, not the `FindByEmail` and `FindByID` they call. On "no rows" the session lookup and the robot lookup by id answer a zero record with no error (internal/postgres/session.go:55-56, internal/postgres/robot.go:66-67), while the user lookup answers nil with no error (internal/postgres/user.go:58-59).
- internal/robot/robot.go:10-24 declares the robot's nullable fields by value (`format.NullInt64`, `format.NullTime`, …), yet cmd/trade/client.go:78-79, cmd/auth-api/handlers/trade/client.go:68 and cmd/auth-api/handlers/robot.go:68, 243, 297, 304 and 380 compare them with nil, assign nil to them and pass them where a `*format.NullTime` is expected. The model reads them as pointers, so `None` is nil.
- internal/session/session.go:7 declares `UserID` as a `string`, yet the handlers compare it with the integer constant `BottomLineValidID` (cmd/auth-api/handlers/robot.go:35 and 117) and use it as an int64 owner id. The model takes the session's user id to be an integer.
- cmd/trade/ticker.go:119 sets a field `ticker` that the cmd/trade `Client` (cmd/trade/client.go:10-22) does not declare.
- cmd/auth-api/handlers/trade/trader.go:103 sets a field `ws` that the legacy `Ticker` (cmd/auth-api/handlers/trade/ticker.go:13-24) does not declare.
- internal/format/day.go:60 and 62 build `NullTime{V: sql.NullTime{...}}`, although `NullTime.V` is a `*sql.NullTime`, and convert that to `Day`, whose `V` is a plain `sql.NullTime`. The model reads both as storing the scanned time with the stated validity.

## Findings

| source | as written | input that shows it | evidently intended | confidence | as-written member | corrected member |
|---|---|---|---|---|---|---|
| internal/format/html.go:47 | `JoinNullInt` formats the integer with base 64, and `strconv.FormatInt` panics for bases outside 2-36 | any valid value, e.g. prefix "id=" and 7 | decimal text after the prefix ("id=7") | high, not executed | Html.JoinNullIntAsWritten, Html.JoinNullIntAsWrittenCrashes | Html.JoinNullInt |
| cmd/auth-api/handlers/trade/ticker.go:30-36 | the start arm calls `client.work()` directly; `work` runs until the client's channel is closed, which only this loop's stop arm does | a start message with two robots | every robot gets a running client, as in cmd/trade/ticker.go | high, not executed | LegacyWorker.StartArmAsWritten, LegacyWorker.OnlyFirstRobotTrades | LegacyWorker.StartArm, LegacyWorker.StartThenStop |
| cmd/auth-api/handlers/trade/ticker.go:54-65 | `initClient` sets neither the client's logger nor its hub, so `work` panics on the nil logger (cmd/auth-api/handlers/trade/client.go:27), and every buy, sell or settlement panics on the logger or the hub | any start message carrying a robot | a client holding the ticker's logger and hub, as cmd/trade/ticker.go:117-131 builds it | high, not executed | LegacyClient.CanMakeTradeAsWritten, LegacyClient.FirstTickPanicsAsWritten, LegacyWorker.StartCrashesAsWritten | LegacyClient.CanMakeTrade, LegacyWorker.StartArm |
| cmd/auth-api/handlers/robot.go:106-131 | `errors.Wrap(f)` of a nil error is nil, so a non-positive id or session user 0 returns ids (-1, -1) with no error; a robot with id 0 returns (nil, nil), and the handler then dereferences nil | a request for robot 0 (segment 4 is "0"); the lookup of id -1 finds nothing and yields a zero robot | 400 for a bad id or unknown owner, an error for a missing robot | high, not executed | RobotHandlers.GetRobotAndUserIDAsWritten, RobotHandlers.FindRobotAsWritten, RobotHandlers.SentinelCrashesAsWritten | RobotHandlers.GetRobotAndUserID, RobotHandlers.FindRobot, RobotHandlers.LocateCrashesOnlyOnShortInput |

=== FILE: civil.dfy ===
/**
 * Go `time.Time` values as civil UTC components. Instants are compared
 * component-wise, which for valid UTC times is the order `Before`/`After` use.
 */
module Civil {
  import opened Text

  datatype DateTime = DateTime(year: int, month: nat, day: nat,
                               hour: nat, minute: nat, second: nat, nanos: nat)

  /** The zero `time.Time`: January 1 of year 1, 00:00:00 UTC. */
  const ZeroTime: DateTime := DateTime(1, 1, 1, 0, 0, 0, 0)

  predicate IsLeap(year: int) {
    year % 4 == 0 && (year % 100 != 0 || year % 400 == 0)
  }

  function DaysIn(month: nat, year: int): nat
    requires 1 <= month <= 12
  {
    if month == 2 then (if IsLeap(year) then 29 else 28)
    else if month == 4 || month == 6 || month == 9 || month == 11 then 30
    else 31
  }

  predicate ValidDate(year: int, month: nat, day: nat) {
    1 <= month <= 12 && 1 <= day <= DaysIn(month, year)
  }

  predicate Valid(t: DateTime) {
    && ValidDate(t.year, t.month, t.day)
    && t.hour < 24 && t.minute < 60 && t.second < 60 && t.nanos < 1_000_000_000
  }

  /** Midnight UTC of a calendar day, as `time.Parse` builds it for a date-only layout. */
  function Midnight(year: int, month: nat, day: nat): (t: DateTime)
    ensures ValidDate(year, month, day) ==> Valid(t)
  {
    DateTime(year, month, day, 0, 0, 0, 0)
  }

  function Key(t: DateTime): seq<int> {
    [t.year, t.month, t.day, t.hour, t.minute, t.second, t.nanos]
  }

  /** Strict lexicographic order on equally long integer sequences. */
  predicate LexLess(a: seq<int>, b: seq<int>)
    requires |a| == |b|
  {
    |a| > 0 && (a[0] < b[0] || (a[0] == b[0] && LexLess(a[1..], b[1..])))
  }

  /** `a.Before(b)`. */
  predicate Before(a: DateTime, b: DateTime) {
    LexLess(Key(a), Key(b))
  }

  lemma {:induction false} LexLessTransitive(a: seq<int>, b: seq<int>, c: seq<int>)
    requires |a| == |b| == |c|
    requires LexLess(a, b) && LexLess(b, c)
    ensures LexLess(a, c)
    decreases |a|
  {
    if a[0] == b[0] && b[0] == c[0] {
      LexLessTransitive(a[1..], b[1..], c[1..]);
    }
  }

  lemma {:induction false} LexLessTotal(a: seq<int>, b: seq<int>)
    requires |a| == |b|
    ensures LexLess(a, b) || LexLess(b, a) || a == b
    decreases |a|
  {
    if |a| > 0 && a[0] == b[0] {
      LexLessTotal(a[1..], b[1..]);
      if a[1..] == b[1..] {
        assert a == [a[0]] + a[1..] && b == [b[0]] + b[1..];
      }
    }
  }

  /** `Before` is a strict total order on instants. */
  lemma BeforeTotalOrder(a: DateTime, b: DateTime, c: DateTime)
    ensures !Before(a, a)
    ensures Before(a, b) && Before(b, c) ==> Before(a, c)
    ensures Before(a, b) || Before(b, a) || a == b
  {
    LexIrreflexive(Key(a));
    if Before(a, b) && Before(b, c) { LexLessTransitive(Key(a), Key(b), Key(c)); }
    LexLessTotal(Key(a), Key(b));
  }

  lemma {:induction false} LexIrreflexive(a: seq<int>)
    ensures !LexLess(a, a)
    decreases |a|
  {
    if |a| > 0 { LexIrreflexive(a[1..]); }
  }

  /** `%02d` of a component. */
  function Pad2(n: nat): string {
    ZeroPad(n, 2)
  }

  /** `fmt.Sprintf("%d-%02d-%02d", t.Year(), t.Month(), t.Day())`. */
  function DateText(t: DateTime): string {
    IntToDecimal(t.year) + "-" + Pad2(t.month) + "-" + Pad2(t.day)
  }

  /** `fmt.Sprintf("%d-%02d-%02dT%02d:%02d:%02dZ", …)` of a time's components. */
  function StampText(t: DateTime): string {
    DateText(t) + "T" + Pad2(t.hour) + ":" + Pad2(t.minute) + ":" + Pad2(t.second) + "Z"
  }

  /** Go's layout year "2006": sign, then at least four zero-padded digits. */
  function LayoutYear(year: int): string {
    (if year < 0 then "-" else "") + ZeroPad(if year < 0 then -year else year, 4)
  }

  /** `t.Format("2006-01-02T15:04:05Z")`. */
  function LayoutText(t: DateTime): string {
    LayoutYear(t.year) + "-" + Pad2(t.month) + "-" + Pad2(t.day) + "T"
      + Pad2(t.hour) + ":" + Pad2(t.minute) + ":" + Pad2(t.second) + "Z"
  }

  /** A year of four digits is laid out exactly as `%d` prints it. */
  lemma LayoutYearFourDigits(year: int)
    requires 1000 <= year <= 9999
    ensures LayoutYear(year) == IntToDecimal(year)
  {
    assert Pow10(3) == 1000 && Pow10(4) == 10000;
    DecimalLength(year, 4);
    assert Zeros(0) == [];
  }

  /** Years 0 to 9999 take exactly four characters in the layout. */
  lemma LayoutYearLength(year: int)
    requires 0 <= year <= 9999
    ensures |LayoutYear(year)| == 4
  {
    assert Pow10(1) == 10 && Pow10(2) == 100 && Pow10(3) == 1000 && Pow10(4) == 10000;
    if year < 10 { DecimalLength(year, 1); }
    else if year < 100 { DecimalLength(year, 2); }
    else if year < 1000 { DecimalLength(year, 3); }
    else { DecimalLength(year, 4); }
  }

  /**
   * The layout agrees with the hand-written `%d-%02d-%02dT%02d:%02d:%02dZ`
   * stamp for four-digit years, and for a valid time whose year lies in
   * 0..9999 it is always twenty characters long.
   */
  lemma LayoutMatchesStamp(t: DateTime)
    ensures 1000 <= t.year <= 9999 ==> LayoutText(t) == StampText(t)
    ensures Valid(t) && 0 <= t.year <= 9999 ==> |LayoutText(t)| == 20
  {
    if 1000 <= t.year <= 9999 {
      LayoutYearFourDigits(t.year);
    }
    if Valid(t) && 0 <= t.year <= 9999 {
      LayoutYearLength(t.year);
      PadTwoDigits(t.month);
      PadTwoDigits(t.day);
      PadTwoDigits(t.hour);
      PadTwoDigits(t.minute);
      PadTwoDigits(t.second);
    }
  }

  lemma PadTwoDigits(n: nat)
    requires n < 100
    ensures |Pad2(n)| == 2
  {
    assert Pow10(1) == 10 && Pow10(2) == 100;
    if n < 10 { DecimalLength(n, 1); } else { DecimalLength(n, 2); }
  }
}

=== FILE: day.dfy ===
/**
 * `format.Day` of internal/format/day.go: a calendar date read from and
 * written to JSON as "YYYY-MM-DD", and stored as a nullable time.
 */
module DayFormat {
  import opened Wrappers
  import opened Text
  import opened Civil
  import opened NullTypes

  datatype Day = Day(v: NullTime)

  /** A calendar date as `time.Parse` extracts it. */
  datatype Date = Date(year: int, month: nat, day: nat)

  /**
   * `time.Parse("\"2006-01-02\"", s)`: a double quote, exactly four year
   * digits, '-', two month digits, '-', two day digits, a double quote and
   * nothing more; the month must lie in 1..12 and the day inside that month.
   */
  function ParseQuotedDate(s: string): (r: Option<Date>)
    ensures r.Some? ==> |s| == 12 && s[0] == '"' && s[11] == '"' && s[5] == '-' && s[8] == '-'
    ensures r.Some? ==> ValidDate(r.value.year, r.value.month, r.value.day)
    ensures r.Some? ==> 0 <= r.value.year <= 9999
  {
    if |s| != 12 || s[0] != '"' || s[5] != '-' || s[8] != '-' || s[11] != '"' then None
    else if !AllDigits(s[1..5]) || !AllDigits(s[6..8]) || !AllDigits(s[9..11]) then None
    else
      var y := DigitsValue(s[1..5]);
      var m := DigitsValue(s[6..8]);
      var d := DigitsValue(s[9..11]);
      FourDigitsBound(s[1..5]);
      if ValidDate(y, m, d) then Some(Date(y, m, d)) else None
  }

  lemma FourDigitsBound(s: string)
    requires |s| == 4 && AllDigits(s)
    ensures DigitsValue(s) <= 9999
  {
    DigitsValueBound(s);
    assert Pow10(4) == 10000;
  }

  /**
   * `(*Day).UnmarshalJSON`. On success the day is valid and holds midnight
   * of the parsed date; on failure only the valid flag is cleared and the
   * error is reported (`false`).
   */
  function UnmarshalDay(d: Day, b: string): (r: (Day, bool))
    ensures r.1 <==> ParseQuotedDate(b).Some?
    ensures r.1 ==> r.0.v.valid
    ensures r.1 ==> var p := ParseQuotedDate(b).value; r.0.v.value == Midnight(p.year, p.month, p.day)
    ensures !r.1 ==> r.0 == Day(NullTime(d.v.value, false))
  {
    match ParseQuotedDate(b)
    case None => (Day(NullTime(d.v.value, false)), false)
    case Some(p) => (Day(NullTime(Midnight(p.year, p.month, p.day), true)), true)
  }

  /** `(*Day).MarshalJSON`: nil bytes when invalid, otherwise an UNQUOTED "year-MM-DD". */
  function MarshalDay(d: Day): (r: Option<string>)
    ensures r.None? <==> !d.v.valid
    ensures r.Some? ==> r.value == DateText(d.v.value)
    ensures r.Some? ==> '"' !in r.value
  {
    if !d.v.valid then None
    else
      DateTextUnquoted(d.v.value);
      Some(DateText(d.v.value))
  }

  lemma DateTextUnquoted(t: DateTime)
    ensures '"' !in DateText(t)
  {
    DigitsUnquoted(NatToDecimal(if t.year < 0 then -t.year else t.year));
    DigitsUnquoted(Pad2(t.month));
    DigitsUnquoted(Pad2(t.day));
    if t.year < 0 {
      assert IntToDecimal(t.year) == "-" + NatToDecimal(-t.year);
    }
  }

  lemma DigitsUnquoted(s: string)
    requires AllDigits(s)
    ensures '"' !in s
  {
    forall i | 0 <= i < |s| ensures s[i] != '"' {
      assert IsDigit(s[i]);
    }
  }

  /** `Day.Value`: nil when invalid, otherwise the stored time. */
  function ValueDay(d: Day): (v: DbValue)
    ensures v.DbNull? <==> !d.v.valid
    ensures d.v.valid ==> v == DbTime(d.v.value)
  {
    ValueTime(d.v)
  }

  /** `(*Day).Scan`: nil gives an invalid day, a time gives a valid one, anything else fails. */
  function ScanDay(v: DbValue): (r: Result<Day, ConversionError>)
    ensures v.DbNull? ==> r.Success? && !r.value.v.valid
    ensures v.DbTime? ==> r == Success(Day(NullTime(v.t, true)))
    ensures !v.DbNull? && !v.DbTime? ==> r.Failure?
  {
    match ScanTime(v)
    case Success(n) => Success(Day(n))
    case Failure(e) => Failure(e)
  }

  lemma FourDigitYear(y: nat)
    requires 1000 <= y <= 9999
    ensures |NatToDecimal(y)| == 4
  {
    assert Pow10(3) == 1000 && Pow10(4) == 10000;
    DecimalLength(y, 4);
  }

  /** The parser accepts a quoted date assembled from four, two and two digits. */
  lemma ParseAssembled(ys: string, ms: string, ds: string)
    requires |ys| == 4 && |ms| == 2 && |ds| == 2
    requires AllDigits(ys) && AllDigits(ms) && AllDigits(ds)
    requires ValidDate(DigitsValue(ys), DigitsValue(ms), DigitsValue(ds))
    ensures ParseQuotedDate("\"" + ys + "-" + ms + "-" + ds + "\"")
         == Some(Date(DigitsValue(ys), DigitsValue(ms), DigitsValue(ds)))
  {
    var s := "\"" + ys + "-" + ms + "-" + ds + "\"";
    assert s[1..5] == ys;
    assert s[6..8] == ms;
    assert s[9..11] == ds;
  }

  /**
   * For a valid day whose year has four digits, quoting what `MarshalDay`
   * writes and feeding it to `UnmarshalDay` recovers the same date.
   */
  lemma MarshalUnmarshalRoundTrip(d: Day, any: Day)
    requires d.v.valid && ValidDate(d.v.value.year, d.v.value.month, d.v.value.day)
    requires 1000 <= d.v.value.year <= 9999
    ensures MarshalDay(d).Some?
    ensures var r := UnmarshalDay(any, "\"" + MarshalDay(d).value + "\"");
      r.1 && r.0.v.valid && r.0.v.value == Midnight(d.v.value.year, d.v.value.month, d.v.value.day)
  {
    var t := d.v.value;
    var ys := IntToDecimal(t.year);
    var ms := Pad2(t.month);
    var ds := Pad2(t.day);
    FourDigitYear(t.year);
    ShortDecimal(t.month);
    ShortDecimal(t.day);
    DigitsValueOfDecimal(t.year);
    ParseAssembled(ys, ms, ds);
    assert "\"" + MarshalDay(d).value + "\"" == "\"" + ys + "-" + ms + "-" + ds + "\"";
  }
}

=== FILE: grouping.dfy ===
/**
 * `getRobotsByTicker`, present three times in the repository
 * (cmd/trade/trader.go, cmd/auth-api/handlers/trade/trader.go and, keeping
 * ids only, cmd/auth-api/handlers/trader/operate.go). The loop walks the
 * active robots in order, skips a robot whose id it has already seen, and
 * appends the others to the list of their ticker symbol. Reading the symbol
 * dereferences `r.Ticker`, so a kept robot without one is a panic.
 *
 * The loops are specified against two reference definitions: `KeepFirst`,
 * the first occurrence of every id in input order, and `Filter`, the robots
 * of one symbol in input order.
 */
module Grouping {
  import opened Wrappers
  import opened NullTypes
  import opened Robots

  type Groups = map<string, seq<Robot>>

  function Ids(rr: seq<Robot>): set<int> {
    set r | r in rr :: r.robotId
  }

  /** The symbols the robots of `rr` are filed under. */
  function Names(rr: seq<Robot>): set<string> {
    set r | r in rr && r.ticker.Some? :: TickerName(r)
  }

  predicate AllNamed(rr: seq<Robot>) {
    forall i | 0 <= i < |rr| :: rr[i].ticker.Some?
  }

  predicate DistinctIds(rr: seq<Robot>) {
    forall a, b | 0 <= a < |rr| && 0 <= b < |rr| && rr[a].robotId == rr[b].robotId :: a == b
  }

  /** Reference: the first robot of every id, in input order. */
  function KeepFirst(rr: seq<Robot>): seq<Robot>
    decreases |rr|
  {
    if |rr| == 0 then []
    else
      var prefix := rr[..|rr| - 1];
      if rr[|rr| - 1].robotId in Ids(prefix) then KeepFirst(prefix)
      else KeepFirst(prefix) + [rr[|rr| - 1]]
  }

  /** Reference: the robots of `rr` filed under symbol `k`, in input order. */
  function Filter(rr: seq<Robot>, k: string): seq<Robot>
    decreases |rr|
  {
    if |rr| == 0 then []
    else
      var r := rr[|rr| - 1];
      var rest := Filter(rr[..|rr| - 1], k);
      if r.ticker.Some? && TickerName(r) == k then rest + [r] else rest
  }

  /** `g` files every robot of `kept` under its symbol and has no other keys. */
  predicate Grouped(g: Groups, kept: seq<Robot>) {
    && AllNamed(kept)
    && g.Keys == Names(kept)
    && forall k | k in g :: g[k] == Filter(kept, k)
  }

  /** A Go map read: the nil slice for a missing key. */
  function Lookup<T>(g: map<string, seq<T>>, k: string): seq<T> {
    if k in g then g[k] else []
  }

  lemma IdsAppend(rr: seq<Robot>, r: Robot)
    ensures Ids(rr + [r]) == Ids(rr) + {r.robotId}
  {
    assert forall x | x in rr + [r] :: x in rr || x == r;
    assert forall x | x in rr :: x in rr + [r];
  }

  lemma NamesAppend(rr: seq<Robot>, r: Robot)
    requires r.ticker.Some?
    ensures Names(rr + [r]) == Names(rr) + {TickerName(r)}
  {
    assert forall x | x in rr + [r] :: x in rr || x == r;
    assert forall x | x in rr :: x in rr + [r];
  }

  lemma {:induction false} FilterAppend(rr: seq<Robot>, r: Robot, k: string)
    ensures Filter(rr + [r], k) == if r.ticker.Some? && TickerName(r) == k then Filter(rr, k) + [r] else Filter(rr, k)
  {
    assert (rr + [r])[..|rr + [r]| - 1] == rr;
  }

  /** Every input id survives the dedup. */
  lemma {:induction false} KeepFirstIds(rr: seq<Robot>)
    ensures Ids(KeepFirst(rr)) == Ids(rr)
    decreases |rr|
  {
    if |rr| > 0 {
      var prefix := rr[..|rr| - 1];
      assert rr == prefix + [rr[|rr| - 1]];
      KeepFirstIds(prefix);
      IdsAppend(prefix, rr[|rr| - 1]);
      IdsAppend(KeepFirst(prefix), rr[|rr| - 1]);
    }
  }

  /** No id is kept twice. */
  lemma {:induction false} KeepFirstDistinct(rr: seq<Robot>)
    ensures DistinctIds(KeepFirst(rr))
    decreases |rr|
  {
    if |rr| > 0 {
      var prefix := rr[..|rr| - 1];
      KeepFirstDistinct(prefix);
      KeepFirstIds(prefix);
      var kept := KeepFirst(prefix);
      if rr[|rr| - 1].robotId !in Ids(prefix) {
        forall a | 0 <= a < |kept| ensures kept[a].robotId != rr[|rr| - 1].robotId {
          assert kept[a] in kept;
        }
      }
    }
  }

  /** Every kept robot is an input robot. */
  lemma {:induction false} KeepFirstMembers(rr: seq<Robot>)
    ensures forall r | r in KeepFirst(rr) :: r in rr
    decreases |rr|
  {
    if |rr| > 0 {
      var prefix := rr[..|rr| - 1];
      KeepFirstMembers(prefix);
      assert forall r | r in prefix :: r in rr;
    }
  }

  /** Dedup of a prefix is a prefix of the dedup. */
  lemma {:induction false} KeepFirstPrefix(rr: seq<Robot>, i: nat)
    requires i <= |rr|
    ensures KeepFirst(rr[..i]) <= KeepFirst(rr)
    decreases |rr| - i
  {
    if i < |rr| {
      var prefix := rr[..|rr| - 1];
      assert prefix[..i] == rr[..i];
      KeepFirstPrefix(prefix, i);
    } else {
      assert rr[..i] == rr;
    }
  }

  /**
   * When an id repeats, the earliest robot carrying it is the one kept, and a
   * later robot with that id is kept only if it is that very robot.
   */
  lemma FirstOccurrenceWins(rr: seq<Robot>, i: nat, j: nat)
    requires i < j < |rr| && rr[i].robotId == rr[j].robotId
    requires rr[i].robotId !in Ids(rr[..i])
    ensures rr[i] in KeepFirst(rr)
    ensures rr[j] in KeepFirst(rr) ==> rr[j] == rr[i]
  {
    var upto := rr[..i + 1];
    assert upto[..|upto| - 1] == rr[..i];
    assert rr[i] in KeepFirst(upto);
    KeepFirstPrefix(rr, i + 1);
    var kept := KeepFirst(rr);
    if rr[j] in kept {
      KeepFirstDistinct(rr);
      var a :| 0 <= a < |kept| && kept[a] == rr[i];
      var b :| 0 <= b < |kept| && kept[b] == rr[j];
      assert a == b;
    }
  }

  lemma {:induction false} FilterEmpty(rr: seq<Robot>, k: string)
    requires k !in Names(rr)
    ensures Filter(rr, k) == []
    decreases |rr|
  {
    if |rr| > 0 {
      var prefix := rr[..|rr| - 1];
      assert forall r | r in prefix :: r in rr;
      FilterEmpty(prefix, k);
      assert rr[|rr| - 1] in rr;
    }
  }

  /** Every robot of `Filter(rr, k)` is an input robot filed under `k`; every such robot is there. */
  lemma {:induction false} FilterMembers(rr: seq<Robot>, k: string)
    ensures forall r | r in Filter(rr, k) :: r in rr && r.ticker.Some? && TickerName(r) == k
    ensures forall r | r in rr && r.ticker.Some? && TickerName(r) == k :: r in Filter(rr, k)
    decreases |rr|
  {
    if |rr| > 0 {
      var prefix := rr[..|rr| - 1];
      FilterMembers(prefix, k);
      assert rr == prefix + [rr[|rr| - 1]];
      assert forall r | r in rr :: r in prefix || r == rr[|rr| - 1];
    }
  }

  lemma {:induction false} FilterDistinct(rr: seq<Robot>, k: string)
    requires DistinctIds(rr)
    ensures DistinctIds(Filter(rr, k))
    decreases |rr|
  {
    if |rr| > 0 {
      var prefix := rr[..|rr| - 1];
      var r := rr[|rr| - 1];
      assert DistinctIds(prefix);
      FilterDistinct(prefix, k);
      FilterMembers(prefix, k);
      var f := Filter(prefix, k);
      if r.ticker.Some? && TickerName(r) == k {
        forall a | 0 <= a < |f| ensures f[a].robotId != r.robotId {
          assert f[a] in f;
          var c :| 0 <= c < |prefix| && prefix[c] == f[a];
          assert rr[c] == f[a];
        }
      }
    }
  }

  /** Two positions of groups over a duplicate-free list that carry the same id are the same position. */
  lemma FiltersDisjoint(kept: seq<Robot>, k1: string, k2: string, i: nat, j: nat)
    requires DistinctIds(kept)
    requires i < |Filter(kept, k1)| && j < |Filter(kept, k2)|
    requires Filter(kept, k1)[i].robotId == Filter(kept, k2)[j].robotId
    ensures k1 == k2 && i == j
  {
    FilterMembers(kept, k1);
    FilterMembers(kept, k2);
    var x := Filter(kept, k1)[i];
    var y := Filter(kept, k2)[j];
    assert x in Filter(kept, k1) && y in Filter(kept, k2);
    var a :| 0 <= a < |kept| && kept[a] == x;
    var b :| 0 <= b < |kept| && kept[b] == y;
    assert a == b;
    FilterDistinct(kept, k1);
  }

  /** One more input robot: it is kept exactly when its id is new. */
  lemma KeepFirstStep(rr: seq<Robot>, i: nat)
    requires i < |rr|
    ensures Ids(rr[..i + 1]) == Ids(rr[..i]) + {rr[i].robotId}
    ensures KeepFirst(rr[..i + 1]) == if rr[i].robotId in Ids(rr[..i]) then KeepFirst(rr[..i]) else KeepFirst(rr[..i]) + [rr[i]]
  {
    var upto := rr[..i + 1];
    assert upto[..i] == rr[..i] && upto == rr[..i] + [rr[i]];
    IdsAppend(rr[..i], rr[i]);
  }

  /** A kept robot without a ticker stays in the final kept list, which is then not all named. */
  lemma UnnamedKept(rr: seq<Robot>, i: nat)
    requires i < |rr| && rr[i].robotId !in Ids(rr[..i]) && rr[i].ticker.None?
    ensures !AllNamed(KeepFirst(rr))
  {
    KeepFirstStep(rr, i);
    KeepFirstPrefix(rr, i + 1);
    assert KeepFirst(rr)[|KeepFirst(rr[..i])|] == rr[i];
  }

  /** Filing one more named robot under its symbol keeps the grouping exact. */
  lemma GroupedStep(g: Groups, kept: seq<Robot>, r: Robot)
    requires Grouped(g, kept) && r.ticker.Some?
    ensures Grouped(g[TickerName(r) := Lookup(g, TickerName(r)) + [r]], kept + [r])
  {
    var k := TickerName(r);
    if k !in g {
      FilterEmpty(kept, k);
    }
    NamesAppend(kept, r);
    var g' := g[k := Lookup(g, k) + [r]];
    forall k' | k' in g' ensures g'[k'] == Filter(kept + [r], k') {
      FilterAppend(kept, r, k');
    }
    assert AllNamed(kept + [r]) by {
      forall i | 0 <= i < |kept| + 1 ensures (kept + [r])[i].ticker.Some? {
        if i < |kept| { assert (kept + [r])[i] == kept[i]; }
      }
    }
  }

  /** The Go loop of `getRobotsByTicker`; `None` is the nil-ticker panic. */
  method GetRobotsByTicker(rr: seq<Robot>) returns (res: Option<Groups>)
    ensures res.None? <==> !AllNamed(KeepFirst(rr))
    ensures res.Some? ==> Grouped(res.value, KeepFirst(rr))
  {
    var g: Groups := map[];
    var seen: set<int> := {};
    for i := 0 to |rr|
      invariant seen == Ids(rr[..i])
      invariant Grouped(g, KeepFirst(rr[..i]))
    {
      var r := rr[i];
      KeepFirstStep(rr, i);
      if r.robotId !in seen {
        if r.ticker.None? {
          UnnamedKept(rr, i);
          return None;
        }
        GroupedStep(g, KeepFirst(rr[..i]), r);
        g := g[TickerName(r) := Lookup(g, TickerName(r)) + [r]];
        seen := seen + {r.robotId};
      }
    }
    assert rr[..|rr|] == rr;
    return Some(g);
  }

  /** Every id lands in exactly one group, exactly once. */
  lemma GroupsDisjoint(rr: seq<Robot>, g: Groups, k1: string, k2: string, i: nat, j: nat)
    requires Grouped(g, KeepFirst(rr))
    requires k1 in g && k2 in g && i < |g[k1]| && j < |g[k2]|
    requires g[k1][i].robotId == g[k2][j].robotId
    ensures k1 == k2 && i == j
  {
    KeepFirstDistinct(rr);
    FiltersDisjoint(KeepFirst(rr), k1, k2, i, j);
  }

  /** Every input id appears in some group, under the symbol of its first robot. */
  lemma EveryIdGrouped(rr: seq<Robot>, g: Groups, i: nat)
    requires Grouped(g, KeepFirst(rr)) && i < |rr|
    ensures exists k, j :: k in g && 0 <= j < |g[k]| && g[k][j].robotId == rr[i].robotId
  {
    var kept := KeepFirst(rr);
    KeepFirstIds(rr);
    assert rr[i].robotId in Ids(kept) by { assert rr[i] in rr; }
    var r :| r in kept && r.robotId == rr[i].robotId;
    var j := FiledAt(kept, r);
  }

  /** Where a named robot sits in its own symbol's group. */
  lemma FiledAt(kept: seq<Robot>, r: Robot) returns (j: nat)
    requires AllNamed(kept) && r in kept
    ensures r.ticker.Some? && TickerName(r) in Names(kept)
    ensures j < |Filter(kept, TickerName(r))| && Filter(kept, TickerName(r))[j] == r
  {
    var a :| 0 <= a < |kept| && kept[a] == r;
    var k := TickerName(r);
    FilterMembers(kept, k);
    assert r in Filter(kept, k);
    j :| 0 <= j < |Filter(kept, k)| && Filter(kept, k)[j] == r;
  }

  /** The ids of a list of robots, position by position. */
  function IdsOf(rr: seq<Robot>): (ids: seq<int>)
    ensures |ids| == |rr|
    ensures forall i | 0 <= i < |rr| :: ids[i] == rr[i].robotId
  {
    if |rr| == 0 then [] else IdsOf(rr[..|rr| - 1]) + [rr[|rr| - 1].robotId]
  }

  /** The ids-only copy of the loop; `None` is the nil-ticker panic. */
  method GetIdsByTicker(rr: seq<Robot>) returns (res: Option<map<string, seq<int>>>)
    ensures res.None? <==> !AllNamed(KeepFirst(rr))
    ensures res.Some? ==> res.value.Keys == Names(KeepFirst(rr))
    ensures res.Some? ==> forall k | k in res.value :: res.value[k] == IdsOf(Filter(KeepFirst(rr), k))
  {
    var g: map<string, seq<int>> := map[];
    var seen: set<int> := {};
    for i := 0 to |rr|
      invariant seen == Ids(rr[..i])
      invariant IdGrouped(g, KeepFirst(rr[..i]))
    {
      var r := rr[i];
      KeepFirstStep(rr, i);
      if r.robotId !in seen {
        if r.ticker.None? {
          UnnamedKept(rr, i);
          return None;
        }
        IdGroupedStep(g, KeepFirst(rr[..i]), r);
        g := g[TickerName(r) := Lookup(g, TickerName(r)) + [r.robotId]];
        seen := seen + {r.robotId};
      }
    }
    assert rr[..|rr|] == rr;
    return Some(g);
  }

  /** `g` files the id of every robot of `kept` under its symbol and has no other keys. */
  predicate IdGrouped(g: map<string, seq<int>>, kept: seq<Robot>) {
    && AllNamed(kept)
    && g.Keys == Names(kept)
    && forall k | k in g :: g[k] == IdsOf(Filter(kept, k))
  }

  /** Filing one more named robot's id under its symbol keeps the id grouping exact. */
  lemma IdGroupedStep(g: map<string, seq<int>>, kept: seq<Robot>, r: Robot)
    requires IdGrouped(g, kept) && r.ticker.Some?
    ensures IdGrouped(g[TickerName(r) := Lookup(g, TickerName(r)) + [r.robotId]], kept + [r])
  {
    var k := TickerName(r);
    if k !in g {
      FilterEmpty(kept, k);
    }
    NamesAppend(kept, r);
    IdsStep(g, kept, r);
  }

  lemma IdsStep(g: map<string, seq<int>>, kept: seq<Robot>, r: Robot)
    requires r.ticker.Some?
    requires forall k | k in g :: g[k] == IdsOf(Filter(kept, k))
    requires TickerName(r) !in g ==> Filter(kept, TickerName(r)) == []
    ensures var g' := g[TickerName(r) := Lookup(g, TickerName(r)) + [r.robotId]];
      forall k | k in g' :: g'[k] == IdsOf(Filter(kept + [r], k))
  {
    var k := TickerName(r);
    var g' := g[k := Lookup(g, k) + [r.robotId]];
    forall k' | k' in g' ensures g'[k'] == IdsOf(Filter(kept + [r], k')) {
      FilterAppend(kept, r, k');
      if k' == k {
        var f := Filter(kept, k);
        assert IdsOf(f + [r]) == IdsOf(f) + [r.robotId] by {
          assert (f + [r])[..|f|] == f;
        }
      }
    }
  }

  /** In the ids-only grouping too, an id appears in one group, once. */
  lemma IdGroupsDisjoint(rr: seq<Robot>, g: map<string, seq<int>>, k1: string, k2: string, i: nat, j: nat)
    requires forall k | k in g :: g[k] == IdsOf(Filter(KeepFirst(rr), k))
    requires k1 in g && k2 in g && i < |g[k1]| && j < |g[k2]| && g[k1][i] == g[k2][j]
    ensures k1 == k2 && i == j
  {
    KeepFirstDistinct(rr);
    FiltersDisjoint(KeepFirst(rr), k1, k2, i, j);
  }
}

=== FILE: html.dfy ===
/**
 * Template print helpers of internal/format/html.go. Each takes a possibly
 * nil pointer to a nullable wrapper and prints "" unless it holds a valid value.
 */
module Html {
  import opened Wrappers
  import opened Text
  import opened Civil
  import opened NullTypes

  /** `PrintNullInt64`: the decimal rendering of a valid value. */
  function PrintNullInt64(n: Option<NullInt64>): (s: string)
    ensures (n.None? || !n.value.valid) <==> s == ""
    ensures n.Some? && n.value.valid ==> ParseInt64(s) == (if InInt64(n.value.value) then Some(n.value.value) else None)
  {
    if n.None? || !n.value.valid then ""
    else
      ParseRenderedAny(n.value.value);
      IntToDecimal(n.value.value)
  }

  /**
   * `PrintNullFloat64`: `%2f` of a valid value. Float rendering belongs to
   * `fmt`, so the rendering is a parameter.
   */
  function PrintNullFloat64(n: Option<NullFloat64>, render: real -> string): (s: string)
    ensures n.None? || !n.value.valid ==> s == ""
    ensures n.Some? && n.value.valid ==> s == render(n.value.value)
  {
    if n.None? || !n.value.valid then "" else render(n.value.value)
  }

  /** `PrintNullString`: a valid value is printed unchanged. */
  function PrintNullString(n: Option<NullString>): (s: string)
    ensures n.None? || !n.value.valid ==> s == ""
    ensures n.Some? && n.value.valid ==> s == n.value.value
  {
    if n.None? || !n.value.valid then "" else n.value.value
  }

  /**
   * `PrintNullTime`: layout "2006-01-02T15:04:05Z" of a valid value. For a
   * four-digit year that is the same stamp the JSON encoding writes.
   */
  function PrintNullTime(n: Option<NullTime>): (s: string)
    ensures (n.None? || !n.value.valid) <==> s == ""
    ensures n.Some? && n.value.valid ==> s[|s| - 1] == 'Z'
    ensures n.Some? && n.value.valid && 1000 <= n.value.value.year <= 9999 ==> s == StampText(n.value.value)
    ensures n.Some? && n.value.valid && Valid(n.value.value) && 0 <= n.value.value.year <= 9999 ==> |s| == 20
  {
    if n.None? || !n.value.valid then ""
    else
      LayoutMatchesStamp(n.value.value);
      LayoutText(n.value.value)
  }

  /** A valid time prints as the stamp inside the quotes of its JSON encoding. */
  lemma PrintNullTimeMatchesJson(n: NullTime)
    requires n.valid && 1000 <= n.value.year <= 9999
    ensures MarshalTime(n).Some?
    ensures PrintNullTime(Some(n)) == MarshalTime(n).value[1..|MarshalTime(n).value| - 1]
  {
  }

  /** The base html.go passes to `strconv.FormatInt`. */
  const JoinBase: int := 64

  /**
   * `JoinNullInt` as written: `strconv.FormatInt(v, 64)` panics because 64
   * is not a base in 2..36, so every valid argument crashes (`None`).
   */
  function JoinNullIntAsWritten(prefix: string, n: Option<NullInt64>): (r: Option<string>)
    ensures (n.None? || !n.value.valid) ==> r == Some("")
  {
    if n.None? || !n.value.valid then Some("")
    else match FormatInt(n.value.value, JoinBase)
      case None => None
      case Some(digits) => Some(prefix + digits)
  }

  /** A valid argument always makes the as-written helper crash. */
  lemma JoinNullIntAsWrittenCrashes(prefix: string, v: int)
    ensures JoinNullIntAsWritten(prefix, Some(NullInt64(v, true))).None?
    ensures JoinNullIntAsWritten("id=", Some(NullInt64(7, true))) == None
  {
  }

  /**
   * `JoinNullInt` with the evidently intended base 10: the prefix followed by
   * the decimal value, which parses back to the stored number.
   */
  function JoinNullInt(prefix: string, n: Option<NullInt64>): (r: string)
    ensures (n.None? || !n.value.valid) ==> r == ""
    ensures n.Some? && n.value.valid ==> |r| > |prefix| && r[..|prefix|] == prefix
    ensures n.Some? && n.value.valid && InInt64(n.value.value) ==> ParseInt64(r[|prefix|..]) == Some(n.value.value)
  {
    if n.None? || !n.value.valid then ""
    else
      var digits := FormatInt(n.value.value, 10).value;
      var out := prefix + digits;
      assert out[..|prefix|] == prefix && out[|prefix|..] == digits;
      ParseRenderedAny(n.value.value);
      out
  }

  /** Every print helper yields "" for a nil or invalid argument. */
  lemma NullPrintsEmpty(render: real -> string, prefix: string, i: int, f: real, s: string, t: DateTime)
    ensures PrintNullInt64(None) == "" && PrintNullInt64(Some(NullInt64(i, false))) == ""
    ensures PrintNullFloat64(None, render) == "" && PrintNullFloat64(Some(NullFloat64(f, false)), render) == ""
    ensures PrintNullString(None) == "" && PrintNullString(Some(NullString(s, false))) == ""
    ensures PrintNullTime(None) == "" && PrintNullTime(Some(NullTime(t, false))) == ""
    ensures JoinNullInt(prefix, None) == "" && JoinNullInt(prefix, Some(NullInt64(i, false))) == ""
  {
  }
}

=== FILE: httperror.dfy ===
/**
 * `HTTPError` of cmd/auth-api/handlers/httperror.go: an error with a log
 * context, an optional cause, a client-facing detail and a status code.
 * Only the detail is serialised, under the key "error", and only when it is
 * not empty.
 */
module HttpErrors {
  import opened Wrappers
  import opened Json

  /** The cause is kept as the text its `Error()` returns; `None` is a nil cause. */
  datatype HttpError = HttpError(context: string, cause: Option<string>, detail: string, status: int)

  const ContentType: map<string, string> := map["Content-Type" := "application/json"]

  /** `(*HTTPError).Error`. */
  function ErrorText(e: HttpError): (s: string)
    ensures e.cause.None? ==> s == e.context
    ensures e.cause.Some? ==> |s| == |e.context| + 2 + |e.cause.value|
  {
    match e.cause
    case None => e.context
    case Some(c) => e.context + ": " + c
  }

  /** The message starts with the context, and a cause can be read back after the ": ". */
  lemma ErrorTextParts(e: HttpError)
    ensures |e.context| <= |ErrorText(e)| && ErrorText(e)[..|e.context|] == e.context
    ensures e.cause.Some? ==> (
      && ErrorText(e)[|e.context|..|e.context| + 2] == ": "
      && ErrorText(e)[|e.context| + 2..] == e.cause.value)
  {
  }

  /** `(*HTTPError).ResponseBody`: no body for an empty detail, else `{"error": detail}`. */
  function ResponseBody(e: HttpError): (b: Option<Json>)
    ensures b.None? <==> e.detail == ""
    ensures b.Some? ==> b.value.JObject? && Names(b.value.fields) == ["error"]
    ensures b.Some? ==> Field(b.value.fields, "error") == Some(JString(e.detail))
  {
    if e.detail == "" then None else Some(JObject([("error", JString(e.detail))]))
  }

  /** Two errors have the same body exactly when they carry the same detail. */
  lemma BodyDeterminedByDetail(e1: HttpError, e2: HttpError)
    ensures ResponseBody(e1) == ResponseBody(e2) <==> e1.detail == e2.detail
  {
    if ResponseBody(e1) == ResponseBody(e2) && e1.detail != "" {
      assert ResponseBody(e1).value.fields[0].1 == JString(e1.detail);
    }
  }

  /** `(*HTTPError).ResponseHeaders`. */
  function ResponseHeaders(e: HttpError): (h: (int, map<string, string>))
    ensures h.0 == e.status
    ensures h.1.Keys == {"Content-Type"} && h.1["Content-Type"] == "application/json"
  {
    (e.status, ContentType)
  }

  /** The headers depend on the status alone. */
  lemma HeadersIgnoreText(e: HttpError, context: string, cause: Option<string>, detail: string)
    ensures ResponseHeaders(e.(context := context, cause := cause, detail := detail)) == ResponseHeaders(e)
  {
  }
}

=== FILE: hub.dfy ===
/**
 * The ticker registry `Hub` of cmd/trade/hub.go and its identical twin in
 * cmd/auth-api/handlers/trade/hub.go. Each message on one of its three
 * channels is one step. Tickers are compared by pointer, so they are
 * references here. The symbol index `names` is never assigned: `NewHub`
 * leaves it nil and `Run` only reads it.
 */
module Hub {
  import opened Robots
  import Reconcile

  type TickerRef = nat

  datatype Hub = Hub(tickers: set<TickerRef>, names: map<string, TickerRef>)

  datatype Message =
    | RegisterMsg(ticker: TickerRef, robots: seq<Robot>)
    | UnregisterMsg(ticker: TickerRef)
    | BroadcastMsg(symbol: string, robots: seq<Robot>)

  /** What a step does to the tickers: start one (run, deal loop, robot hand-over), stop one, or forward robots to one. */
  datatype Effect =
    | Started(ticker: TickerRef, robots: seq<Robot>)
    | StopSent(ticker: TickerRef)
    | Forwarded(ticker: TickerRef, robots: seq<Robot>)

  /** `NewHub`: no tickers and a nil symbol index. */
  function NewHub(): (h: Hub)
    ensures h.tickers == {} && h.names == map[]
  {
    Hub({}, map[])
  }

  /** One arm of `Run`'s select. */
  function Step(h: Hub, m: Message): (out: (Hub, seq<Effect>))
    ensures out.0.names == h.names
    ensures m.RegisterMsg? ==> out.0.tickers == h.tickers + {m.ticker} && out.1 == [Started(m.ticker, m.robots)]
    ensures m.UnregisterMsg? && m.ticker in h.tickers ==> out.0.tickers == h.tickers - {m.ticker} && out.1 == [StopSent(m.ticker)]
    ensures m.UnregisterMsg? && m.ticker !in h.tickers ==> out == (h, [])
    ensures m.BroadcastMsg? ==> out.0 == h
    ensures m.BroadcastMsg? ==> (out.1 == [] <==> m.symbol !in h.names)
    ensures m.BroadcastMsg? && m.symbol in h.names ==> out.1 == [Forwarded(h.names[m.symbol], m.robots)]
  {
    match m
    case RegisterMsg(t, rs) => (h.(tickers := h.tickers + {t}), [Started(t, rs)])
    case UnregisterMsg(t) =>
      if t in h.tickers then (h.(tickers := h.tickers - {t}), [StopSent(t)]) else (h, [])
    case BroadcastMsg(k, rs) =>
      if k in h.names then (h, [Forwarded(h.names[k], rs)]) else (h, [])
  }

  /** `Run` over a sequence of messages: the final registry and every effect in order. */
  function Run(h: Hub, msgs: seq<Message>): (out: (Hub, seq<Effect>))
    decreases |msgs|
  {
    if |msgs| == 0 then (h, [])
    else
      var (h1, e1) := Step(h, msgs[0]);
      var (h2, e2) := Run(h1, msgs[1..]);
      (h2, e1 + e2)
  }

  /** `Run` never writes the symbol index. */
  lemma {:induction false} RunKeepsNames(h: Hub, msgs: seq<Message>)
    ensures Run(h, msgs).0.names == h.names
    decreases |msgs|
  {
    if |msgs| > 0 {
      RunKeepsNames(Step(h, msgs[0]).0, msgs[1..]);
    }
  }

  /** Starting from `NewHub`, no broadcast ever reaches a ticker, whatever the messages. */
  lemma NewHubDropsBroadcasts(msgs: seq<Message>)
    ensures forall e | e in Run(NewHub(), msgs).1 :: !e.Forwarded?
  {
    DropsWithoutNames(NewHub(), msgs);
  }

  lemma {:induction false} DropsWithoutNames(h: Hub, msgs: seq<Message>)
    requires h.names == map[]
    ensures forall e | e in Run(h, msgs).1 :: !e.Forwarded?
    decreases |msgs|
  {
    if |msgs| > 0 {
      DropsWithoutNames(Step(h, msgs[0]).0, msgs[1..]);
    }
  }

  /** How many of `cmds` build a ticker: every Register and every Unregister. */
  function Built(cmds: seq<Reconcile.Command>): nat
    decreases |cmds|
  {
    if |cmds| == 0 then 0 else (if cmds[0].Broadcast? then 0 else 1) + Built(cmds[1..])
  }

  /** Counting the tickers built before command `i` of `cmds` skips the first command's own. */
  lemma BuiltShift(cmds: seq<Reconcile.Command>)
    requires |cmds| > 0
    ensures forall i | 0 < i <= |cmds| ::
      Built(cmds[..i]) == (if cmds[0].Broadcast? then 0 else 1) + Built(cmds[1..][..i - 1])
  {
    forall i | 0 < i <= |cmds|
      ensures Built(cmds[..i]) == (if cmds[0].Broadcast? then 0 else 1) + Built(cmds[1..][..i - 1])
    {
      assert cmds[..i][1..] == cmds[1..][..i - 1];
    }
  }

  /** The trader's commands as hub messages, one for one, in order. */
  function Dispatch(next: TickerRef, cmds: seq<Reconcile.Command>): (msgs: seq<Message>)
    decreases |cmds|
    ensures |msgs| == |cmds|
    ensures forall i | 0 <= i < |cmds| :: cmds[i].Register? <==> msgs[i].RegisterMsg?
    ensures forall i | 0 <= i < |cmds| :: cmds[i].Unregister? <==> msgs[i].UnregisterMsg?
    ensures forall i | 0 <= i < |cmds| :: msgs[i].UnregisterMsg? ==> msgs[i].ticker >= next
  {
    if |cmds| == 0 then []
    else match cmds[0]
      case Register(_, rs) => [RegisterMsg(next, rs)] + Dispatch(next + 1, cmds[1..])
      case Unregister(_, _) => [UnregisterMsg(next)] + Dispatch(next + 1, cmds[1..])
      case Broadcast(k, rs) => [BroadcastMsg(k, rs)] + Dispatch(next, cmds[1..])
  }

  /**
   * What each dispatched message carries: a Register or an Unregister builds
   * a new ticker, numbered by the tickers built before it, and a Register
   * hands it the command's robots; a Broadcast keeps its symbol and robots.
   */
  lemma {:induction false} DispatchMessages(next: TickerRef, cmds: seq<Reconcile.Command>)
    decreases |cmds|
    ensures var msgs := Dispatch(next, cmds);
      && (forall i | 0 <= i < |cmds| && cmds[i].Register? ::
            msgs[i] == RegisterMsg(next + Built(cmds[..i]), cmds[i].robots))
      && (forall i | 0 <= i < |cmds| && cmds[i].Unregister? ::
            msgs[i] == UnregisterMsg(next + Built(cmds[..i])))
      && (forall i | 0 <= i < |cmds| && cmds[i].Broadcast? ::
            msgs[i] == BroadcastMsg(cmds[i].symbol, cmds[i].robots))
  {
    if |cmds| > 0 {
      var next' := if cmds[0].Broadcast? then next else next + 1;
      var msgs := Dispatch(next, cmds);
      var rest := Dispatch(next', cmds[1..]);
      assert msgs == [msgs[0]] + rest;
      DispatchMessages(next', cmds[1..]);
      BuiltShift(cmds);
      assert cmds[..0] == [];
      forall i | 0 < i < |cmds| ensures msgs[i] == rest[i - 1] && cmds[i] == cmds[1..][i - 1] {
      }
    }
  }

  /** A later built ticker has a larger number than an earlier one. */
  lemma {:induction false} BuiltGrows(cmds: seq<Reconcile.Command>, i: nat, j: nat)
    requires i < j <= |cmds| && !cmds[i].Broadcast?
    ensures Built(cmds[..i]) < Built(cmds[..j])
    decreases |cmds|
  {
    BuiltShift(cmds);
    if i > 0 {
      BuiltGrows(cmds[1..], i - 1, j - 1);
    }
  }

  /** Every Register and Unregister message of a dispatch names a different ticker, all at or above `next`. */
  lemma DispatchTickersDistinct(next: TickerRef, cmds: seq<Reconcile.Command>, i: nat, j: nat)
    requires i < j < |cmds| && !cmds[i].Broadcast? && !cmds[j].Broadcast?
    ensures var msgs := Dispatch(next, cmds);
      msgs[i].ticker >= next && msgs[j].ticker >= next && msgs[i].ticker < msgs[j].ticker
  {
    DispatchMessages(next, cmds);
    BuiltGrows(cmds, i, j);
  }

  /**
   * Fed the trader's commands, the hub never stops a ticker: the ticker an
   * Unregister builds is new, so it is never among the registered ones.
   */
  lemma {:induction false} DispatchNeverStops(h: Hub, next: TickerRef, cmds: seq<Reconcile.Command>)
    requires forall t | t in h.tickers :: t < next
    ensures forall e | e in Run(h, Dispatch(next, cmds)).1 :: !e.StopSent?
    ensures h.tickers <= Run(h, Dispatch(next, cmds)).0.tickers
    decreases |cmds|
  {
    if |cmds| > 0 {
      var msgs := Dispatch(next, cmds);
      var (h1, e1) := Step(h, msgs[0]);
      var next' := if cmds[0].Broadcast? then next else next + 1;
      assert msgs[1..] == Dispatch(next', cmds[1..]);
      DispatchNeverStops(h1, next', cmds[1..]);
    }
  }
}

=== FILE: json.dfy ===
/**
 * The value `encoding/json` is asked to encode. The byte-level encoding
 * (escaping, float rendering) is the library's; the model keeps the tree.
 */
module Json {
  import opened Wrappers

  datatype Json =
    | JNull
    | JBool(b: bool)
    | JInt(i: int)
    | JFloat(f: real)
    | JString(s: string)
    | JArray(items: seq<Json>)
    | JObject(fields: seq<(string, Json)>)

  /** The member names of an object, in emission order. */
  function Names(fields: seq<(string, Json)>): (names: seq<string>)
    ensures |names| == |fields|
    ensures forall i | 0 <= i < |fields| :: names[i] == fields[i].0
  {
    if |fields| == 0 then [] else [fields[0].0] + Names(fields[1..])
  }

  /** The value of the first member called `name`, as a decoder reading the object would find it. */
  function Field(fields: seq<(string, Json)>, name: string): (v: Option<Json>)
    ensures v.Some? ==> (name, v.value) in fields
  {
    if |fields| == 0 then None
    else if fields[0].0 == name then Some(fields[0].1)
    else Field(fields[1..], name)
  }

  /** A member no earlier member shares a name with is the one `Field` finds. */
  lemma {:induction false} FieldAt(fields: seq<(string, Json)>, i: nat)
    requires i < |fields|
    requires forall j | 0 <= j < i :: fields[j].0 != fields[i].0
    ensures Field(fields, fields[i].0) == Some(fields[i].1)
  {
    if i > 0 {
      FieldAt(fields[1..], i - 1);
    }
  }
}

=== FILE: legacy_client.dfy ===
/**
 * The older trading client of cmd/auth-api/handlers/trade/client.go. It keeps
 * no executed prices of its own: a buy overwrites the robot's BuyPrice
 * threshold with the quote, a sell overwrites SellPrice, and a settled cycle
 * adds SellPrice − BuyPrice taken from those overwritten fields.
 *
 * This variant's `initClient` (cmd/auth-api/handlers/trade/ticker.go) sets
 * neither the logger nor the hub, and every buy, sell and settlement calls
 * the logger. `CanMakeTrade` is the client with both, as evidently intended;
 * `CanMakeTradeAsWritten` is the client as built, which panics instead.
 */
module LegacyClient {
  import opened Wrappers
  import opened Text
  import opened NullTypes
  import opened Robots
  import TradeClient

  datatype Client = Client(robot: Robot, isBuying: bool, isSelling: bool)

  /** Same effects as the newer client: storage update, its logged failure, broadcast. */
  datatype Step = Step(client: Client, persisted: bool, errorLogged: bool, broadcast: bool)

  /** `initClient` of this variant: NEITHER flag is set. */
  function InitClient(r: Robot): (c: Client)
    ensures c.robot == r && !c.isBuying && !c.isSelling
  {
    Client(r, false, false)
  }

  function SetBuyPrice(r: Robot, p: real): (s: Robot)
    requires r.buyPrice.Some?
    ensures s.buyPrice == Some(r.buyPrice.value.(value := p))
    ensures s == r.(buyPrice := s.buyPrice)
  {
    r.(buyPrice := Some(r.buyPrice.value.(value := p)))
  }

  function SetSellPrice(r: Robot, p: real): (s: Robot)
    requires r.sellPrice.Some?
    ensures s.sellPrice == Some(r.sellPrice.value.(value := p))
    ensures s == r.(sellPrice := s.sellPrice)
  {
    r.(sellPrice := Some(r.sellPrice.value.(value := p)))
  }

  /**
   * `(*Client).canMakeTrade` for one tick of a client that has a logger and a
   * hub; `updateFails` is the storage's answer.
   */
  function CanMakeTrade(c: Client, t: Tick, updateFails: bool): (s: Step)
    ensures !TradeClient.IsValid(c.robot) ==> s == Step(c, false, false, false)
    ensures TradeClient.IsValid(c.robot) ==> TradeClient.IsValid(s.client.robot)
    ensures s.persisted <==> s.broadcast
    ensures s.errorLogged <==> s.persisted && updateFails
    ensures s.persisted ==> s.client.isBuying && !s.client.isSelling
    // buying with a quote at or under the threshold: the threshold becomes the quote
    ensures TradeClient.IsValid(c.robot) && c.isBuying && t.buyPrice <= c.robot.buyPrice.value.value
      ==> s.client.robot.buyPrice.value.value == t.buyPrice
    ensures TradeClient.IsValid(c.robot) && c.isBuying && t.buyPrice <= c.robot.buyPrice.value.value
            && t.sellPrice < c.robot.sellPrice.value.value
      ==> s == Step(Client(SetBuyPrice(c.robot, t.buyPrice), false, true), false, false, false)
    // selling with a quote at or over the threshold: the threshold becomes the quote
    ensures TradeClient.IsValid(c.robot) && c.isSelling && !c.isBuying && t.sellPrice >= c.robot.sellPrice.value.value
      ==> s.client.robot.sellPrice.value.value == t.sellPrice && s.persisted
    // a settled cycle books the difference of the (overwritten) thresholds
    ensures s.persisted ==> (
      && TradeClient.IsValid(c.robot)
      && var pre := s.client.robot.(factYield := c.robot.factYield, dealsCount := c.robot.dealsCount);
         s.client.robot == TradeClient.Settle(pre, pre.sellPrice.value.value - pre.buyPrice.value.value))
    // nothing happens while buying above the threshold, or while selling below it
    ensures TradeClient.IsValid(c.robot) && c.isBuying && !c.isSelling && t.buyPrice > c.robot.buyPrice.value.value
      ==> s == Step(c, false, false, false)
    ensures TradeClient.IsValid(c.robot) && c.isSelling && !c.isBuying && t.sellPrice < c.robot.sellPrice.value.value
      ==> s == Step(c, false, false, false)
    // a threshold is kept unless the tick trades on its side; a sell follows a buy in the same call
    ensures !(TradeClient.IsValid(c.robot) && c.isBuying && t.buyPrice <= c.robot.buyPrice.value.value)
      ==> s.client.robot.buyPrice == c.robot.buyPrice
    ensures !(TradeClient.IsValid(c.robot)
              && (c.isSelling || (c.isBuying && t.buyPrice <= c.robot.buyPrice.value.value))
              && t.sellPrice >= c.robot.sellPrice.value.value)
      ==> s.client.robot.sellPrice == c.robot.sellPrice
    ensures (&& TradeClient.IsValid(c.robot)
             && (c.isSelling || (c.isBuying && t.buyPrice <= c.robot.buyPrice.value.value))
             && t.sellPrice >= c.robot.sellPrice.value.value)
      ==> s.client.robot.sellPrice.value.value == t.sellPrice
    ensures TradeClient.IsValid(c.robot) ==>
      && s.client.robot.buyPrice.value == c.robot.buyPrice.value.(value := s.client.robot.buyPrice.value.value)
      && s.client.robot.sellPrice.value == c.robot.sellPrice.value.(value := s.client.robot.sellPrice.value.value)
    // a cycle closes exactly when every side the client has open is met by the quote
    ensures s.persisted <==> (
      && TradeClient.IsValid(c.robot)
      && (c.isBuying ==> t.buyPrice <= c.robot.buyPrice.value.value)
      && (c.isBuying || c.isSelling ==> t.sellPrice >= c.robot.sellPrice.value.value))
    // only the thresholds and the result counters ever change
    ensures s.client.robot == c.robot.(buyPrice := s.client.robot.buyPrice, sellPrice := s.client.robot.sellPrice,
                                       factYield := s.client.robot.factYield, dealsCount := s.client.robot.dealsCount)
  {
    if !TradeClient.IsValid(c.robot) then Step(c, false, false, false)
    else
      var bought := c.isBuying && c.robot.buyPrice.value.value >= t.buyPrice;
      var c1 := if bought then Client(SetBuyPrice(c.robot, t.buyPrice), false, true) else c;
      var sold := c1.isSelling && c1.robot.sellPrice.value.value <= t.sellPrice;
      var c2 := if sold then Client(SetSellPrice(c1.robot, t.sellPrice), c1.isBuying, false) else c1;
      if !c2.isSelling && !c2.isBuying then
        var r := c2.robot;
        var settled := Client(TradeClient.Settle(r, r.sellPrice.value.value - r.buyPrice.value.value), true, false);
        Step(settled, true, updateFails, true)
      else
        Step(c2, false, false, false)
  }

  /**
   * The outcome of `canMakeTrade` on a client built by this variant's
   * `initClient`, which sets neither the logger nor the hub: the tick ends
   * normally, or the goroutine panics on the nil logger. `persisted` is the
   * robot handed to the storage update before the panic, if one was.
   */
  datatype Outcome = Ran(step: Step) | Panicked(persisted: Option<Robot>)

  /**
   * `(*Client).canMakeTrade` as written, for a client without a logger: a buy
   * panics at its log line, so does a sell, and a settlement panics after the
   * storage update (at the error log, or at the hub and log calls after it).
   */
  function CanMakeTradeAsWritten(c: Client, t: Tick, updateFails: bool): (o: Outcome)
    // it runs to the end exactly when the intended client would change nothing
    ensures o.Ran? <==> CanMakeTrade(c, t, updateFails) == Step(c, false, false, false)
    ensures o.Ran? ==> o.step == CanMakeTrade(c, t, updateFails)
    // the storage sees the settled robot only when a cycle closes without any buy or sell on this tick
    ensures o.Panicked? && o.persisted.Some? <==> TradeClient.IsValid(c.robot) && !c.isBuying && !c.isSelling
    ensures o.Panicked? && o.persisted.Some? ==> o.persisted.value == CanMakeTrade(c, t, updateFails).client.robot
  {
    if !TradeClient.IsValid(c.robot) then Ran(Step(c, false, false, false))
    else if c.isBuying && c.robot.buyPrice.value.value >= t.buyPrice then Panicked(None)
    else if c.isSelling && c.robot.sellPrice.value.value <= t.sellPrice then Panicked(None)
    else if !c.isSelling && !c.isBuying then
      var r := c.robot;
      Panicked(Some(TradeClient.Settle(r, r.sellPrice.value.value - r.buyPrice.value.value)))
    else Ran(Step(c, false, false, false))
  }

  /**
   * As written, the first tick a freshly made client for a valid robot could
   * take persists the phantom settlement and then panics: the client never
   * becomes a buyer again. (Its `work` panics even earlier, before reading
   * any tick.)
   */
  lemma FirstTickPanicsAsWritten(r: Robot, t: Tick, updateFails: bool)
    requires TradeClient.IsValid(r)
    ensures CanMakeTradeAsWritten(InitClient(r), t, updateFails)
         == Panicked(Some(TradeClient.Settle(r, r.sellPrice.value.value - r.buyPrice.value.value)))
  {
  }

  /**
   * As written, no trade ever completes without a panic: every tick that
   * would buy, sell or settle for the intended client panics instead.
   */
  lemma TradingPanicsAsWritten(c: Client, t: Tick, updateFails: bool)
    requires CanMakeTrade(c, t, updateFails).client != c || CanMakeTrade(c, t, updateFails).persisted
    ensures CanMakeTradeAsWritten(c, t, updateFails).Panicked?
  {
  }

  /**
   * Even with a logger and a hub, as the evidently intended `initClient` would
   * give it, this variant's client starts with neither flag set, so the very
   * first tick delivered to a freshly created client for a valid robot
   * settles a cycle that never traded: FactYield grows by the configured
   * SellPrice − BuyPrice thresholds and the robot is persisted and broadcast.
   */
  lemma FirstTickBooksPhantomDeal(r: Robot, t: Tick, updateFails: bool)
    requires TradeClient.IsValid(r)
    ensures var s := CanMakeTrade(InitClient(r), t, updateFails);
      && s.persisted && s.broadcast
      && s.client.robot == TradeClient.Settle(r, r.sellPrice.value.value - r.buyPrice.value.value)
      && s.client.isBuying
  {
  }

  /**
   * A buy on one tick and a sell on a later one: the first tick leaves the
   * client selling with BuyPrice overwritten by the buy quote, and the second
   * books exactly the second sell quote minus the first buy quote.
   */
  lemma TwoTickCycle(c: Client, t1: Tick, t2: Tick, updateFails: bool)
    requires TradeClient.IsValid(c.robot) && c.isBuying && !c.isSelling
    requires t1.buyPrice <= c.robot.buyPrice.value.value && t1.sellPrice < c.robot.sellPrice.value.value
    requires t2.sellPrice >= c.robot.sellPrice.value.value
    ensures var s1 := CanMakeTrade(c, t1, updateFails);
      var s2 := CanMakeTrade(s1.client, t2, updateFails);
      && !s1.persisted && s1.client.isSelling && !s1.client.isBuying
      && s2.persisted && s2.client.isBuying && !s2.client.isSelling
      && s2.client.robot.factYield.value.value == c.robot.factYield.value.value + (t2.sellPrice - t1.buyPrice)
      && s2.client.robot == TradeClient.Settle(SetSellPrice(SetBuyPrice(c.robot, t1.buyPrice), t2.sellPrice),
                                               t2.sellPrice - t1.buyPrice)
  {
    var s1 := CanMakeTrade(c, t1, updateFails);
    assert s1.client == Client(SetBuyPrice(c.robot, t1.buyPrice), false, true);
  }

  /** The client after a run of ticks (storage updates succeeding). */
  function Trade(c: Client, ticks: seq<Tick>): Client
    decreases |ticks|
  {
    if |ticks| == 0 then c else Trade(CanMakeTrade(c, ticks[0], false).client, ticks[1..])
  }

  /**
   * The thresholds drift monotonically: over any run of ticks the BuyPrice
   * threshold never rises and the SellPrice threshold never falls.
   */
  lemma {:induction false} ThresholdsDrift(c: Client, ticks: seq<Tick>)
    requires TradeClient.IsValid(c.robot)
    ensures TradeClient.IsValid(Trade(c, ticks).robot)
    ensures Trade(c, ticks).robot.buyPrice.value.value <= c.robot.buyPrice.value.value
    ensures Trade(c, ticks).robot.sellPrice.value.value >= c.robot.sellPrice.value.value
    decreases |ticks|
  {
    if |ticks| > 0 {
      ThresholdsDrift(CanMakeTrade(c, ticks[0], false).client, ticks[1..]);
    }
  }
}

=== FILE: legacy_worker.dfy ===
/**
 * The per-symbol worker of cmd/auth-api/handlers/trade/ticker.go. Its run
 * loop has a start arm, which receives the robot list, and a stop arm; the
 * broadcast arm is commented out. The start arm calls `client.work()`
 * directly rather than in a goroutine. `work` loops until the client's send
 * channel is closed, and only the stop arm of this same loop closes it, so
 * the loop never returns to its select: only the first robot gets a client.
 * Worse, this variant's `initClient` leaves the client's logger unset, and
 * `work` logs before reading anything, so that first call panics and takes
 * the process down. `StartArmAsWritten` models both: `logged` says whether
 * the clients have a logger (as built, they do not). `StartArm` is the
 * evidently intended arm, which starts every client the way
 * cmd/trade/ticker.go does.
 */
module LegacyWorker {
  import opened Robots
  import LC = LegacyClient

  type ClientRef = nat

  /**
   * Where the run goroutine is: at its select, inside a client's work loop,
   * returned, stuck sending on stopDeals, or ended by a panic (which ends the
   * whole process).
   */
  datatype Status = Selecting | InClientWork | Returned | StuckOnStopDeals | Crashed

  datatype Ticker = Ticker(
    name: string,
    clients: set<ClientRef>,
    heap: map<ClientRef, LC.Client>,
    next: ClientRef,
    status: Status)

  predicate Wf(t: Ticker) {
    && (forall c | c in t.clients :: c in t.heap)
    && (forall c | c in t.heap :: c < t.next)
  }

  datatype Message = Start(robots: seq<Robot>) | Stop

  /** `initTicker`: no clients, waiting at the select. */
  function InitTicker(name: string): (t: Ticker)
    ensures Wf(t) && t.clients == {} && t.status == Selecting
  {
    Ticker(name, {}, map[], 0, Selecting)
  }

  /** `initClient` of this variant, at the first free reference, joined to the client set. */
  function Attach(t: Ticker, r: Robot): (out: Ticker)
    requires Wf(t)
    ensures Wf(out) && t.next !in t.heap
    ensures out == t.(clients := t.clients + {t.next}, heap := t.heap[t.next := LC.InitClient(r)], next := t.next + 1)
  {
    t.(clients := t.clients + {t.next}, heap := t.heap[t.next := LC.InitClient(r)], next := t.next + 1)
  }

  /**
   * The start arm as written: the first robot is attached and its `work` is
   * called in place. Without a logger that call panics at once; with one the
   * loop is held inside it.
   */
  function StartArmAsWritten(t: Ticker, robots: seq<Robot>, logged: bool): (out: Ticker)
    requires Wf(t)
    ensures Wf(out)
    ensures |robots| == 0 ==> out == t
    ensures |robots| > 0 ==> out.clients == t.clients + {t.next}
    ensures |robots| > 0 ==> out.heap == t.heap[t.next := LC.InitClient(robots[0])]
    ensures |robots| > 0 && !logged ==> out.status == Crashed
    ensures |robots| > 0 && logged ==> out.status == InClientWork
  {
    if |robots| == 0 then t
    else Attach(t, robots[0]).(status := if logged then InClientWork else Crashed)
  }

  /** The start arm as intended: every robot is attached and the loop goes back to its select. */
  function StartArm(t: Ticker, robots: seq<Robot>): (out: Ticker)
    requires Wf(t)
    decreases |robots|
    ensures Wf(out) && out.status == t.status && out.name == t.name
    ensures out.next == t.next + |robots|
    ensures forall i | 0 <= i < |robots| :: t.next + i in out.heap && out.heap[t.next + i] == LC.InitClient(robots[i])
    ensures forall c | c in t.heap :: c in out.heap && out.heap[c] == t.heap[c]
    ensures forall c :: c in out.clients <==> c in t.clients || t.next <= c < out.next
  {
    if |robots| == 0 then t
    else StartArm(Attach(t, robots[0]), robots[1..])
  }

  /** The stop arm: when the deal loop takes the stop signal, every client is closed and removed and run returns. */
  function StopArm(t: Ticker, received: bool): (out: (Ticker, set<ClientRef>))
    ensures received ==> out.0.clients == {} && out.1 == t.clients && out.0.status == Returned
    ensures !received ==> out.0.clients == t.clients && out.1 == {} && out.0.status == StuckOnStopDeals
    ensures out.0.heap == t.heap && out.0.next == t.next
  {
    if received then (t.(clients := {}, status := Returned), t.clients)
    else (t.(status := StuckOnStopDeals), {})
  }

  /** The run loop as written over a message sequence: only a loop at its select takes a message. */
  function RunAsWritten(t: Ticker, msgs: seq<Message>, received: bool, logged: bool): (out: Ticker)
    requires Wf(t)
    decreases |msgs|
    ensures Wf(out)
  {
    if |msgs| == 0 || t.status != Selecting then t
    else
      var t' := match msgs[0]
        case Start(robots) => StartArmAsWritten(t, robots, logged)
        case Stop => StopArm(t, received).0;
      RunAsWritten(t', msgs[1..], received, logged)
  }

  /** The run loop with the intended start arm. */
  function Run(t: Ticker, msgs: seq<Message>, received: bool): (out: Ticker)
    requires Wf(t)
    decreases |msgs|
    ensures Wf(out)
  {
    if |msgs| == 0 || t.status != Selecting then t
    else
      var t' := match msgs[0]
        case Start(robots) => StartArm(t, robots)
        case Stop => StopArm(t, received).0;
      Run(t', msgs[1..], received)
  }

  /**
   * As written, the first start message with robots crashes the worker: its
   * first robot is attached, the call to that client's `work` panics, and no
   * later message is handled.
   */
  lemma StartCrashesAsWritten(t: Ticker, robots: seq<Robot>, rest: seq<Message>, received: bool)
    requires Wf(t) && t.status == Selecting && |robots| >= 1
    ensures var out := RunAsWritten(t, [Start(robots)] + rest, received, false);
      && out.clients == t.clients + {t.next}
      && out.heap == t.heap[t.next := LC.InitClient(robots[0])]
      && out.status == Crashed
  {
    assert ([Start(robots)] + rest)[1..] == rest;
    NothingAfterReturn(StartArmAsWritten(t, robots, false), rest, received);
  }

  /**
   * Even with clients that have a logger, the start arm as written attaches
   * its first robot only, and nothing received afterwards (another start, or
   * stop) is handled.
   */
  lemma OnlyFirstRobotTrades(t: Ticker, robots: seq<Robot>, rest: seq<Message>, received: bool)
    requires Wf(t) && t.status == Selecting && |robots| >= 2
    ensures var out := RunAsWritten(t, [Start(robots)] + rest, received, true);
      && out.clients == t.clients + {t.next}
      && out.heap == t.heap[t.next := LC.InitClient(robots[0])]
      && out.status == InClientWork
  {
    assert ([Start(robots)] + rest)[1..] == rest;
    NothingAfterReturn(StartArmAsWritten(t, robots, true), rest, received);
  }

  /** With the intended arm, a start attaches every robot, and a later received stop closes them all and ends the loop. */
  lemma StartThenStop(t: Ticker, robots: seq<Robot>, rest: seq<Message>)
    requires Wf(t) && t.status == Selecting
    ensures var started := StartArm(t, robots);
      && (forall c | t.next <= c < t.next + |robots| :: c in started.clients)
      && var out := Run(t, [Start(robots), Stop] + rest, true);
         out.clients == {} && out.status == Returned
  {
    var msgs := [Start(robots), Stop] + rest;
    assert msgs[1..] == [Stop] + rest;
    assert msgs[1..][1..] == rest;
    var t1 := StartArm(t, robots);
    var t2 := StopArm(t1, true).0;
    NothingAfterReturn(t2, rest, true);
  }

  /** Once run has returned, every later message is ignored. */
  lemma {:induction false} NothingAfterReturn(t: Ticker, msgs: seq<Message>, received: bool)
    requires Wf(t) && t.status != Selecting
    ensures Run(t, msgs, received) == t
    ensures forall logged: bool :: RunAsWritten(t, msgs, received, logged) == t
  {
  }
}

=== FILE: nulltypes.dfy ===
/**
 * The nullable column wrappers of internal/format/types.go. Each wrapper holds
 * a payload and a `valid` flag (the `sql.Null*` it points to). `Scan` fills a
 * wrapper from a database value, `Value` hands it back to the driver, and
 * `MarshalJSON` decides what `encoding/json` writes for it.
 */
module NullTypes {
  import opened Wrappers
  import opened Text
  import opened Civil
  import opened Json

  datatype NullInt64 = NullInt64(value: int, valid: bool)
  datatype NullFloat64 = NullFloat64(value: real, valid: bool)
  datatype NullString = NullString(value: string, valid: bool)
  datatype NullTime = NullTime(value: DateTime, valid: bool)

  /** A `driver.Value` as the database driver hands it over (`[]byte` folded into text). */
  datatype DbValue =
    | DbNull
    | DbInt(i: int)
    | DbFloat(f: real)
    | DbText(s: string)
    | DbBool(b: bool)
    | DbTime(t: DateTime)

  /** The error `database/sql` reports when a value cannot be converted. */
  datatype ConversionError = Unsupported(source: DbValue) | Malformed(text: string)

  function BoolText(b: bool): string {
    if b then "true" else "false"
  }

  /** What `sql.NullInt64.Scan` converts a non-nil value to. */
  function ToInt64(v: DbValue): Result<int, ConversionError>
    requires !v.DbNull?
  {
    match v
    case DbInt(i) => Success(i)
    case DbText(s) => (match ParseInt64(s) case Some(n) => Success(n) case None => Failure(Malformed(s)))
    case _ => Failure(Unsupported(v))
  }

  /** What `sql.NullFloat64.Scan` converts a non-nil value to. */
  function ToFloat64(v: DbValue): Result<real, ConversionError>
    requires !v.DbNull?
  {
    match v
    case DbFloat(f) => Success(f)
    case DbInt(i) => Success(i as real)
    case _ => Failure(Unsupported(v))
  }

  /** What `sql.NullString.Scan` converts a non-nil value to. */
  function ToText(v: DbValue): Result<string, ConversionError>
    requires !v.DbNull?
  {
    match v
    case DbText(s) => Success(s)
    case DbInt(i) => Success(IntToDecimal(i))
    case DbBool(b) => Success(BoolText(b))
    case _ => Failure(Unsupported(v))
  }

  /** What `sql.NullTime.Scan` converts a non-nil value to. */
  function ToTime(v: DbValue): Result<DateTime, ConversionError>
    requires !v.DbNull?
  {
    match v
    case DbTime(t) => Success(t)
    case _ => Failure(Unsupported(v))
  }

  /** `(*NullInt64).Scan`. */
  function ScanInt64(v: DbValue): (r: Result<NullInt64, ConversionError>)
    ensures v.DbNull? ==> r == Success(NullInt64(0, false))
    ensures !v.DbNull? && ToInt64(v).Failure? ==> r == Failure(ToInt64(v).error)
    ensures !v.DbNull? && ToInt64(v).Success? ==> r == Success(NullInt64(ToInt64(v).value, true))
  {
    if v.DbNull? then Success(NullInt64(0, false))
    else match ToInt64(v)
      case Failure(e) => Failure(e)
      case Success(i) => Success(NullInt64(i, true))
  }

  /** `(*NullFloat64).Scan`. */
  function ScanFloat64(v: DbValue): (r: Result<NullFloat64, ConversionError>)
    ensures v.DbNull? ==> r == Success(NullFloat64(0.0, false))
    ensures !v.DbNull? && ToFloat64(v).Failure? ==> r == Failure(ToFloat64(v).error)
    ensures !v.DbNull? && ToFloat64(v).Success? ==> r == Success(NullFloat64(ToFloat64(v).value, true))
  {
    if v.DbNull? then Success(NullFloat64(0.0, false))
    else match ToFloat64(v)
      case Failure(e) => Failure(e)
      case Success(f) => Success(NullFloat64(f, true))
  }

  /** `(*NullString).Scan`. */
  function ScanString(v: DbValue): (r: Result<NullString, ConversionError>)
    ensures v.DbNull? ==> r == Success(NullString("", false))
    ensures !v.DbNull? && ToText(v).Failure? ==> r == Failure(ToText(v).error)
    ensures !v.DbNull? && ToText(v).Success? ==> r == Success(NullString(ToText(v).value, true))
  {
    if v.DbNull? then Success(NullString("", false))
    else match ToText(v)
      case Failure(e) => Failure(e)
      case Success(s) => Success(NullString(s, true))
  }

  /** `(*NullTime).Scan`. */
  function ScanTime(v: DbValue): (r: Result<NullTime, ConversionError>)
    ensures v.DbNull? ==> r == Success(NullTime(ZeroTime, false))
    ensures !v.DbNull? && !v.DbTime? ==> r == Failure(Unsupported(v))
    ensures v.DbTime? ==> r == Success(NullTime(v.t, true))
  {
    if v.DbNull? then Success(NullTime(ZeroTime, false))
    else match ToTime(v)
      case Failure(e) => Failure(e)
      case Success(t) => Success(NullTime(t, true))
  }

  /** `NullInt64.Value`: nil for an invalid wrapper, the payload otherwise. */
  function ValueInt64(n: NullInt64): (v: DbValue)
    ensures v.DbNull? <==> !n.valid
    ensures n.valid ==> v == DbInt(n.value)
  {
    if !n.valid then DbNull else DbInt(n.value)
  }

  function ValueFloat64(n: NullFloat64): (v: DbValue)
    ensures v.DbNull? <==> !n.valid
    ensures n.valid ==> v == DbFloat(n.value)
  {
    if !n.valid then DbNull else DbFloat(n.value)
  }

  function ValueString(n: NullString): (v: DbValue)
    ensures v.DbNull? <==> !n.valid
    ensures n.valid ==> v == DbText(n.value)
  {
    if !n.valid then DbNull else DbText(n.value)
  }

  function ValueTime(n: NullTime): (v: DbValue)
    ensures v.DbNull? <==> !n.valid
    ensures n.valid ==> v == DbTime(n.value)
  {
    if !n.valid then DbNull else DbTime(n.value)
  }

  /**
   * `Value` after a successful `Scan` returns what was scanned, for nil and
   * for a value already of the wrapper's payload type, for all four wrappers.
   */
  lemma ScanValueRoundTrip(v: DbValue)
    ensures (v.DbNull? || v.DbInt?) ==> ScanInt64(v).Success? && ValueInt64(ScanInt64(v).value) == v
    ensures (v.DbNull? || v.DbFloat?) ==> ScanFloat64(v).Success? && ValueFloat64(ScanFloat64(v).value) == v
    ensures (v.DbNull? || v.DbText?) ==> ScanString(v).Success? && ValueString(ScanString(v).value) == v
    ensures (v.DbNull? || v.DbTime?) ==> ScanTime(v).Success? && ValueTime(ScanTime(v).value) == v
  {
  }

  /** `Scan` after `Value` restores a valid wrapper exactly and an invalid one up to its payload. */
  lemma ValueScanRoundTrip(n: NullInt64, f: NullFloat64, s: NullString, t: NullTime)
    ensures ScanInt64(ValueInt64(n)) == Success(if n.valid then n else NullInt64(0, false))
    ensures ScanFloat64(ValueFloat64(f)) == Success(if f.valid then f else NullFloat64(0.0, false))
    ensures ScanString(ValueString(s)) == Success(if s.valid then s else NullString("", false))
    ensures ScanTime(ValueTime(t)) == Success(if t.valid then t else NullTime(ZeroTime, false))
  {
  }

  /** `(*NullInt64).MarshalJSON`: nil bytes (`None`) when invalid, else the number. */
  function MarshalInt64(n: NullInt64): (r: Option<Json>)
    ensures r.None? <==> !n.valid
    ensures r.Some? ==> r.value == JInt(n.value)
  {
    if !n.valid then None else Some(JInt(n.value))
  }

  /** `(*NullFloat64).MarshalJSON`: nil bytes when invalid, else the number. */
  function MarshalFloat64(n: NullFloat64): (r: Option<Json>)
    ensures r.None? <==> !n.valid
    ensures r.Some? ==> r.value == JFloat(n.value)
  {
    if !n.valid then None else Some(JFloat(n.value))
  }

  /** The text an invalid `NullString` marshals: two double-quote characters. */
  const TwoQuotes: string := "\"\""

  /**
   * `(*NullString).MarshalJSON`: always a JSON string; an invalid wrapper
   * yields the two-character string `""`, which is not the empty string.
   */
  function MarshalString(n: NullString): (r: Option<Json>)
    ensures r.Some? && r.value.JString?
    ensures n.valid ==> r.value.s == n.value
    ensures !n.valid ==> r.value.s == TwoQuotes && r.value.s != ""
  {
    if !n.valid then Some(JString(TwoQuotes)) else Some(JString(n.value))
  }

  /**
   * `(*NullTime).MarshalJSON`: nil bytes when invalid, otherwise the bytes
   * `"Y-MM-DDTHH:MM:SSZ"` (quotes included), written out by hand.
   */
  function MarshalTime(n: NullTime): (r: Option<string>)
    ensures r.None? <==> !n.valid
    ensures r.Some? ==> |r.value| >= 2 && r.value[0] == '"' && r.value[|r.value| - 1] == '"'
    ensures r.Some? ==> r.value[1..|r.value| - 1] == StampText(n.value)
  {
    if !n.valid then None
    else
      var b := StampText(n.value);
      var out := "\"" + b + "\"";
      assert out[1..|out| - 1] == b;
      Some(out)
  }

  /** Every two-digit component of a stamp is zero-padded to exactly two characters. */
  lemma StampComponentsTwoDigits(t: DateTime)
    requires Valid(t)
    ensures |Pad2(t.month)| == 2 && |Pad2(t.day)| == 2
    ensures |Pad2(t.hour)| == 2 && |Pad2(t.minute)| == 2 && |Pad2(t.second)| == 2
  {
    ShortDecimal(t.month);
    ShortDecimal(t.day);
    ShortDecimal(t.hour);
    ShortDecimal(t.minute);
    ShortDecimal(t.second);
  }

  lemma ShortDecimal(n: nat)
    requires n < 100
    ensures |NatToDecimal(n)| <= 2
  {
  }
}

=== FILE: params.dfy ===
/**
 * Reading the request: `IDFromParams` and `tokenFromReq` of
 * cmd/auth-api/handlers/user.go and `IDAndTickerFromParams` of
 * cmd/auth-api/handlers/robot.go. An index out of range in the source is a
 * panic; here it is an explicit outcome.
 */
module Params {
  import opened Wrappers
  import opened Text

  /** Ids at or below this value are not valid record ids. */
  const BottomLineValidID: int := 0

  /** The field of the Authorization header that holds the bearer token. */
  const TokenField: nat := 1

  /** The "/"-separated URL segment that holds the record id ("" comes first). */
  const IdIndex: nat := 4

  /** A URL query: each key with its values, as `url.Values` holds them. */
  type Query = map<string, seq<string>>

  datatype IdOutcome =
    | Parsed(id: int)
    | NotAnId      // ParseInt failed on the segment
    | NoSegment    // params[IdIndex] is out of range: a panic

  lemma {:induction false} CountZero(s: string, c: char)
    ensures Count(s, c) == 0 <==> c !in s
    decreases |s|
  {
    if |s| > 0 {
      CountZero(s[1..], c);
      assert s == [s[0]] + s[1..];
    }
  }

  /** `tokenFromReq`: the second space-separated field of the header; `None` where the source panics. */
  function TokenFromReq(header: string): (t: Option<string>)
    ensures t.None? <==> ' ' !in header
    ensures t.Some? ==> ' ' !in t.value
  {
    CountZero(header, ' ');
    var parts := Split(header, ' ');
    if |parts| <= TokenField then None else Some(parts[TokenField])
  }

  /** Whatever the scheme and whatever follows, the token is the field after the first space. */
  lemma TokenOfHeader(scheme: string, token: string, rest: seq<string>)
    requires ' ' !in scheme && ' ' !in token
    requires forall i | 0 <= i < |rest| :: ' ' !in rest[i]
    ensures TokenFromReq(Join([scheme, token] + rest, ' ')) == Some(token)
  {
    var parts := [scheme, token] + rest;
    forall i | 0 <= i < |parts| ensures ' ' !in parts[i] {
      if i >= 2 { assert parts[i] == rest[i - 2]; }
    }
    var h := Join(parts, ' ');
    SplitJoin(parts, ' ');
    TokenOfSplit(h);
  }

  /** With at least one space, the token is the second piece of the split header. */
  lemma TokenOfSplit(header: string)
    requires |Split(header, ' ')| > TokenField
    ensures TokenFromReq(header) == Some(Split(header, ' ')[TokenField])
  {
  }

  /** `IDFromParams`: segment `IdIndex` of the URL parsed as a base-10 int64. */
  function IDFromParams(url: string): (r: IdOutcome)
    ensures r.NoSegment? <==> Count(url, '/') < IdIndex
    ensures r.Parsed? ==> InInt64(r.id) && ParseInt64(Split(url, '/')[IdIndex]) == Some(r.id)
    ensures r.NotAnId? ==> ParseInt64(Split(url, '/')[IdIndex]).None?
  {
    var params := Split(url, '/');
    if |params| <= IdIndex then NoSegment
    else match ParseInt64(params[IdIndex])
      case Some(id) => Parsed(id)
      case None => NotAnId
  }

  lemma DecimalHasNoSlash(n: int)
    ensures '/' !in IntToDecimal(n)
  {
    var s := IntToDecimal(n);
    if n < 0 {
      var d := NatToDecimal(-n);
      assert s == "-" + d;
      assert forall i | 0 <= i < |d| :: IsDigit(d[i]);
      forall i | 0 <= i < |s| ensures s[i] != '/' {
        if i > 0 { assert s[i] == d[i - 1]; }
      }
    } else {
      assert s == NatToDecimal(n);
      assert forall i | 0 <= i < |s| :: IsDigit(s[i]);
    }
  }

  lemma SlashFree(lead: seq<string>, d: string, rest: seq<string>)
    requires '/' !in d
    requires forall i | 0 <= i < |lead| :: '/' !in lead[i]
    requires forall i | 0 <= i < |rest| :: '/' !in rest[i]
    ensures forall i | 0 <= i < |lead + [d] + rest| :: '/' !in (lead + [d] + rest)[i]
  {
    var parts := lead + [d] + rest;
    forall i | 0 <= i < |parts| ensures '/' !in parts[i] {
      if i < |lead| { assert parts[i] == lead[i]; }
      else if i > |lead| { assert parts[i] == rest[i - |lead| - 1]; }
    }
  }

  /** Joining slash-free segments, the id is read from segment `IdIndex`. */
  lemma IDOfSegments(parts: seq<string>)
    requires |parts| > IdIndex
    requires forall i | 0 <= i < |parts| :: '/' !in parts[i]
    ensures IDFromParams(Join(parts, '/')) == if ParseInt64(parts[IdIndex]).Some? then Parsed(ParseInt64(parts[IdIndex]).value) else NotAnId
  {
    SplitJoin(parts, '/');
  }

  /** A URL whose fifth segment is the decimal rendering of an int64 yields that id. */
  lemma IDOfPath(lead: seq<string>, n: int, rest: seq<string>)
    requires |lead| == IdIndex && InInt64(n)
    requires forall i | 0 <= i < |lead| :: '/' !in lead[i]
    requires forall i | 0 <= i < |rest| :: '/' !in rest[i]
    ensures IDFromParams(Join(lead + [IntToDecimal(n)] + rest, '/')) == Parsed(n)
  {
    var d := IntToDecimal(n);
    var parts := lead + [d] + rest;
    DecimalHasNoSlash(n);
    SlashFree(lead, d, rest);
    IDOfSegments(parts);
    ParseRendered(n);
    assert parts[IdIndex] == d;
  }

  /** `r.URL.Query().Get(key)`: the first value for the key, or "". */
  function QueryGet(q: Query, key: string): (v: string)
    ensures v != "" ==> key in q && |q[key]| > 0 && v == q[key][0]
  {
    if key in q && |q[key]| > 0 then q[key][0] else ""
  }

  /**
   * `IDAndTickerFromParams`: the owner filter and the ticker filter. An
   * absent "user" means owner id `BottomLineValidID`; a non-integer is an
   * error (`None`); the ticker is passed on verbatim.
   */
  function IDAndTickerFromParams(q: Query): (r: Option<(int, string)>)
    ensures QueryGet(q, "user") == "" ==> r == Some((BottomLineValidID, QueryGet(q, "ticker")))
    ensures r.None? <==> ParseInt64(QueryGet(q, "user")).None? && QueryGet(q, "user") != ""
    ensures r.Some? ==> r.value.1 == QueryGet(q, "ticker")
    ensures r.Some? && QueryGet(q, "user") != "" ==> Some(r.value.0) == ParseInt64(QueryGet(q, "user"))
  {
    var userStr := QueryGet(q, "user");
    var ticker := QueryGet(q, "ticker");
    if userStr == "" then Some((BottomLineValidID, ticker))
    else match ParseInt64(userStr)
      case Some(id) => Some((id, ticker))
      case None => None
  }

  /** A query naming an int64 owner and a ticker yields exactly those filters. */
  lemma FiltersOfQuery(q: Query, n: int, ticker: string)
    requires InInt64(n)
    ensures IDAndTickerFromParams(q["user" := [IntToDecimal(n)]]["ticker" := [ticker]]) == Some((n, ticker))
  {
    var q' := q["user" := [IntToDecimal(n)]]["ticker" := [ticker]];
    assert QueryGet(q', "user") == IntToDecimal(n);
    ParseRendered(n);
  }
}

=== FILE: reconcile.dfy ===
/**
 * One reconciliation pass of the trader: `Trader.work` in cmd/trade/trader.go
 * and the identical body of the ticker case of `StartDeals` in
 * cmd/auth-api/handlers/trade/trader.go. Given the symbols the trader
 * believes are running (`t.tickers`) and the current grouping of active
 * robots, the pass sends the hub Register, then Unregister, then Broadcast
 * messages. The channel sends become a list of commands. Go's map iteration
 * order is unspecified, so each of the three loops takes its order as an
 * input: any duplicate-free enumeration of the map's keys.
 */
module Reconcile {
  import opened Robots
  import opened Grouping

  datatype Command =
    | Register(symbol: string, robots: seq<Robot>)
    | Unregister(symbol: string, robots: seq<Robot>)
    | Broadcast(symbol: string, robots: seq<Robot>)

  /** The phase a command belongs to. */
  function Phase(c: Command): nat {
    match c
    case Register(_, _) => 0
    case Unregister(_, _) => 1
    case Broadcast(_, _) => 2
  }

  /** The trader's only state here: the symbol map it reads and never writes. */
  datatype Trader = Trader(tickers: map<string, bool>)

  /** `New`: the symbol map starts out empty. */
  function New(): (t: Trader)
    ensures t.tickers == map[]
  {
    Trader(map[])
  }

  /** `t.tickers[k]`: a missing key reads as false. */
  predicate Marked(known: map<string, bool>, k: string) {
    k in known && known[k]
  }

  /** `order` lists every element of `keys` exactly once. */
  predicate Enumerates(order: seq<string>, keys: set<string>) {
    && (forall i, j | 0 <= i < j < |order| :: order[i] != order[j])
    && (forall k | k in order :: k in keys)
    && (forall k | k in keys :: k in order)
  }

  predicate DistinctSymbols(cmds: seq<Command>) {
    forall i, j | 0 <= i < j < |cmds| :: cmds[i].symbol != cmds[j].symbol
  }

  /** The `toDelete` map after the first two loops: true exactly for known symbols no longer grouped. */
  function ToDelete(known: map<string, bool>, g: Groups): (del: map<string, bool>)
    ensures del.Keys == known.Keys + g.Keys
    ensures forall k | k in del :: del[k] <==> k !in g
  {
    map k | k in known.Keys + g.Keys :: k !in g
  }

  /** The register loop, visiting the grouped symbols in `order`. */
  function Registers(order: seq<string>, known: map<string, bool>, g: Groups): (cmds: seq<Command>)
    requires forall k | k in order :: k in g
    requires forall i, j | 0 <= i < j < |order| :: order[i] != order[j]
    ensures forall c | c in cmds :: c.Register? && c.symbol in order && !Marked(known, c.symbol) && c.robots == g[c.symbol]
    ensures forall k | k in order && !Marked(known, k) :: Register(k, g[k]) in cmds
    ensures DistinctSymbols(cmds)
  {
    if |order| == 0 then []
    else
      var k := order[0];
      var rest := Registers(order[1..], known, g);
      assert forall c | c in rest :: c.symbol != k;
      if Marked(known, k) then rest else [Register(k, g[k])] + rest
  }

  /** The unregister loop, visiting `toDelete` in `order`; the ticker built for it has no robots. */
  function Unregisters(order: seq<string>, del: map<string, bool>): (cmds: seq<Command>)
    requires forall k | k in order :: k in del
    requires forall i, j | 0 <= i < j < |order| :: order[i] != order[j]
    ensures forall c | c in cmds :: c.Unregister? && c.symbol in order && del[c.symbol] && c.robots == []
    ensures forall k | k in order && del[k] :: Unregister(k, []) in cmds
    ensures DistinctSymbols(cmds)
  {
    if |order| == 0 then []
    else
      var k := order[0];
      var rest := Unregisters(order[1..], del);
      assert forall c | c in rest :: c.symbol != k;
      if del[k] then [Unregister(k, [])] + rest else rest
  }

  /** The broadcast loop, visiting `toDelete` in `order`, sending each still-grouped symbol its robots. */
  function Broadcasts(order: seq<string>, del: map<string, bool>, g: Groups): (cmds: seq<Command>)
    requires forall k | k in order :: k in del && (!del[k] ==> k in g)
    requires forall i, j | 0 <= i < j < |order| :: order[i] != order[j]
    ensures forall c | c in cmds :: c.Broadcast? && c.symbol in order && !del[c.symbol] && c.robots == g[c.symbol]
    ensures forall k | k in order && !del[k] :: Broadcast(k, g[k]) in cmds
    ensures DistinctSymbols(cmds)
  {
    if |order| == 0 then []
    else
      var k := order[0];
      var rest := Broadcasts(order[1..], del, g);
      assert forall c | c in rest :: c.symbol != k;
      if !del[k] then [Broadcast(k, g[k])] + rest else rest
  }

  /**
   * `Trader.work`: the commands of one pass over grouping `g`, with the
   * three loops visiting their maps in the given orders. The trader comes
   * back unchanged.
   */
  function Work(t: Trader, g: Groups, regOrder: seq<string>, delOrder: seq<string>, castOrder: seq<string>)
    : (out: (Trader, seq<Command>))
    requires Enumerates(regOrder, g.Keys)
    requires Enumerates(delOrder, t.tickers.Keys + g.Keys)
    requires Enumerates(castOrder, t.tickers.Keys + g.Keys)
    ensures out.0 == t
  {
    var del := ToDelete(t.tickers, g);
    (t, Registers(regOrder, t.tickers, g) + Unregisters(delOrder, del) + Broadcasts(castOrder, del, g))
  }

  /** Three runs of commands, one per phase, concatenated: phases never go back. */
  lemma ConcatPhases(r: seq<Command>, u: seq<Command>, b: seq<Command>)
    requires forall c | c in r :: Phase(c) == 0
    requires forall c | c in u :: Phase(c) == 1
    requires forall c | c in b :: Phase(c) == 2
    ensures forall i, j | 0 <= i <= j < |r + u + b| :: Phase((r + u + b)[i]) <= Phase((r + u + b)[j])
    ensures forall i, j | 0 <= i < j < |r + u + b| && Phase((r + u + b)[i]) == Phase((r + u + b)[j]) ::
      (DistinctSymbols(r) && DistinctSymbols(u) && DistinctSymbols(b)) ==> (r + u + b)[i].symbol != (r + u + b)[j].symbol
  {
    var cmds := r + u + b;
    forall i | 0 <= i < |cmds|
      ensures Phase(cmds[i]) == if i < |r| then 0 else if i < |r| + |u| then 1 else 2
      ensures i < |r| ==> cmds[i] == r[i]
      ensures |r| <= i < |r| + |u| ==> cmds[i] == u[i - |r|]
      ensures |r| + |u| <= i ==> cmds[i] == b[i - |r| - |u|]
    {
      if i < |r| { assert cmds[i] in r; }
      else if i < |r| + |u| { assert cmds[i] == u[i - |r|]; assert cmds[i] in u; }
      else { assert cmds[i] == b[i - |r| - |u|]; assert cmds[i] in b; }
    }
  }

  /** Registers come first, then unregisters, then broadcasts; within a phase no symbol repeats. */
  lemma WorkPhasesOrdered(t: Trader, g: Groups, regOrder: seq<string>, delOrder: seq<string>, castOrder: seq<string>)
    requires Enumerates(regOrder, g.Keys)
    requires Enumerates(delOrder, t.tickers.Keys + g.Keys)
    requires Enumerates(castOrder, t.tickers.Keys + g.Keys)
    ensures var cmds := Work(t, g, regOrder, delOrder, castOrder).1;
      && (forall i, j | 0 <= i <= j < |cmds| :: Phase(cmds[i]) <= Phase(cmds[j]))
      && (forall i, j | 0 <= i < j < |cmds| && Phase(cmds[i]) == Phase(cmds[j]) :: cmds[i].symbol != cmds[j].symbol)
  {
    var del := ToDelete(t.tickers, g);
    ConcatPhases(Registers(regOrder, t.tickers, g), Unregisters(delOrder, del), Broadcasts(castOrder, del, g));
  }

  /**
   * Which commands a pass sends: Register exactly for grouped symbols not
   * marked in `t.tickers`, Unregister (with no robots) exactly for known
   * symbols no longer grouped, Broadcast for every grouped symbol, each time
   * with that symbol's robots; no symbol twice within a kind.
   */
  lemma WorkCommands(t: Trader, g: Groups, regOrder: seq<string>, delOrder: seq<string>, castOrder: seq<string>)
    requires Enumerates(regOrder, g.Keys)
    requires Enumerates(delOrder, t.tickers.Keys + g.Keys)
    requires Enumerates(castOrder, t.tickers.Keys + g.Keys)
    ensures var cmds := Work(t, g, regOrder, delOrder, castOrder).1;
      && (forall k, rs :: Register(k, rs) in cmds <==> k in g && !Marked(t.tickers, k) && rs == g[k])
      && (forall k, rs :: Unregister(k, rs) in cmds <==> k in t.tickers && k !in g && rs == [])
      && (forall k, rs :: Broadcast(k, rs) in cmds <==> k in g && rs == g[k])
  {
    var del := ToDelete(t.tickers, g);
    var r := Registers(regOrder, t.tickers, g);
    var u := Unregisters(delOrder, del);
    var b := Broadcasts(castOrder, del, g);
    var cmds := r + u + b;
    assert forall c | c in cmds :: c in r || c in u || c in b;
  }

  /**
   * Since the map is never written, every pass of a trader made by `New`
   * registers every grouped symbol again, however many passes have already
   * registered it, and never unregisters anything.
   */
  lemma EveryPassReregisters(g: Groups, regOrder: seq<string>, delOrder: seq<string>, castOrder: seq<string>)
    requires Enumerates(regOrder, g.Keys)
    requires Enumerates(delOrder, g.Keys)
    requires Enumerates(castOrder, g.Keys)
    ensures var cmds := Work(New(), g, regOrder, delOrder, castOrder).1;
      && (forall k | k in g :: Register(k, g[k]) in cmds && Broadcast(k, g[k]) in cmds)
      && (forall k, rs :: Unregister(k, rs) !in cmds)
  {
    var t := New();
    assert t.tickers.Keys + g.Keys == g.Keys;
    WorkCommands(t, g, regOrder, delOrder, castOrder);
  }
}

=== FILE: respond.dfy ===
/**
 * `respondWithData` of cmd/auth-api/handlers/user.go: the Accept header picks
 * the representation of a robot list. JSON keeps the list as given; HTML
 * first sorts it with `sort.SliceStable` by ascending RobotID; any other
 * value is an error.
 */
module Respond {
  import opened Wrappers
  import opened Robots

  datatype Payload = JsonList(robots: seq<Robot>) | HtmlPage(robots: seq<Robot>)

  const NoRepresentation: string := "info's type is absent"

  predicate SortedById(rr: seq<Robot>) {
    forall i, j | 0 <= i < j < |rr| :: rr[i].robotId <= rr[j].robotId
  }

  /** The robots of `rr` with id `k`, in order: what a stable sort must not reorder. */
  function WithId(rr: seq<Robot>, k: int): seq<Robot>
    decreases |rr|
  {
    if |rr| == 0 then []
    else
      var rest := WithId(rr[..|rr| - 1], k);
      if rr[|rr| - 1].robotId == k then rest + [rr[|rr| - 1]] else rest
  }

  /** Places `r` after every robot of `s` whose id is not larger. */
  function Insert(s: seq<Robot>, r: Robot): seq<Robot>
    decreases |s|
  {
    if |s| == 0 || s[|s| - 1].robotId <= r.robotId then s + [r]
    else Insert(s[..|s| - 1], r) + [s[|s| - 1]]
  }

  /** A stable sort by ascending RobotID (insertion of each robot in input order). */
  function SortById(rr: seq<Robot>): seq<Robot>
    decreases |rr|
  {
    if |rr| == 0 then [] else Insert(SortById(rr[..|rr| - 1]), rr[|rr| - 1])
  }

  lemma WithIdAppend(s: seq<Robot>, r: Robot, k: int)
    ensures WithId(s + [r], k) == if r.robotId == k then WithId(s, k) + [r] else WithId(s, k)
  {
    assert (s + [r])[..|s|] == s;
  }

  lemma {:induction false} InsertPermutes(s: seq<Robot>, r: Robot)
    decreases |s|
    ensures multiset(Insert(s, r)) == multiset(s) + multiset{r}
  {
    if |s| > 0 && s[|s| - 1].robotId > r.robotId {
      assert s == s[..|s| - 1] + [s[|s| - 1]];
      InsertPermutes(s[..|s| - 1], r);
    }
  }

  lemma {:induction false} InsertStable(s: seq<Robot>, r: Robot, k: int)
    decreases |s|
    ensures WithId(Insert(s, r), k) == if r.robotId == k then WithId(s, k) + [r] else WithId(s, k)
  {
    if |s| == 0 || s[|s| - 1].robotId <= r.robotId {
      WithIdAppend(s, r, k);
    } else {
      var prefix := s[..|s| - 1];
      var last := s[|s| - 1];
      assert s == prefix + [last];
      InsertStable(prefix, r, k);
      WithIdAppend(Insert(prefix, r), last, k);
      WithIdAppend(prefix, last, k);
    }
  }

  lemma {:induction false} InsertSorted(s: seq<Robot>, r: Robot)
    decreases |s|
    requires SortedById(s)
    ensures SortedById(Insert(s, r))
  {
    if |s| > 0 && s[|s| - 1].robotId > r.robotId {
      var prefix := s[..|s| - 1];
      var last := s[|s| - 1];
      InsertSorted(prefix, r);
      InsertPermutes(prefix, r);
      var ins := Insert(prefix, r);
      forall i | 0 <= i < |ins| ensures ins[i].robotId <= last.robotId {
        assert ins[i] in multiset(ins);
        assert ins[i] in multiset(prefix) || ins[i] == r;
      }
    }
  }

  /**
   * The HTML order: ascending RobotID, the same robots as the input, and
   * robots with equal ids in their input order.
   */
  lemma {:induction false} SortByIdCorrect(rr: seq<Robot>)
    decreases |rr|
    ensures SortedById(SortById(rr))
    ensures multiset(SortById(rr)) == multiset(rr)
    ensures forall k :: WithId(SortById(rr), k) == WithId(rr, k)
  {
    if |rr| > 0 {
      var prefix := rr[..|rr| - 1];
      var last := rr[|rr| - 1];
      assert rr == prefix + [last];
      SortByIdCorrect(prefix);
      InsertPermutes(SortById(prefix), last);
      InsertSorted(SortById(prefix), last);
      forall k ensures WithId(SortById(rr), k) == WithId(rr, k) {
        InsertStable(SortById(prefix), last, k);
        WithIdAppend(prefix, last, k);
      }
    }
  }

  /** `respondWithData`: the payload for the Accept header, or the error for an unknown one. */
  function RespondWithData(accept: string, rbts: seq<Robot>): (r: Result<Payload, string>)
    ensures r.Failure? <==> accept != "application/json" && accept != "text/html"
    ensures r.Failure? ==> r.error == NoRepresentation
    ensures accept == "application/json" ==> r == Success(JsonList(rbts))
    ensures accept == "text/html" ==> (
      && r.Success? && r.value.HtmlPage?
      && SortedById(r.value.robots) && multiset(r.value.robots) == multiset(rbts)
      && forall k :: WithId(r.value.robots, k) == WithId(rbts, k))
  {
    match accept
    case "application/json" => Success(JsonList(rbts))
    case "text/html" =>
      SortByIdCorrect(rbts);
      Success(HtmlPage(SortById(rbts)))
    case _ => Failure(NoRepresentation)
  }
}

=== FILE: robot_handlers.dfy ===
/**
 * The robot endpoints of cmd/auth-api/handlers/robot.go: the validators
 * (`intoPlanRange`, `canBeChangeActivation`, `copyForFavourite`), the shared
 * lookup (`getRobotAndUserID`, `findRobot`) and the guard chains of
 * `activate`, `deactivate`, `deleteRobot` and `getRobot`. Storage answers and
 * the clock are inputs; an Update error is the flag `updateFails`.
 *
 * `errors.Wrap`/`Wrapf` of a nil error is nil, so the as-written lookup
 * reports success with the ids -1, -1 or with a nil robot, and the handler
 * then dereferences nil. `GetRobotAndUserIDAsWritten` and
 * `FindRobotAsWritten` keep that behaviour; `GetRobotAndUserID` and
 * `FindRobot` return the error the code evidently meant to return.
 */
module RobotHandlers {
  import opened Wrappers
  import opened Text
  import opened Civil
  import opened NullTypes
  import opened Robots
  import opened Params
  import opened Sessions
  import opened Respond

  /** What a handler does with the request. */
  datatype Outcome =
    | Refused(status: int, detail: string)  // render.HTTPError(detail, status, w)
    | Saved(status: int, robot: Robot)      // the record was written, answered and broadcast
    | Shown(payload: Payload)               // respondWithData succeeded
    | Crash                                 // a nil dereference or an index out of range

  datatype Ids = Ids(robotId: int, userId: int)

  /** The ids `getRobotAndUserID` returns alongside a nil error in its sentinel branches. */
  const Sentinel: Ids := Ids(-1, -1)

  datatype IdsOutcome = IdsOk(ids: Ids) | IdsErr | IdsPanic

  datatype FindOutcome = FindErr | FoundNil | Found(robot: Robot)

  /** The common start of the four chains: either the handler already answered, or it holds the robot. */
  datatype Prelude = Halt(outcome: Outcome) | Proceed(robotId: int, userId: int, robot: Robot)

  // ----- validators -----

  /**
   * `intoPlanRange`: both bounds present and `now` neither before the start
   * nor after the end. The `Valid` flag of a bound is not consulted.
   */
  function IntoPlanRange(start: Option<NullTime>, end: Option<NullTime>, now: DateTime): (b: bool)
    ensures start.None? || end.None? ==> !b
    ensures start.Some? && end.Some? ==>
      (b <==> !Before(now, start.value.value) && !Before(end.value.value, now))
  {
    match (start, end)
    case (Some(s), Some(e)) => !(Before(now, s.value) || Before(e.value, now))
    case _ => false
  }

  /** The window is closed: both bounds belong to it when the start does not follow the end. */
  lemma PlanRangeInclusive(s: NullTime, e: NullTime)
    ensures IntoPlanRange(Some(s), Some(e), s.value) <==> !Before(e.value, s.value)
    ensures IntoPlanRange(Some(s), Some(e), e.value) <==> !Before(e.value, s.value)
  {
    BeforeTotalOrder(s.value, s.value, s.value);
    BeforeTotalOrder(e.value, e.value, e.value);
  }

  /** Any instant between two instants of the window is in the window. */
  lemma PlanRangeConvex(start: Option<NullTime>, end: Option<NullTime>, a: DateTime, b: DateTime, c: DateTime)
    requires IntoPlanRange(start, end, a) && IntoPlanRange(start, end, c)
    requires !Before(b, a) && !Before(c, b)
    ensures IntoPlanRange(start, end, b)
  {
    var s := start.value.value;
    var e := end.value.value;
    BeforeTotalOrder(a, b, s);
    BeforeTotalOrder(e, b, c);
    BeforeTotalOrder(b, c, c);
  }

  /** `canBeChangeActivation`: the caller owns the robot and `now` is inside its plan window. */
  function CanBeChangeActivation(r: Robot, userId: int, now: DateTime): (b: bool)
    ensures b ==> r.ownerUserId == userId && r.planStart.Some? && r.planEnd.Some?
    ensures b <==> r.ownerUserId == userId && IntoPlanRange(r.planStart, r.planEnd, now)
  {
    !(r.ownerUserId != userId || !IntoPlanRange(r.planStart, r.planEnd, now))
  }

  /**
   * `copyForFavourite`: the record re-owned by the caller as an inactive
   * favourite whose parent is the original. In the source the argument itself
   * is changed and returned; here the changed value is the result.
   */
  function CopyForFavourite(orig: Robot, ownerId: int): (c: Robot)
    ensures c.ownerUserId == ownerId && c.parentRobotId == Some(NullInt64(orig.robotId, true))
    ensures c.isFavourite && !c.isActive && c.activatedAt.None?
    ensures c.robotId == orig.robotId
    ensures c.(ownerUserId := orig.ownerUserId, parentRobotId := orig.parentRobotId, isFavourite := orig.isFavourite,
               isActive := orig.isActive, activatedAt := orig.activatedAt) == orig
  {
    orig.(ownerUserId := ownerId, parentRobotId := Some(NullInt64(orig.robotId, true)),
         isFavourite := true, isActive := false, activatedAt := None)
  }

  /** Copying a copy for the same owner changes nothing more. */
  lemma CopyForFavouriteIdempotent(orig: Robot, ownerId: int)
    ensures CopyForFavourite(CopyForFavourite(orig, ownerId), ownerId) == CopyForFavourite(orig, ownerId)
  {
    var c := CopyForFavourite(orig, ownerId);
    assert c.robotId == orig.robotId;
  }

  // ----- the shared lookup -----

  /**
   * `getRobotAndUserID` as written: the robot id from the URL and the user of
   * the bearer token's session (`byToken`, `None` for a storage error). An id
   * at or below 0, or a session without user, yields `Sentinel` and no error.
   */
  function GetRobotAndUserIDAsWritten(url: string, header: string, byToken: Option<Session>): (r: IdsOutcome)
    ensures r.IdsPanic? <==> (
      || IDFromParams(url).NoSegment?
      || (IDFromParams(url).Parsed? && IDFromParams(url).id > BottomLineValidID && TokenFromReq(header).None?))
    ensures r.IdsErr? <==> (
      || IDFromParams(url).NotAnId?
      || (IDFromParams(url).Parsed? && IDFromParams(url).id > BottomLineValidID && TokenFromReq(header).Some? && byToken.None?))
    ensures r == IdsOk(Sentinel) <==> (
      && IDFromParams(url).Parsed?
      && (|| IDFromParams(url).id <= BottomLineValidID
          || (TokenFromReq(header).Some? && byToken.Some? && byToken.value.userId == BottomLineValidID)))
    ensures r.IdsOk? && r.ids != Sentinel ==> (
      && IDFromParams(url).Parsed? && byToken.Some?
      && r.ids == Ids(IDFromParams(url).id, byToken.value.userId)
      && r.ids.robotId > BottomLineValidID && r.ids.userId != BottomLineValidID)
  {
    match IDFromParams(url)
    case NoSegment => IdsPanic
    case NotAnId => IdsErr
    case Parsed(rbtId) =>
      if rbtId <= BottomLineValidID then IdsOk(Sentinel)
      else match TokenFromReq(header)
        case None => IdsPanic
        case Some(_) =>
          match byToken
          case None => IdsErr
          case Some(s) => if s.userId == BottomLineValidID then IdsOk(Sentinel) else IdsOk(Ids(rbtId, s.userId))
  }

  /** `getRobotAndUserID` as evidently intended: the two sentinel branches report an error. */
  function GetRobotAndUserID(url: string, header: string, byToken: Option<Session>): (r: IdsOutcome)
    ensures r.IdsOk? ==> (
      && r.ids.robotId > BottomLineValidID && r.ids.userId != BottomLineValidID
      && IDFromParams(url) == Parsed(r.ids.robotId) && byToken.Some? && byToken.value.userId == r.ids.userId)
  {
    match GetRobotAndUserIDAsWritten(url, header, byToken)
    case IdsOk(ids) => if ids == Sentinel then IdsErr else IdsOk(ids)
    case other => other
  }

  /** The corrected lookup differs from the written one exactly on the sentinel answers. */
  lemma GetRobotAndUserIDAgrees(url: string, header: string, byToken: Option<Session>)
    ensures var w := GetRobotAndUserIDAsWritten(url, header, byToken);
      GetRobotAndUserID(url, header, byToken) == (if w == IdsOk(Sentinel) then IdsErr else w)
  {
  }

  /** `findRobot` as written: a storage error, or the record; a zero id comes back as a nil robot without error. */
  function FindRobotAsWritten(lookup: Option<Robot>): (r: FindOutcome)
    ensures r.FindErr? <==> lookup.None?
    ensures r.FoundNil? <==> lookup.Some? && lookup.value.robotId == BottomLineValidID
    ensures r.Found? ==> lookup == Some(r.robot) && r.robot.robotId != BottomLineValidID
  {
    match lookup
    case None => FindErr
    case Some(rbt) => if rbt.robotId == BottomLineValidID then FoundNil else Found(rbt)
  }

  /** `findRobot` as evidently intended: a missing robot is an error. */
  function FindRobot(lookup: Option<Robot>): (r: FindOutcome)
    ensures !r.FoundNil?
    ensures r.FindErr? <==> lookup.None? || lookup.value.robotId == BottomLineValidID
    ensures r.Found? ==> lookup == Some(r.robot)
  {
    match FindRobotAsWritten(lookup)
    case FoundNil => FindErr
    case other => other
  }

  /** The start every chain shares, from the lookup and the find step given. */
  function Start(ids: IdsOutcome, find: FindOutcome): (p: Prelude)
    ensures ids.IdsPanic? ==> p == Halt(Crash)
    ensures ids.IdsErr? ==> p == Halt(Refused(400, ""))
    ensures ids.IdsOk? && find.FindErr? ==> p == Halt(Refused(500, ""))
    ensures ids.IdsOk? && find.FoundNil? ==> p == Halt(Crash)
    ensures p.Proceed? <==> ids.IdsOk? && find.Found?
    ensures p.Proceed? ==> p == Proceed(ids.ids.robotId, ids.ids.userId, find.robot)
  {
    match ids
    case IdsPanic => Halt(Crash)
    case IdsErr => Halt(Refused(400, ""))
    case IdsOk(i) =>
      match find
      case FindErr => Halt(Refused(500, ""))
      case FoundNil => Halt(Crash)
      case Found(rbt) => Proceed(i.robotId, i.userId, rbt)
  }

  /** The start of every chain as written. */
  function LocateAsWritten(req: Request, byToken: Option<Session>, lookup: Option<Robot>): Prelude {
    Start(GetRobotAndUserIDAsWritten(req.url, req.authorization, byToken), FindRobotAsWritten(lookup))
  }

  /** The start of every chain with both lookups corrected. */
  function Locate(req: Request, byToken: Option<Session>, lookup: Option<Robot>): (p: Prelude)
    ensures p.Proceed? ==> (
      && p.robotId > BottomLineValidID && p.userId != BottomLineValidID
      && p.robot.robotId != BottomLineValidID)
  {
    Start(GetRobotAndUserID(req.url, req.authorization, byToken), FindRobot(lookup))
  }

  /**
   * As written, a URL id of 0 or less, or a token without a session user,
   * crashes the handler when storage finds no robot for id -1.
   */
  lemma SentinelCrashesAsWritten(req: Request, byToken: Option<Session>, lookup: Option<Robot>)
    requires IDFromParams(req.url).Parsed?
    requires IDFromParams(req.url).id <= BottomLineValidID
      || (TokenFromReq(req.authorization).Some? && byToken.Some? && byToken.value.userId == BottomLineValidID)
    requires lookup.Some? && lookup.value.robotId == BottomLineValidID
    ensures LocateAsWritten(req, byToken, lookup) == Halt(Crash)
    ensures Locate(req, byToken, lookup) == Halt(Refused(400, ""))
  {
  }

  /** Corrected, the start only crashes where the URL or the header is too short. */
  lemma LocateCrashesOnlyOnShortInput(req: Request, byToken: Option<Session>, lookup: Option<Robot>)
    ensures Locate(req, byToken, lookup) == Halt(Crash) <==>
      IDFromParams(req.url).NoSegment?
      || (IDFromParams(req.url).Parsed? && IDFromParams(req.url).id > BottomLineValidID && TokenFromReq(req.authorization).None?)
  {
    var ids := GetRobotAndUserID(req.url, req.authorization, byToken);
    assert ids.IdsPanic? <==> GetRobotAndUserIDAsWritten(req.url, req.authorization, byToken).IdsPanic?;
  }

  // ----- the guard chains -----

  function ActivateRefusal(robotId: int): string {
    "can't activate robot with id: " + IntToDecimal(robotId)
  }

  function DeactivateRefusal(robotId: int): string {
    "can't deactivate robot with id: " + IntToDecimal(robotId)
  }

  function NoSuchRobot(robotId: int): string {
    "robot with id " + IntToDecimal(robotId) + " don't exist"
  }

  function NotOwner(userId: int, robotId: int): string {
    "user with id " + IntToDecimal(userId) + " don't own robot with id: " + IntToDecimal(robotId)
  }

  function NoPermission(userId: int, robotId: int): string {
    "user with id: " + IntToDecimal(userId) + " don't have permission to get robot with id: " + IntToDecimal(robotId)
  }

  /** `activate` after the shared start: only an owner inside the plan window may switch an inactive robot on. */
  function Activate(p: Prelude, now: DateTime, updateFails: bool): (o: Outcome)
    ensures p.Halt? ==> o == p.outcome
    ensures p.Proceed? ==> (o.Saved? <==> CanBeChangeActivation(p.robot, p.userId, now) && !p.robot.isActive && !updateFails)
    ensures p.Proceed? && (!CanBeChangeActivation(p.robot, p.userId, now) || p.robot.isActive) ==>
      o == Refused(400, ActivateRefusal(p.robotId))
    ensures p.Proceed? && o.Refused? && o.status != 400 ==> o == Refused(500, "") && updateFails
    ensures p.Proceed? && o.Saved? ==> (
      && o.status == 200 && o.robot.isActive
      && o.robot.activatedAt == Some(NullTime(now, true))
      && o.robot.(isActive := p.robot.isActive, activatedAt := p.robot.activatedAt) == p.robot)
  {
    match p
    case Halt(o) => o
    case Proceed(rbtId, userId, rbt) =>
      if !CanBeChangeActivation(rbt, userId, now) || rbt.isActive then Refused(400, ActivateRefusal(rbtId))
      else
        var updated := rbt.(isActive := true, activatedAt := Some(NullTime(now, true)));
        if updateFails then Refused(500, "") else Saved(200, updated)
  }

  /** `deactivate` after the shared start: the mirror image of `Activate`. */
  function Deactivate(p: Prelude, now: DateTime, updateFails: bool): (o: Outcome)
    ensures p.Halt? ==> o == p.outcome
    ensures p.Proceed? ==> (o.Saved? <==> CanBeChangeActivation(p.robot, p.userId, now) && p.robot.isActive && !updateFails)
    ensures p.Proceed? && (!CanBeChangeActivation(p.robot, p.userId, now) || !p.robot.isActive) ==>
      o == Refused(400, DeactivateRefusal(p.robotId))
    ensures p.Proceed? && o.Refused? && o.status != 400 ==> o == Refused(500, "") && updateFails
    ensures p.Proceed? && o.Saved? ==> (
      && o.status == 200 && !o.robot.isActive
      && o.robot.deactivatedAt == Some(NullTime(now, true))
      && o.robot.(isActive := p.robot.isActive, deactivatedAt := p.robot.deactivatedAt) == p.robot)
  {
    match p
    case Halt(o) => o
    case Proceed(rbtId, userId, rbt) =>
      if !CanBeChangeActivation(rbt, userId, now) || !rbt.isActive then Refused(400, DeactivateRefusal(rbtId))
      else
        var updated := rbt.(isActive := false, deactivatedAt := Some(NullTime(now, true)));
        if updateFails then Refused(500, "") else Saved(200, updated)
  }

  /**
   * `deleteRobot` after the shared start: a deleted robot is reported missing
   * before ownership is looked at; the owner's robot gets DeletedAt set.
   */
  function DeleteRobot(p: Prelude, now: DateTime, updateFails: bool): (o: Outcome)
    ensures p.Halt? ==> o == p.outcome
    ensures p.Proceed? && p.robot.deletedAt.Some? ==> o == Refused(404, NoSuchRobot(p.robotId))
    ensures p.Proceed? && p.robot.deletedAt.None? && p.robot.ownerUserId != p.userId ==>
      o == Refused(400, NotOwner(p.userId, p.robotId))
    ensures p.Proceed? ==> (o.Saved? <==> p.robot.deletedAt.None? && p.robot.ownerUserId == p.userId && !updateFails)
    ensures p.Proceed? && o.Saved? ==> o.status == 200 && o.robot == p.robot.(deletedAt := Some(NullTime(now, true)))
  {
    match p
    case Halt(o) => o
    case Proceed(rbtId, userId, rbt) =>
      if rbt.deletedAt.Some? then Refused(404, NoSuchRobot(rbtId))
      else if rbt.ownerUserId != userId then Refused(400, NotOwner(userId, rbtId))
      else
        var updated := rbt.(deletedAt := Some(NullTime(now, true)));
        if updateFails then Refused(500, "") else Saved(200, updated)
  }

  /** `getRobot` after the shared start: the owner sees the robot in the representation the Accept header asks for. */
  function GetRobot(p: Prelude, accept: string): (o: Outcome)
    ensures p.Halt? ==> o == p.outcome
    ensures p.Proceed? && p.robot.deletedAt.Some? ==> o == Refused(404, NoSuchRobot(p.robotId))
    ensures p.Proceed? && p.robot.deletedAt.None? && p.robot.ownerUserId != p.userId ==>
      o == Refused(400, NoPermission(p.userId, p.robotId))
    ensures p.Proceed? ==> (o.Shown? <==>
      && p.robot.deletedAt.None? && p.robot.ownerUserId == p.userId
      && (accept == "application/json" || accept == "text/html"))
    ensures p.Proceed? && o.Shown? ==> o.payload.robots == [p.robot]
    ensures p.Proceed? ==> !o.Saved?
  {
    match p
    case Halt(o) => o
    case Proceed(rbtId, userId, rbt) =>
      if rbt.deletedAt.Some? then Refused(404, NoSuchRobot(rbtId))
      else if rbt.ownerUserId != userId then Refused(400, NoPermission(userId, rbtId))
      else match RespondWithData(accept, [rbt])
        case Success(payload) => Shown(payload)
        case Failure(_) => Refused(500, "")
  }

  // ----- how the chains compose -----

  /**
   * Deactivating what `Activate` saved succeeds for the owner at any instant
   * of the plan window and restores the inactive state.
   */
  lemma ActivateThenDeactivate(rbtId: int, userId: int, r: Robot, now: DateTime, later: DateTime)
    requires Activate(Proceed(rbtId, userId, r), now, false).Saved?
    requires IntoPlanRange(r.planStart, r.planEnd, later)
    ensures var on := Activate(Proceed(rbtId, userId, r), now, false).robot;
      && Deactivate(Proceed(rbtId, userId, on), later, false).Saved?
      && Deactivate(Proceed(rbtId, userId, on), later, false).robot
         == r.(activatedAt := Some(NullTime(now, true)), deactivatedAt := Some(NullTime(later, true)))
  {
  }

  /** A robot `Activate` saved cannot be activated again, whoever asks and whenever. */
  lemma ActivateTwiceRefused(rbtId: int, userId: int, r: Robot, now: DateTime,
                             otherUser: int, later: DateTime, updateFails: bool)
    requires Activate(Proceed(rbtId, userId, r), now, false).Saved?
    ensures var on := Activate(Proceed(rbtId, userId, r), now, false).robot;
      Activate(Proceed(rbtId, otherUser, on), later, updateFails) == Refused(400, ActivateRefusal(rbtId))
  {
  }

  /** After a delete, reading or deleting the robot again answers 404, whoever asks. */
  lemma DeleteThenNotFound(rbtId: int, userId: int, r: Robot, now: DateTime,
                           otherUser: int, later: DateTime, accept: string, updateFails: bool)
    requires DeleteRobot(Proceed(rbtId, userId, r), now, false).Saved?
    ensures var gone := DeleteRobot(Proceed(rbtId, userId, r), now, false).robot;
      && GetRobot(Proceed(rbtId, otherUser, gone), accept) == Refused(404, NoSuchRobot(rbtId))
      && DeleteRobot(Proceed(rbtId, otherUser, gone), later, updateFails) == Refused(404, NoSuchRobot(rbtId))
  {
  }
}

=== FILE: robots.dfy ===
/**
 * The robot record of internal/robot/robot.go and the price tick of
 * internal/streamer/streamer.pb.go. The record declares its nullable
 * fields by value (`format.NullFloat64`, …), but the code that uses them
 * compares them with nil and assigns nil to them, as if they were pointers;
 * each is an `Option` here, with `None` as nil.
 */
module Robots {
  import opened Wrappers
  import opened NullTypes

  datatype Robot = Robot(
    robotId: int,
    ownerUserId: int,
    parentRobotId: Option<NullInt64>,
    isFavourite: bool,
    isActive: bool,
    ticker: Option<NullString>,
    buyPrice: Option<NullFloat64>,
    sellPrice: Option<NullFloat64>,
    planStart: Option<NullTime>,
    planEnd: Option<NullTime>,
    planYield: Option<NullFloat64>,
    factYield: Option<NullFloat64>,
    dealsCount: Option<NullInt64>,
    activatedAt: Option<NullTime>,
    deactivatedAt: Option<NullTime>,
    createdAt: Option<NullTime>,
    deletedAt: Option<NullTime>)

  /** One price update: the buy and the sell quote (the timestamp is not used). */
  datatype Tick = Tick(buyPrice: real, sellPrice: real)

  /** `r.Ticker.V.String`, the symbol a robot trades; the pointer must not be nil. */
  function TickerName(r: Robot): string
    requires r.ticker.Some?
  {
    r.ticker.value.value
  }

  /** The robot with only its two result counters taken from `from`. */
  function WithResultsOf(r: Robot, from: Robot): Robot {
    r.(factYield := from.factYield, dealsCount := from.dealsCount)
  }

  /** `b` differs from `a` at most in FactYield and DealsCount, both still present when they were. */
  predicate OnlyResultsChanged(a: Robot, b: Robot) {
    && b == WithResultsOf(a, b)
    && (a.factYield.Some? ==> b.factYield.Some?)
    && (a.dealsCount.Some? ==> b.dealsCount.Some?)
  }

  lemma OnlyResultsChangedTransitive(a: Robot, b: Robot, c: Robot)
    requires OnlyResultsChanged(a, b) && OnlyResultsChanged(b, c)
    ensures OnlyResultsChanged(a, c)
  {
  }
}

=== FILE: session.dfy ===
/**
 * What the handlers get from their surroundings: the parts of an HTTP
 * request they read, and the session record of internal/session/session.go
 * (only the two fields the handlers consult).
 */
module Sessions {
  /** The URL as `r.URL.String()` gives it, and the Authorization and Accept headers ("" when absent). */
  datatype Request = Request(url: string, authorization: string, accept: string)

  /** A login session: its token and the user it belongs to (0 when the storage found none). */
  datatype Session = Session(sessionId: string, userId: int)
}

=== FILE: text.dfy ===
/**
 * Text primitives the Go standard library supplies to the repository:
 * decimal rendering (`%d`, `%v`, `strconv.FormatInt(_, 10)`), decimal
 * parsing (`strconv.ParseInt(_, 10, 64)`), zero padding (`%02d`) and
 * `strings.Split` on a one-character separator.
 */
module Text {
  import opened Wrappers

  const MinInt64: int := -0x8000_0000_0000_0000
  const MaxInt64: int := 0x7fff_ffff_ffff_ffff

  predicate InInt64(n: int) {
    MinInt64 <= n <= MaxInt64
  }

  /** Two's-complement wrap-around of an unbounded integer into int64. */
  function Wrap64(n: int): (r: int)
    ensures InInt64(r)
    ensures InInt64(n) ==> r == n
    ensures (r - n) % 0x1_0000_0000_0000_0000 == 0
  {
    (n - MinInt64) % 0x1_0000_0000_0000_0000 + MinInt64
  }

  predicate IsDigit(c: char) {
    '0' <= c <= '9'
  }

  predicate AllDigits(s: string) {
    forall i | 0 <= i < |s| :: IsDigit(s[i])
  }

  function DigitChar(d: nat): (c: char)
    requires d < 10
    ensures IsDigit(c)
  {
    ['0','1','2','3','4','5','6','7','8','9'][d]
  }

  function DigitValue(c: char): (d: nat)
    requires IsDigit(c)
    ensures d < 10 && DigitChar(d) == c
  {
    (c as int - '0' as int)
  }

  /** Shortest decimal rendering of a natural number (no leading zeros). */
  function NatToDecimal(n: nat): (s: string)
    ensures 1 <= |s| && AllDigits(s)
    ensures s[0] == '0' ==> n == 0
    decreases n
  {
    if n < 10 then [DigitChar(n)] else NatToDecimal(n / 10) + [DigitChar(n % 10)]
  }

  /** Go's `%d` / `%v` rendering of an integer: an optional '-' then the digits. */
  function IntToDecimal(n: int): (s: string)
    ensures 1 <= |s|
    ensures n < 0 <==> s[0] == '-'
  {
    if n < 0 then "-" + NatToDecimal(-n) else NatToDecimal(n)
  }

  /** The number a string of decimal digits denotes (leading zeros allowed). */
  function DigitsValue(s: string): nat
    requires AllDigits(s)
    decreases |s|
  {
    if |s| == 0 then 0 else DigitsValue(s[..|s| - 1]) * 10 + DigitValue(s[|s| - 1])
  }

  lemma {:induction false} DigitsValueOfDecimal(n: nat)
    ensures DigitsValue(NatToDecimal(n)) == n
    decreases n
  {
    if n >= 10 {
      var s := NatToDecimal(n);
      DigitsValueOfDecimal(n / 10);
      assert s[..|s| - 1] == NatToDecimal(n / 10);
    }
  }

  function Pow10(k: nat): (p: nat)
    ensures p >= 1
  {
    if k == 0 then 1 else 10 * Pow10(k - 1)
  }

  /** A string of k digits denotes a number below 10^k. */
  lemma {:induction false} DigitsValueBound(s: string)
    requires AllDigits(s)
    ensures DigitsValue(s) < Pow10(|s|)
    decreases |s|
  {
    if |s| > 0 {
      var init := s[..|s| - 1];
      DigitsValueBound(init);
      assert DigitsValue(init) * 10 <= (Pow10(|init|) - 1) * 10;
    }
  }

  /** A number in [10^(k-1), 10^k) has exactly k decimal digits. */
  lemma {:induction false} DecimalLength(n: nat, k: nat)
    requires 1 <= k && n < Pow10(k) && (k == 1 || Pow10(k - 1) <= n)
    ensures |NatToDecimal(n)| == k
    decreases k
  {
    if k > 1 {
      var p := Pow10(k - 1);
      assert p >= 10 by { if k - 1 > 0 { assert p == 10 * Pow10(k - 2); } }
      assert n / 10 < p by { assert n < 10 * p; }
      if k - 1 > 1 {
        assert Pow10(k - 2) <= n / 10 by { assert p == 10 * Pow10(k - 2); }
      }
      DecimalLength(n / 10, k - 1);
    }
  }

  /** Value of an all-digit string, prefixed by zeros, is unchanged. */
  lemma {:induction false} DigitsValueZeroPrefix(z: nat, s: string)
    requires AllDigits(s)
    ensures AllDigits(Zeros(z) + s)
    ensures DigitsValue(Zeros(z) + s) == DigitsValue(s)
    decreases |s|
  {
    var t := Zeros(z) + s;
    assert AllDigits(t) by {
      forall i | 0 <= i < |t| ensures IsDigit(t[i]) {
        if i < z { assert t[i] == Zeros(z)[i]; } else { assert t[i] == s[i - z]; }
      }
    }
    if |s| == 0 {
      assert t == Zeros(z);
      ZerosValue(z);
    } else {
      DigitsValueZeroPrefix(z, s[..|s| - 1]);
      assert t[..|t| - 1] == Zeros(z) + s[..|s| - 1];
    }
  }

  lemma {:induction false} ZerosValue(z: nat)
    ensures AllDigits(Zeros(z)) && DigitsValue(Zeros(z)) == 0
    decreases z
  {
    if z > 0 {
      ZerosValue(z - 1);
      assert Zeros(z)[..z - 1] == Zeros(z - 1);
    }
  }

  function Zeros(z: nat): (s: string)
    ensures |s| == z
    ensures forall i | 0 <= i < z :: s[i] == '0'
  {
    if z == 0 then [] else Zeros(z - 1) + "0"
  }

  /** Go's `%0<width>d` for a non-negative value: left-padded with zeros up to `width`. */
  function ZeroPad(n: nat, width: nat): (s: string)
    ensures AllDigits(s)
    ensures |s| == if |NatToDecimal(n)| < width then width else |NatToDecimal(n)|
    ensures DigitsValue(s) == n
  {
    var digits := NatToDecimal(n);
    var pad := if |digits| < width then width - |digits| else 0;
    DigitsValueOfDecimal(n);
    DigitsValueZeroPrefix(pad, digits);
    Zeros(pad) + digits
  }

  /**
   * `strconv.ParseInt(s, 10, 64)`: an optional '+' or '-' sign followed by at
   * least one decimal digit, denoting a value inside int64. Anything else —
   * the empty string, a lone sign, any other character, an out-of-range
   * value — is an error (`None`).
   */
  function ParseInt64(s: string): (r: Option<int>)
    ensures r.Some? ==> InInt64(r.value)
    ensures r.Some? ==> |s| >= 1
  {
    if |s| == 0 then None
    else
      var neg := s[0] == '-';
      var body := if s[0] == '-' || s[0] == '+' then s[1..] else s;
      if |body| == 0 || !AllDigits(body) then None
      else
        var mag: int := DigitsValue(body);
        var v := if neg then -mag else mag;
        if InInt64(v) then Some(v) else None
  }

  /** Decimal rendering and `ParseInt64` are inverse on the int64 range. */
  lemma ParseRendered(n: int)
    requires InInt64(n)
    ensures ParseInt64(IntToDecimal(n)) == Some(n)
  {
    ParseRenderedAny(n);
  }

  /** Rendering a value outside int64 yields text `ParseInt64` rejects. */
  lemma ParseRenderedAny(n: int)
    ensures ParseInt64(IntToDecimal(n)) == if InInt64(n) then Some(n) else None
  {
    var m: nat := if n < 0 then -n else n;
    var d := NatToDecimal(m);
    DigitsValueOfDecimal(m);
    assert IsDigit(d[0]);
    if n < 0 {
      assert IntToDecimal(n)[1..] == d;
    }
  }

  /**
   * `strconv.FormatInt(v, base)` for the two bases the repository uses:
   * base 10 renders in decimal, and a base outside 2..36 panics (`None`).
   */
  function FormatInt(v: int, base: int): (r: Option<string>)
    requires base == 10 || !(2 <= base <= 36)
    ensures r.Some? <==> base == 10
  {
    if base == 10 then Some(IntToDecimal(v)) else None
  }

  /** Number of occurrences of `c` in `s`. */
  function Count(s: string, c: char): nat
  {
    if |s| == 0 then 0 else (if s[0] == c then 1 else 0) + Count(s[1..], c)
  }

  /** Index of the first `c` in `s`, or `|s|` when there is none. */
  function IndexOf(s: string, c: char): (i: nat)
    ensures i <= |s|
    ensures forall j | 0 <= j < i :: s[j] != c
    ensures i < |s| ==> s[i] == c
  {
    if |s| == 0 then 0 else if s[0] == c then 0 else 1 + IndexOf(s[1..], c)
  }

  /**
   * `strings.Split(s, sep)` for a one-character separator: the pieces of `s`
   * between separators, so there is always one more piece than separators
   * (`Split("", sep) == [""]`).
   */
  function Split(s: string, sep: char): (parts: seq<string>)
    ensures |parts| == Count(s, sep) + 1
    ensures forall i | 0 <= i < |parts| :: sep !in parts[i]
    decreases |s|
  {
    var i := IndexOf(s, sep);
    if i == |s| then
      assert Count(s, sep) == 0 by { NoSepCount(s, sep); }
      [s]
    else
      assert sep !in s[..i];
      CountSplitsAt(s, sep, i);
      [s[..i]] + Split(s[i + 1..], sep)
  }

  lemma {:induction false} NoSepCount(s: string, c: char)
    requires forall j | 0 <= j < |s| :: s[j] != c
    ensures Count(s, c) == 0
    decreases |s|
  {
    if |s| > 0 { NoSepCount(s[1..], c); }
  }

  lemma {:induction false} CountSplitsAt(s: string, c: char, i: nat)
    requires i < |s| && s[i] == c
    requires forall j | 0 <= j < i :: s[j] != c
    ensures Count(s, c) == 1 + Count(s[i + 1..], c)
    decreases i
  {
    if i > 0 {
      CountSplitsAt(s[1..], c, i - 1);
      assert s[1..][i..] == s[i + 1..];
    }
  }

  /** `strings.Join(parts, sep)`. */
  function Join(parts: seq<string>, sep: char): string
    requires |parts| >= 1
  {
    if |parts| == 1 then parts[0] else parts[0] + [sep] + Join(parts[1..], sep)
  }

  /** Splitting then joining with the same separator gives the text back. */
  lemma {:induction false} JoinSplit(s: string, sep: char)
    ensures Join(Split(s, sep), sep) == s
    decreases |s|
  {
    var i := IndexOf(s, sep);
    if i < |s| {
      JoinSplit(s[i + 1..], sep);
      assert s == s[..i] + [sep] + s[i + 1..];
    }
  }

  /** Joining pieces free of the separator and splitting again gives the pieces back. */
  lemma {:induction false} SplitJoin(parts: seq<string>, sep: char)
    requires |parts| >= 1
    requires forall i | 0 <= i < |parts| :: sep !in parts[i]
    ensures Split(Join(parts, sep), sep) == parts
    decreases |parts|
  {
    if |parts| == 1 {
      assert IndexOf(parts[0], sep) == |parts[0]|;
    } else {
      SplitFirst(parts[0], Join(parts[1..], sep), sep);
      SplitJoin(parts[1..], sep);
      assert parts == [parts[0]] + parts[1..];
    }
  }

  /** Text up to the first separator is the first piece; the rest is split on its own. */
  lemma SplitFirst(p: string, rest: string, sep: char)
    requires sep !in p
    ensures Split(p + [sep] + rest, sep) == [p] + Split(rest, sep)
  {
    var s := p + [sep] + rest;
    assert forall j | 0 <= j < |p| :: s[j] == p[j];
    IndexOfStops(s, sep, |p|);
    assert s[..|p|] == p;
    assert s[|p| + 1..] == rest;
  }

  lemma IndexOfStops(s: string, c: char, i: nat)
    requires i < |s| && s[i] == c
    requires forall j | 0 <= j < i :: s[j] != c
    ensures IndexOf(s, c) == i
  {
  }
}

=== FILE: trade_client.dfy ===
/**
 * The per-robot trading client of cmd/trade/client.go. A client is buying
 * or selling; a tick whose buy quote is at or under the robot's BuyPrice
 * threshold buys, a tick whose sell quote is at or over its SellPrice
 * threshold sells, and once neither flag is set the cycle is settled into
 * FactYield and DealsCount, persisted, broadcast, and buying starts again.
 */
module TradeClient {
  import opened Wrappers
  import opened Text
  import opened NullTypes
  import opened Robots

  datatype Client = Client(robot: Robot, isBuying: bool, isSelling: bool, buyPrice: real, sellPrice: real)

  /**
   * The outcome of one tick: the new client state and the effects performed.
   * `persisted` is the call to `UpdateBesidesActive`, `errorLogged` the log
   * line written when it fails, `broadcast` the push of the robot to viewers.
   */
  datatype Step = Step(client: Client, persisted: bool, errorLogged: bool, broadcast: bool)

  /** `isValid`: the two thresholds and the two result counters are all present. */
  predicate IsValid(r: Robot) {
    r.buyPrice.Some? && r.sellPrice.Some? && r.dealsCount.Some? && r.factYield.Some?
  }

  /** Buying and selling are mutually exclusive and one of them is always pending. */
  predicate OneFlag(c: Client) {
    c.isBuying != c.isSelling
  }

  /** `initClient`: a client for `r` that starts out buying. */
  function InitClient(r: Robot): (c: Client)
    ensures c.robot == r && c.isBuying && !c.isSelling
    ensures OneFlag(c)
  {
    Client(r, true, false, 0.0, 0.0)
  }

  /** Adds `gain` to FactYield and one (int64 wrap-around) to DealsCount. */
  function Settle(r: Robot, gain: real): (s: Robot)
    requires IsValid(r)
    ensures IsValid(s) && OnlyResultsChanged(r, s)
    ensures s.factYield.value == r.factYield.value.(value := r.factYield.value.value + gain)
    ensures s.dealsCount.value == r.dealsCount.value.(value := Wrap64(r.dealsCount.value.value + 1))
  {
    var fy := r.factYield.value;
    var dc := r.dealsCount.value;
    r.(factYield := Some(fy.(value := fy.value + gain)),
       dealsCount := Some(dc.(value := Wrap64(dc.value + 1))))
  }

  /** `(*Client).makeTrade` for one tick; `updateFails` is the storage's answer. */
  function MakeTrade(c: Client, t: Tick, updateFails: bool): (s: Step)
    // an incompletely configured robot makes every tick a no-op
    ensures !IsValid(c.robot) ==> s == Step(c, false, false, false)
    // the robot changes only in its two result counters
    ensures OnlyResultsChanged(c.robot, s.client.robot)
    // persistence and broadcast go together; a failed update is only logged
    ensures s.persisted <==> s.broadcast
    ensures s.errorLogged <==> s.persisted && updateFails
    ensures s.persisted ==> s.client.isBuying && !s.client.isSelling
    // buying: a quote above the threshold changes nothing
    ensures IsValid(c.robot) && c.isBuying && !c.isSelling && t.buyPrice > c.robot.buyPrice.value.value
      ==> s == Step(c, false, false, false)
    // buying: a quote at or under the threshold executes the buy at that quote
    ensures IsValid(c.robot) && c.isBuying && t.buyPrice <= c.robot.buyPrice.value.value
      ==> s.client.buyPrice == t.buyPrice
    // buying, bought, but the sell quote is under the sell threshold: now selling
    ensures IsValid(c.robot) && c.isBuying && t.buyPrice <= c.robot.buyPrice.value.value
            && t.sellPrice < c.robot.sellPrice.value.value
      ==> s == Step(c.(buyPrice := t.buyPrice, isBuying := false, isSelling := true), false, false, false)
    // selling: a quote at or over the threshold executes the sell at that quote
    ensures IsValid(c.robot) && (c.isSelling || (c.isBuying && t.buyPrice <= c.robot.buyPrice.value.value))
            && t.sellPrice >= c.robot.sellPrice.value.value
      ==> s.client.sellPrice == t.sellPrice
    // selling: a quote under the threshold changes nothing
    ensures IsValid(c.robot) && !c.isBuying && c.isSelling && t.sellPrice < c.robot.sellPrice.value.value
      ==> s == Step(c, false, false, false)
    // a cycle is settled exactly when neither flag is left set
    ensures IsValid(c.robot) ==>
      (s.persisted <==> (!c.isBuying || t.buyPrice <= c.robot.buyPrice.value.value)
                        && (!(c.isSelling || c.isBuying) || t.sellPrice >= c.robot.sellPrice.value.value))
    ensures s.persisted ==>
      s.client.robot == Settle(c.robot, s.client.sellPrice - s.client.buyPrice)
    // the executed prices change only when a buy or a sell executes
    ensures !(IsValid(c.robot) && c.isBuying && t.buyPrice <= c.robot.buyPrice.value.value)
      ==> s.client.buyPrice == c.buyPrice
    ensures !(IsValid(c.robot) && (c.isSelling || (c.isBuying && t.buyPrice <= c.robot.buyPrice.value.value))
              && t.sellPrice >= c.robot.sellPrice.value.value)
      ==> s.client.sellPrice == c.sellPrice
  {
    if !IsValid(c.robot) then Step(c, false, false, false)
    else
      var r := c.robot;
      var bought := c.isBuying && r.buyPrice.value.value >= t.buyPrice;
      var c1 := if bought then c.(buyPrice := t.buyPrice, isBuying := false, isSelling := true) else c;
      var sold := c1.isSelling && r.sellPrice.value.value <= t.sellPrice;
      var c2 := if sold then c1.(sellPrice := t.sellPrice, isSelling := false) else c1;
      if !c2.isSelling && !c2.isBuying then
        var settled := c2.(robot := Settle(r, c2.sellPrice - c2.buyPrice), isBuying := true);
        Step(settled, true, updateFails, true)
      else
        Step(c2, false, false, false)
  }

  /** A completed cycle adds exactly sell − buy to FactYield and one to DealsCount. */
  lemma CycleAccounting(c: Client, t: Tick, updateFails: bool)
    requires MakeTrade(c, t, updateFails).persisted
    requires c.robot.dealsCount.Some? && c.robot.dealsCount.value.value < MaxInt64
    requires c.robot.dealsCount.value.value >= MinInt64
    ensures var s := MakeTrade(c, t, updateFails);
      && s.client.robot.factYield.value.value
         == c.robot.factYield.value.value + (s.client.sellPrice - s.client.buyPrice)
      && s.client.robot.dealsCount.value.value == c.robot.dealsCount.value.value + 1
  {
  }

  /** A failed storage update changes nothing but the log: the broadcast and the reset still happen. */
  lemma UpdateFailureOnlyLogged(c: Client, t: Tick)
    ensures MakeTrade(c, t, true).client == MakeTrade(c, t, false).client
    ensures MakeTrade(c, t, true).broadcast == MakeTrade(c, t, false).broadcast
  {
  }

  /**
   * One tick that meets both thresholds while buying completes a whole cycle
   * inside a single call: the buy and the sell are both executed at that tick's
   * quotes and the client is buying again.
   */
  lemma OneTickFullCycle(c: Client, t: Tick, updateFails: bool)
    requires IsValid(c.robot) && c.isBuying && !c.isSelling
    requires t.buyPrice <= c.robot.buyPrice.value.value
    requires t.sellPrice >= c.robot.sellPrice.value.value
    ensures var s := MakeTrade(c, t, updateFails);
      && s.persisted && s.broadcast
      && s.client.isBuying && !s.client.isSelling
      && s.client.buyPrice == t.buyPrice && s.client.sellPrice == t.sellPrice
      && s.client.robot == Settle(c.robot, t.sellPrice - t.buyPrice)
  {
  }

  /**
   * A cycle spread over two ticks: a buy at the first tick's quote, then a
   * sell at the second's, books exactly the second sell quote minus the
   * first buy quote.
   */
  lemma TwoTickCycle(c: Client, t1: Tick, t2: Tick, updateFails: bool)
    requires IsValid(c.robot) && c.isBuying && !c.isSelling
    requires t1.buyPrice <= c.robot.buyPrice.value.value && t1.sellPrice < c.robot.sellPrice.value.value
    requires t2.sellPrice >= c.robot.sellPrice.value.value
    ensures var s1 := MakeTrade(c, t1, updateFails);
      var s2 := MakeTrade(s1.client, t2, updateFails);
      && !s1.persisted && s1.client.isSelling
      && s2.persisted && s2.client.isBuying
      && s2.client.robot == Settle(c.robot, t2.sellPrice - t1.buyPrice)
  {
    var s1 := MakeTrade(c, t1, updateFails);
    assert s1.client == c.(buyPrice := t1.buyPrice, isBuying := false, isSelling := true);
  }

  /** The client after a run of ticks (storage updates succeeding). */
  function Trade(c: Client, ticks: seq<Tick>): Client
    decreases |ticks|
  {
    if |ticks| == 0 then c else Trade(MakeTrade(c, ticks[0], false).client, ticks[1..])
  }

  /**
   * From a state with exactly one flag set (the state `initClient` creates),
   * exactly one flag is set after any run of ticks, and the robot only ever
   * differs in FactYield and DealsCount.
   */
  lemma {:induction false} TradeKeepsOneFlag(c: Client, ticks: seq<Tick>)
    requires OneFlag(c)
    ensures OneFlag(Trade(c, ticks))
    ensures OnlyResultsChanged(c.robot, Trade(c, ticks).robot)
    decreases |ticks|
  {
    if |ticks| > 0 {
      var c1 := MakeTrade(c, ticks[0], false).client;
      TradeKeepsOneFlag(c1, ticks[1..]);
      OnlyResultsChangedTransitive(c.robot, c1.robot, Trade(c1, ticks[1..]).robot);
    }
  }

  /** An incompletely configured robot never triggers persistence, whatever the ticks. */
  lemma {:induction false} InvalidNeverPersists(c: Client, ticks: seq<Tick>)
    requires !IsValid(c.robot)
    ensures Trade(c, ticks) == c
    ensures forall i | 0 <= i < |ticks| :: !MakeTrade(c, ticks[i], false).persisted
    decreases |ticks|
  {
    if |ticks| > 0 {
      InvalidNeverPersists(c, ticks[1..]);
    }
  }

  function SampleRobot(): Robot {
    Robot(1, 1, None, false, true, Some(NullString("AAPL", true)),
          Some(NullFloat64(100.0, true)), Some(NullFloat64(110.0, true)),
          None, None, None, Some(NullFloat64(0.0, true)), Some(NullInt64(0, true)),
          None, None, None, None)
  }

  /**
   * A robot with thresholds 100/110, zero yield and no deals: the tick
   * (buy 95, sell 115) buys at 95 and sells at 115 in the same call, so the
   * yield becomes 20 and one deal is counted; the next tick (94, 112) then buys
   * at 94 and sells at 112, a second deal.
   */
  lemma SampleScenario()
    ensures var s1 := MakeTrade(InitClient(SampleRobot()), Tick(95.0, 115.0), false);
      && s1.persisted
      && s1.client.robot.factYield == Some(NullFloat64(20.0, true))
      && s1.client.robot.dealsCount == Some(NullInt64(1, true))
      && s1.client.isBuying
      && var s2 := MakeTrade(s1.client, Tick(94.0, 112.0), false);
         && s2.persisted
         && s2.client.robot.factYield == Some(NullFloat64(38.0, true))
         && s2.client.robot.dealsCount == Some(NullInt64(2, true))
  {
  }
}

=== FILE: user_handlers.dfy ===
/**
 * The user endpoints of cmd/auth-api/handlers/user.go: `checkEmail` and the
 * guard chains of `signUp`, `updateUser`, `getUser` and `getUserRobots`.
 * The request body's decoding, password hashing, the clock and every storage
 * call become inputs: `Option`/`Result` values whose `None`/`Failure` is the
 * storage error, and flags for steps that can only fail.
 */
module UserHandlers {
  import opened Wrappers
  import opened Text
  import opened Json
  import opened Robots
  import opened Params
  import opened Sessions
  import opened Respond
  import opened UserJson

  /** What a handler does with the request. */
  datatype Outcome =
    | Refused(status: int, detail: string)  // render.HTTPError(detail, status, w)
    | Created                               // 201 with no body
    | Profile(body: Json)                   // 200 with the serialised user
    | Listed(payload: Payload)              // respondWithData succeeded
    | Crash                                 // a nil dereference or an index out of range

  /** `checkEmail`'s three results: the message, the status and whether an error came with them. */
  datatype EmailCheck = EmailCheck(msg: string, status: int, failed: bool)

  function AlreadyRegistered(email: string): string {
    "user " + email + " is already registered"
  }

  function IncorrectId(id: int): string {
    "incorrect id: " + IntToDecimal(id)
  }

  /**
   * `checkEmail`: whether `email` may be given to user `id`. `byEmail` is the
   * id of the user storage holds for the email (0 for none), or `None` when
   * the lookup failed.
   */
  function CheckEmail(email: string, id: int, byEmail: Option<int>): (r: EmailCheck)
    ensures r.failed <==> byEmail.None? || (byEmail.value != BottomLineValidID && byEmail.value != id)
    ensures byEmail.None? ==> r == EmailCheck("", 500, true)
    ensures byEmail.Some? && r.failed ==> r == EmailCheck(AlreadyRegistered(email), 400, true)
    ensures !r.failed ==> r == EmailCheck("", -1, false)
  {
    match byEmail
    case None => EmailCheck("", 500, true)
    case Some(found) =>
      if found != BottomLineValidID && found != id then EmailCheck(AlreadyRegistered(email), 400, true)
      else EmailCheck("", -1, false)
  }

  /** The email stays usable by its current holder and by anyone when nobody holds it. */
  lemma CheckEmailOwnOrFree(email: string, id: int, other: int)
    ensures !CheckEmail(email, id, Some(id)).failed
    ensures !CheckEmail(email, id, Some(BottomLineValidID)).failed
    ensures other != id && other != BottomLineValidID ==>
      CheckEmail(email, id, Some(other)) == EmailCheck(AlreadyRegistered(email), 400, true)
  {
  }

  /**
   * `signUp`: `decoded` is the request body's user (`None` when it is not
   * JSON), `hashFails` the bcrypt step, `byEmail` the id storage holds for
   * the email, `createFails` the insert.
   */
  function SignUp(decoded: Option<User>, hashFails: bool, byEmail: Option<int>, createFails: bool): (o: Outcome)
    ensures decoded.None? ==> o == Refused(400, "")
    ensures o == Created <==> decoded.Some? && !hashFails && byEmail == Some(BottomLineValidID) && !createFails
    ensures decoded.Some? && !hashFails && byEmail.Some? && byEmail.value != BottomLineValidID ==>
      o == Refused(409, AlreadyRegistered(decoded.value.email))
    ensures o.Refused? && o.status == 500 <==>
      decoded.Some? && (hashFails || byEmail.None? || (byEmail == Some(BottomLineValidID) && createFails))
  {
    match decoded
    case None => Refused(400, "")
    case Some(u) =>
      if hashFails then Refused(500, "")
      else match byEmail
        case None => Refused(500, "")
        case Some(found) =>
          if found == BottomLineValidID then (if createFails then Refused(500, "") else Created)
          else Refused(409, AlreadyRegistered(u.email))
  }

  /** A second sign-up with an email storage already holds is refused with 409, while a first one creates. */
  lemma SignUpOnce(u: User, holder: int)
    requires holder != BottomLineValidID
    ensures SignUp(Some(u), false, Some(BottomLineValidID), false) == Created
    ensures SignUp(Some(u), false, Some(holder), false) == Refused(409, AlreadyRegistered(u.email))
  {
  }

  /** The id and bearer token a user endpoint reads first, with the early answers they force. */
  datatype Access = Early(outcome: Outcome) | Checked(id: int, token: string)

  /**
   * The common opening of `updateUser`, `getUser` and `getUserRobots`: the
   * URL id (an unparsable one answered with `badIdStatus`), refusal of ids at
   * or below 0, then the bearer token.
   */
  function ReadAccess(req: Request, badIdStatus: int): (a: Access)
    ensures IDFromParams(req.url).NoSegment? ==> a == Early(Crash)
    ensures IDFromParams(req.url).NotAnId? ==> a == Early(Refused(badIdStatus, ""))
    ensures IDFromParams(req.url).Parsed? && IDFromParams(req.url).id <= BottomLineValidID ==>
      a == Early(Refused(400, IncorrectId(IDFromParams(req.url).id)))
    ensures a.Checked? <==> (
      && IDFromParams(req.url).Parsed? && IDFromParams(req.url).id > BottomLineValidID
      && TokenFromReq(req.authorization).Some?)
    ensures a.Checked? ==> a.id == IDFromParams(req.url).id && Some(a.token) == TokenFromReq(req.authorization)
  {
    match IDFromParams(req.url)
    case NoSegment => Early(Crash)
    case NotAnId => Early(Refused(badIdStatus, ""))
    case Parsed(id) =>
      if id <= BottomLineValidID then Early(Refused(400, IncorrectId(id)))
      else match TokenFromReq(req.authorization)
        case None => Early(Crash)
        case Some(token) => Checked(id, token)
  }

  /** The caller of `updateUser` got past the body, the URL id, the session lookup and the token comparison. */
  predicate UpdateAuthorised(req: Request, decoded: Option<User>, session: Option<Session>) {
    && decoded.Some? && ReadAccess(req, 500).Checked? && session.Some?
    && ReadAccess(req, 500).token == session.value.sessionId
  }

  /**
   * `updateUser`: `decoded` is the body, `session` the session stored for
   * the URL id, `byEmail` the `checkEmail` lookup, `initFails` and
   * `updateFails` the remaining steps, `updated` the record storage returns.
   */
  function UpdateUser(req: Request, decoded: Option<User>, session: Option<Session>, byEmail: Option<int>,
                      initFails: bool, updateFails: bool, updated: User): (o: Outcome)
    ensures decoded.None? ==> o == Refused(400, "")
    ensures decoded.Some? && ReadAccess(req, 500).Early? ==> o == ReadAccess(req, 500).outcome
    // the session lookup failed
    ensures decoded.Some? && ReadAccess(req, 500).Checked? && session.None? ==> o == Refused(500, "")
    ensures (
      && decoded.Some? && ReadAccess(req, 500).Checked? && session.Some?
      && ReadAccess(req, 500).token != session.value.sessionId) ==>
      o == Refused(404, "user " + IntToDecimal(ReadAccess(req, 500).id) + " don't find")
    // checkEmail refuses: 500 for a failed lookup, 400 for an email another user holds
    ensures UpdateAuthorised(req, decoded, session) ==>
      var check := CheckEmail(decoded.value.email, ReadAccess(req, 500).id, byEmail);
      check.failed ==> o == Refused(check.status, check.msg)
    // initUser or the storage update failed
    ensures (
      && UpdateAuthorised(req, decoded, session)
      && !CheckEmail(decoded.value.email, ReadAccess(req, 500).id, byEmail).failed
      && (initFails || updateFails)) ==>
      o == Refused(500, "")
    // the profile is answered exactly when every step succeeds and the user can be serialised
    ensures o.Profile? <==> (
      && UpdateAuthorised(req, decoded, session)
      && !CheckEmail(decoded.value.email, ReadAccess(req, 500).id, byEmail).failed
      && !initFails && !updateFails && updated.birthday.Some?)
    ensures o.Profile? ==> MarshalUser(updated) == Some(o.body)
  {
    match decoded
    case None => Refused(400, "")
    case Some(u) =>
      match ReadAccess(req, 500)
      case Early(o) => o
      case Checked(id, token) =>
        match session
        case None => Refused(500, "")
        case Some(s) =>
          if token == s.sessionId then
            var check := CheckEmail(u.email, id, byEmail);
            if check.failed then Refused(check.status, check.msg)
            else if initFails || updateFails then Refused(500, "")
            else match MarshalUser(updated)
              case None => Crash
              case Some(body) => Profile(body)
          else Refused(404, "user " + IntToDecimal(id) + " don't find")
  }

  /**
   * For an authorised update, the email rule of `checkEmail`: an email held
   * by another user is refused with 400, while one the caller already holds,
   * or nobody holds, lets the update through to the stored profile.
   */
  lemma UpdateUserEmailRule(req: Request, u: User, s: Session, holder: int, updated: User)
    requires UpdateAuthorised(req, Some(u), Some(s))
    requires holder != BottomLineValidID && holder != ReadAccess(req, 500).id
    requires updated.birthday.Some?
    ensures UpdateUser(req, Some(u), Some(s), Some(holder), false, false, updated)
         == Refused(400, AlreadyRegistered(u.email))
    ensures UpdateUser(req, Some(u), Some(s), Some(ReadAccess(req, 500).id), false, false, updated)
         == Profile(MarshalUser(updated).value)
    ensures UpdateUser(req, Some(u), Some(s), Some(BottomLineValidID), false, false, updated)
         == Profile(MarshalUser(updated).value)
  {
    CheckEmailOwnOrFree(u.email, ReadAccess(req, 500).id, holder);
  }

  /**
   * `getUser`: `session` is the session stored for the URL id, `stored` the
   * user record (`None` for a storage error).
   */
  function GetUser(req: Request, session: Option<Session>, stored: Option<User>): (o: Outcome)
    ensures ReadAccess(req, 500).Early? ==> o == ReadAccess(req, 500).outcome
    ensures (
      && ReadAccess(req, 500).Checked? && session.Some?
      && ReadAccess(req, 500).token != session.value.sessionId) ==>
      o == Refused(404, "don't find user with ID " + IntToDecimal(ReadAccess(req, 500).id))
    ensures o.Profile? <==> (
      && ReadAccess(req, 500).Checked? && session.Some?
      && ReadAccess(req, 500).token == session.value.sessionId
      && stored.Some? && stored.value.birthday.Some?)
    ensures o.Profile? ==> MarshalUser(stored.value) == Some(o.body)
  {
    match ReadAccess(req, 500)
    case Early(o) => o
    case Checked(id, token) =>
      match session
      case None => Refused(500, "")
      case Some(s) =>
        if token == s.sessionId then
          match stored
          case None => Refused(500, "")
          case Some(u) =>
            match MarshalUser(u)
            case None => Crash
            case Some(body) => Profile(body)
        else Refused(404, "don't find user with ID " + IntToDecimal(id))
  }

  /**
   * `getUserRobots`: `session` is the session stored for the URL id,
   * `owned` the robots storage holds for that owner.
   */
  function GetUserRobots(req: Request, session: Option<Session>, owned: Option<seq<Robot>>): (o: Outcome)
    ensures ReadAccess(req, 400).Early? ==> o == ReadAccess(req, 400).outcome
    ensures ReadAccess(req, 400).Checked? && session.Some? && session.value.userId == BottomLineValidID ==>
      o == Refused(404, "can't find user with id: " + IntToDecimal(ReadAccess(req, 400).id))
    ensures (
      && ReadAccess(req, 400).Checked? && session.Some? && session.value.userId != BottomLineValidID
      && ReadAccess(req, 400).token != session.value.sessionId) ==>
      o == Refused(400, "tokens don't match")
    ensures o.Listed? <==> (
      && ReadAccess(req, 400).Checked? && session.Some?
      && session.value.userId != BottomLineValidID && ReadAccess(req, 400).token == session.value.sessionId
      && owned.Some? && RespondWithData(req.accept, owned.value).Success?)
    ensures o.Listed? ==> Success(o.payload) == RespondWithData(req.accept, owned.value)
  {
    match ReadAccess(req, 400)
    case Early(o) => o
    case Checked(id, token) =>
      match session
      case None => Refused(500, "")
      case Some(s) =>
        if s.userId == BottomLineValidID then Refused(404, "can't find user with id: " + IntToDecimal(id))
        else if token != s.sessionId then Refused(400, "tokens don't match")
        else match owned
          case None => Refused(500, "")
          case Some(rbts) =>
            match RespondWithData(req.accept, rbts)
            case Success(payload) => Listed(payload)
            case Failure(_) => Refused(500, "")
  }

  /**
   * The id check comes first: an id at or below 0 is refused with 400 by all
   * three endpoints whatever the session storage holds, and no token is read.
   */
  lemma NonPositiveIdRefusedFirst(req: Request, n: int, lead: seq<string>, decoded: User,
                                  session: Option<Session>, byEmail: Option<int>, initFails: bool,
                                  updateFails: bool, updated: User, stored: Option<User>, owned: Option<seq<Robot>>)
    requires |lead| == IdIndex && InInt64(n) && n <= BottomLineValidID
    requires forall i | 0 <= i < |lead| :: '/' !in lead[i]
    requires req.url == Join(lead + [IntToDecimal(n)], '/')
    ensures UpdateUser(req, Some(decoded), session, byEmail, initFails, updateFails, updated) == Refused(400, IncorrectId(n))
    ensures GetUser(req, session, stored) == Refused(400, IncorrectId(n))
    ensures GetUserRobots(req, session, owned) == Refused(400, IncorrectId(n))
  {
    IDOfPath(lead, n, []);
    assert lead + [IntToDecimal(n)] + [] == lead + [IntToDecimal(n)];
  }

  /**
   * With a matching token the owner's robots come back; as HTML they are in
   * ascending id order and nothing is lost or reordered among equal ids.
   */
  lemma OwnerSeesSortedRobots(req: Request, session: Session, rbts: seq<Robot>)
    requires ReadAccess(req, 400).Checked? && session.userId != BottomLineValidID
    requires ReadAccess(req, 400).token == session.sessionId
    requires req.accept == "text/html"
    ensures var o := GetUserRobots(req, Some(session), Some(rbts));
      && o.Listed? && o.payload.HtmlPage?
      && SortedById(o.payload.robots) && multiset(o.payload.robots) == multiset(rbts)
      && forall k :: WithId(o.payload.robots, k) == WithId(rbts, k)
  {
  }
}

=== FILE: user_json.dfy ===
/**
 * `User` of internal/user/user.go and its `MarshalJSON`: the public profile
 * of a user. The method reads `u.Birthday.V` unguarded, so a user without a
 * birthday pointer cannot be serialised (a nil dereference, `None` here).
 */
module UserJson {
  import opened Wrappers
  import opened Civil
  import opened NullTypes
  import opened Json
  import opened DayFormat

  datatype User = User(
    id: int,
    firstName: string,
    lastName: string,
    birthday: Option<Day>,
    email: string,
    password: string,
    updatedAt: NullTime,
    createdAt: NullTime)

  /** The object `MarshalJSON` hands to `json.Marshal`: names, then birthday only when valid, then email. */
  function MarshalUser(u: User): (j: Option<Json>)
    ensures j.None? <==> u.birthday.None?
    ensures j.Some? ==> j.value.JObject? && |j.value.fields| == if u.birthday.value.v.valid then 4 else 3
  {
    match u.birthday
    case None => None
    case Some(d) =>
      var first := ("first_name", JString(u.firstName));
      var last := ("last_name", JString(u.lastName));
      var mail := ("email", JString(u.email));
      if d.v.valid then Some(JObject([first, last, ("birthday", JString(DateText(d.v.value))), mail]))
      else Some(JObject([first, last, mail]))
  }

  /**
   * The members in order: first_name, last_name, the birthday as year-MM-DD
   * only when the day is valid, and email, each holding the user's value
   * unchanged.
   */
  lemma MarshalUserFields(u: User)
    requires u.birthday.Some?
    ensures MarshalUser(u).Some?
    ensures var f := MarshalUser(u).value.fields;
      Names(f) == if u.birthday.value.v.valid then ["first_name", "last_name", "birthday", "email"]
                  else ["first_name", "last_name", "email"]
    ensures var f := MarshalUser(u).value.fields; (
      && Field(f, "first_name") == Some(JString(u.firstName))
      && Field(f, "last_name") == Some(JString(u.lastName))
      && Field(f, "email") == Some(JString(u.email)))
    ensures var f := MarshalUser(u).value.fields;
      Field(f, "birthday") == if u.birthday.value.v.valid then Some(JString(DateText(u.birthday.value.v.value))) else None
  {
    var f := MarshalUser(u).value.fields;
    if u.birthday.value.v.valid {
      WithBirthdayNames(f, JString(u.firstName), JString(u.lastName), JString(DateText(u.birthday.value.v.value)), JString(u.email));
      WithBirthday(f, JString(u.firstName), JString(u.lastName), JString(DateText(u.birthday.value.v.value)), JString(u.email));
    } else {
      WithoutBirthdayNames(f, JString(u.firstName), JString(u.lastName), JString(u.email));
      WithoutBirthday(f, JString(u.firstName), JString(u.lastName), JString(u.email));
    }
  }

  lemma WithBirthdayNames(f: seq<(string, Json)>, first: Json, last: Json, birthday: Json, email: Json)
    requires f == [("first_name", first), ("last_name", last), ("birthday", birthday), ("email", email)]
    ensures Names(f) == ["first_name", "last_name", "birthday", "email"]
  {
  }

  lemma WithBirthday(f: seq<(string, Json)>, first: Json, last: Json, birthday: Json, email: Json)
    requires f == [("first_name", first), ("last_name", last), ("birthday", birthday), ("email", email)]
    ensures Field(f, "first_name") == Some(first) && Field(f, "last_name") == Some(last)
    ensures Field(f, "birthday") == Some(birthday) && Field(f, "email") == Some(email)
  {
    FieldAt(f, 0);
    FieldAt(f, 1);
    FieldAt(f, 2);
    FieldAt(f, 3);
  }

  lemma WithoutBirthdayNames(f: seq<(string, Json)>, first: Json, last: Json, email: Json)
    requires f == [("first_name", first), ("last_name", last), ("email", email)]
    ensures Names(f) == ["first_name", "last_name", "email"]
  {
  }

  lemma WithoutBirthday(f: seq<(string, Json)>, first: Json, last: Json, email: Json)
    requires f == [("first_name", first), ("last_name", last), ("email", email)]
    ensures Field(f, "first_name") == Some(first) && Field(f, "last_name") == Some(last)
    ensures Field(f, "birthday") == None && Field(f, "email") == Some(email)
  {
    FieldAt(f, 0);
    FieldAt(f, 1);
    FieldAt(f, 2);
    assert Field(f[3..], "birthday") == None;
  }

  /** Neither the id, the password nor the timestamps reach the output, whatever their values. */
  lemma MarshalIgnoresPrivateFields(u: User, id: int, password: string, updatedAt: NullTime, createdAt: NullTime)
    ensures MarshalUser(u.(id := id, password := password, updatedAt := updatedAt, createdAt := createdAt)) == MarshalUser(u)
    ensures MarshalUser(u).Some? ==> (
      && "id" !in Names(MarshalUser(u).value.fields)
      && "password" !in Names(MarshalUser(u).value.fields))
  {
    if u.birthday.Some? {
      MarshalUserFields(u);
    }
  }

  /** Two users with the same output have the same names, email and birthday text. */
  lemma {:induction false} MarshalUserDetermines(u1: User, u2: User)
    requires MarshalUser(u1).Some? && MarshalUser(u1) == MarshalUser(u2)
    ensures u1.firstName == u2.firstName && u1.lastName == u2.lastName && u1.email == u2.email
    ensures u1.birthday.value.v.valid == u2.birthday.value.v.valid
    ensures u1.birthday.value.v.valid ==> DateText(u1.birthday.value.v.value) == DateText(u2.birthday.value.v.value)
  {
    var f := MarshalUser(u1).value.fields;
    MarshalUserFields(u1);
    MarshalUserFields(u2);
    assert Field(f, "first_name") == Some(JString(u1.firstName)) == Some(JString(u2.firstName));
    assert Field(f, "email") == Some(JString(u1.email)) == Some(JString(u2.email));
    assert |Names(f)| == |f|;
    if u1.birthday.value.v.valid {
      assert Field(f, "birthday") == Some(JString(DateText(u1.birthday.value.v.value)));
    }
  }

  /**
   * The birthday member is the text `Day.MarshalJSON` writes, and for a
   * four-digit year `Day.UnmarshalJSON` reads the encoded string back to the
   * same date.
   */
  lemma BirthdayReadsBack(u: User, any: Day)
    requires u.birthday.Some? && u.birthday.value.v.valid
    requires var t := u.birthday.value.v.value; ValidDate(t.year, t.month, t.day) && 1000 <= t.year <= 9999
    ensures MarshalUser(u).Some? && MarshalDay(u.birthday.value).Some?
    ensures Field(MarshalUser(u).value.fields, "birthday") == Some(JString(MarshalDay(u.birthday.value).value))
    ensures var t := u.birthday.value.v.value;
      var r := UnmarshalDay(any, "\"" + MarshalDay(u.birthday.value).value + "\"");
      r.1 && r.0.v == NullTime(Midnight(t.year, t.month, t.day), true)
  {
    MarshalUserFields(u);
    MarshalUnmarshalRoundTrip(u.birthday.value, any);
  }
}

=== FILE: worker.dfy ===
/**
 * The per-symbol worker of cmd/trade/ticker.go (`Ticker`). It owns a set of
 * trading clients and an id index `ids` from robot id to client. Clients
 * are objects shared by pointer, so they live in a heap of references;
 * `next` is the first reference not yet allocated.
 *
 * The index is filled only by the start arm: `workWithRobots` reads it but
 * never writes it, so a robot first seen in a broadcast gets a new client
 * on every broadcast and a panic once it leaves, and a robot that leaves
 * and comes back keeps pointing at its detached client.
 */
module Worker {
  import opened Wrappers
  import opened Robots
  import opened Grouping
  import TC = TradeClient

  type ClientRef = nat

  datatype Ticker = Ticker(
    name: string,
    robots: seq<Robot>,
    clients: set<ClientRef>,
    ids: map<int, ClientRef>,
    heap: map<ClientRef, TC.Client>,
    next: ClientRef)

  /** Every reference in use is allocated, and no client is indexed under two ids. */
  predicate Wf(t: Ticker) {
    && (forall c | c in t.clients :: c in t.heap)
    && (forall id | id in t.ids :: t.ids[id] in t.heap)
    && (forall c | c in t.heap :: c < t.next)
    && (forall a, b | a in t.ids && b in t.ids && t.ids[a] == t.ids[b] :: a == b)
  }

  /** `initTicker`: a worker for symbol `name` with no clients and an empty index. */
  function InitTicker(name: string, robots: seq<Robot>): (t: Ticker)
    ensures Wf(t) && t.clients == {} && t.ids == map[] && t.heap == map[]
    ensures t.name == name && t.robots == robots
  {
    Ticker(name, robots, {}, map[], map[], 0)
  }

  /** `initClient` of this worker: a new buying client for `r` at the first free reference. */
  function Alloc(t: Ticker, r: Robot): (out: (Ticker, ClientRef))
    requires Wf(t)
    ensures out.1 == t.next && out.1 !in t.heap
    ensures out.0 == t.(heap := t.heap[out.1 := TC.InitClient(r)], next := t.next + 1)
    ensures Wf(out.0)
  {
    (t.(heap := t.heap[t.next := TC.InitClient(r)], next := t.next + 1), t.next)
  }

  /** References `next`, `next + 1`, ... for `n` new clients, in order. */
  function Refs(next: ClientRef, n: nat): (cs: seq<ClientRef>)
    ensures |cs| == n
    ensures forall i | 0 <= i < n :: cs[i] == next + i
  {
    if n == 0 then [] else Refs(next, n - 1) + [next + n - 1]
  }

  /** The heap after the start loop: robot `i` of `rs` gets a fresh buying client at `next + i`. */
  function AddClients(heap: map<ClientRef, TC.Client>, next: ClientRef, rs: seq<Robot>): map<ClientRef, TC.Client>
    decreases |rs|
  {
    if |rs| == 0 then heap
    else AddClients(heap, next, rs[..|rs| - 1])[next + |rs| - 1 := TC.InitClient(rs[|rs| - 1])]
  }

  /** The index after the start loop: each id points at the client of the last robot carrying it. */
  function IndexClients(ids: map<int, ClientRef>, next: ClientRef, rs: seq<Robot>): map<int, ClientRef>
    decreases |rs|
  {
    if |rs| == 0 then ids
    else IndexClients(ids, next, rs[..|rs| - 1])[rs[|rs| - 1].robotId := next + |rs| - 1]
  }

  /** The new clients sit above every old reference; the old ones are untouched. */
  lemma {:induction false} AddClientsFacts(heap: map<ClientRef, TC.Client>, next: ClientRef, rs: seq<Robot>)
    requires forall c | c in heap :: c < next
    decreases |rs|
    ensures forall c :: c in AddClients(heap, next, rs) <==> c in heap || next <= c < next + |rs|
    ensures forall i | 0 <= i < |rs| :: AddClients(heap, next, rs)[next + i] == TC.InitClient(rs[i])
    ensures forall c | c in heap :: AddClients(heap, next, rs)[c] == heap[c]
  {
    if |rs| > 0 {
      var prefix := rs[..|rs| - 1];
      AddClientsFacts(heap, next, prefix);
      var h' := AddClients(heap, next, prefix);
      var h := AddClients(heap, next, rs);
      assert h == h'[next + |rs| - 1 := TC.InitClient(rs[|rs| - 1])];
      forall i | 0 <= i < |prefix| ensures next + i in h && h[next + i] == TC.InitClient(rs[i]) {
        assert next + i in h';
        assert rs[i] == prefix[i];
      }
    }
  }

  /** Every listed id is indexed, and entries of ids not listed stay. */
  lemma {:induction false} IndexKeys(ids: map<int, ClientRef>, next: ClientRef, rs: seq<Robot>)
    decreases |rs|
    ensures IndexClients(ids, next, rs).Keys == ids.Keys + Ids(rs)
    ensures forall id | id in ids && id !in Ids(rs) :: IndexClients(ids, next, rs)[id] == ids[id]
  {
    if |rs| > 0 {
      var prefix := rs[..|rs| - 1];
      var r := rs[|rs| - 1];
      IndexKeys(ids, next, prefix);
      assert rs == prefix + [r];
      IdsAppend(prefix, r);
    }
  }

  /** In index `m`, `id` points at the new client of a robot of `rs` carrying that id. */
  predicate OwnedBy(m: map<int, ClientRef>, next: ClientRef, rs: seq<Robot>, id: int) {
    && id in m
    && next <= m[id] < next + |rs|
    && rs[m[id] - next].robotId == id
  }

  /** A listed id points at the new client of a robot carrying that id. */
  lemma {:induction false} IndexOwners(ids: map<int, ClientRef>, next: ClientRef, rs: seq<Robot>)
    decreases |rs|
    ensures forall id | id in Ids(rs) :: OwnedBy(IndexClients(ids, next, rs), next, rs, id)
  {
    if |rs| > 0 {
      var prefix := rs[..|rs| - 1];
      var r := rs[|rs| - 1];
      IndexOwners(ids, next, prefix);
      assert rs == prefix + [r];
      IdsAppend(prefix, r);
      var m' := IndexClients(ids, next, prefix);
      var m := IndexClients(ids, next, rs);
      assert m == m'[r.robotId := next + |rs| - 1];
      forall id | id in Ids(rs) ensures OwnedBy(m, next, rs, id) {
        if id != r.robotId {
          assert OwnedBy(m', next, prefix, id);
          assert m[id] == m'[id];
          assert rs[m'[id] - next] == prefix[m'[id] - next];
        }
      }
    }
  }

  /** The robot that is the last to carry its id owns that id's entry. */
  lemma {:induction false} IndexLast(ids: map<int, ClientRef>, next: ClientRef, rs: seq<Robot>)
    decreases |rs|
    ensures forall i | 0 <= i < |rs| && rs[i].robotId !in Ids(rs[i + 1..]) ::
      rs[i].robotId in IndexClients(ids, next, rs) && IndexClients(ids, next, rs)[rs[i].robotId] == next + i
  {
    if |rs| > 0 {
      var prefix := rs[..|rs| - 1];
      var r := rs[|rs| - 1];
      IndexLast(ids, next, prefix);
      var m' := IndexClients(ids, next, prefix);
      var m := IndexClients(ids, next, rs);
      assert m == m'[r.robotId := next + |rs| - 1];
      forall i | 0 <= i < |rs| && rs[i].robotId !in Ids(rs[i + 1..]) ensures rs[i].robotId in m && m[rs[i].robotId] == next + i {
        if i < |prefix| {
          assert rs[i + 1..] == prefix[i + 1..] + [r];
          IdsAppend(prefix[i + 1..], r);
          assert rs[i] == prefix[i];
        }
      }
    }
  }

  /** The worker after the start loop over its robots. */
  function Started(t: Ticker): Ticker {
    t.(heap := AddClients(t.heap, t.next, t.robots),
       ids := IndexClients(t.ids, t.next, t.robots),
       clients := t.clients + (set c | c in Refs(t.next, |t.robots|)),
       next := t.next + |t.robots|)
  }

  /** The start loop keeps the worker well formed: new references are fresh and new ids point at distinct clients. */
  lemma StartedWf(t: Ticker)
    requires Wf(t)
    ensures Wf(Started(t))
  {
    var rs := t.robots;
    var t' := Started(t);
    AddClientsFacts(t.heap, t.next, rs);
    IndexKeys(t.ids, t.next, rs);
    IndexOwners(t.ids, t.next, rs);
    assert forall c | c in t'.clients :: c in t'.heap;
    assert forall c | c in t'.heap :: c < t'.next;
    assert forall id | id in t'.ids :: t'.ids[id] in t'.heap by {
      forall id | id in t'.ids ensures t'.ids[id] in t'.heap {
        if id in Ids(rs) {
          assert OwnedBy(t'.ids, t.next, rs, id);
        } else {
          assert t'.ids[id] == t.ids[id];
        }
      }
    }
    assert forall a, b | a in t'.ids && b in t'.ids && t'.ids[a] == t'.ids[b] :: a == b by {
      forall a, b | a in t'.ids && b in t'.ids && t'.ids[a] == t'.ids[b] ensures a == b {
        IndexedDistinct(t, a, b);
      }
    }
  }

  /** Two ids indexed after the start loop at the same client are the same id. */
  lemma IndexedDistinct(t: Ticker, a: int, b: int)
    requires Wf(t)
    requires forall id | id in Ids(t.robots) :: OwnedBy(Started(t).ids, t.next, t.robots, id)
    requires Started(t).ids.Keys == t.ids.Keys + Ids(t.robots)
    requires forall id | id in t.ids && id !in Ids(t.robots) :: Started(t).ids[id] == t.ids[id]
    requires a in Started(t).ids && b in Started(t).ids && Started(t).ids[a] == Started(t).ids[b]
    ensures a == b
  {
    var m := Started(t).ids;
    var ra := if a in Ids(t.robots) then OwnedBy(m, t.next, t.robots, a) else m[a] == t.ids[a];
    var rb := if b in Ids(t.robots) then OwnedBy(m, t.next, t.robots, b) else m[b] == t.ids[b];
    assert ra && rb;
  }

  /** The clients the start loop makes: fresh, in robot order, each a new buying client; old clients stay. */
  lemma StartedClients(t: Ticker)
    requires Wf(t)
    ensures var started := Refs(t.next, |t.robots|);
      && (forall i | 0 <= i < |t.robots| ::
            started[i] !in t.heap && started[i] in Started(t).heap && Started(t).heap[started[i]] == TC.InitClient(t.robots[i]))
      && (forall c | c in t.heap :: c in Started(t).heap && Started(t).heap[c] == t.heap[c])
      && (forall c :: c in Started(t).clients <==> c in t.clients || c in started)
  {
    var started := Refs(t.next, |t.robots|);
    AddClientsFacts(t.heap, t.next, t.robots);
    forall i | 0 <= i < |t.robots|
      ensures started[i] !in t.heap && started[i] in Started(t).heap && Started(t).heap[started[i]] == TC.InitClient(t.robots[i])
    {
      assert started[i] == t.next + i;
    }
  }

  /**
   * The start arm: each robot of the worker's list, in order, gets a new
   * client, which is indexed under the robot's id and joins the client set.
   */
  function StartArm(t: Ticker): (out: (Ticker, seq<ClientRef>))
    requires Wf(t)
    ensures Wf(out.0) && |out.1| == |t.robots|
    ensures out.0.name == t.name && out.0.robots == t.robots
    ensures forall i | 0 <= i < |t.robots| ::
      out.1[i] !in t.heap && out.1[i] in out.0.heap && out.0.heap[out.1[i]] == TC.InitClient(t.robots[i])
    ensures forall c | c in t.heap :: c in out.0.heap && out.0.heap[c] == t.heap[c]
    ensures forall c :: c in out.0.clients <==> c in t.clients || c in out.1
    ensures forall i | 0 <= i < |t.robots| && t.robots[i].robotId !in Ids(t.robots[i + 1..]) ::
      t.robots[i].robotId in out.0.ids && out.0.ids[t.robots[i].robotId] == out.1[i]
  {
    var started := Refs(t.next, |t.robots|);
    StartedWf(t);
    StartedClients(t);
    IndexLast(t.ids, t.next, t.robots);
    (Started(t), started)
  }

  /** The robots of `rs` that are not in the index, in input order. */
  function Fresh(ids: map<int, ClientRef>, rs: seq<Robot>): seq<Robot>
    decreases |rs|
  {
    if |rs| == 0 then []
    else
      var prefix := rs[..|rs| - 1];
      var r := rs[|rs| - 1];
      if r.robotId in ids then Fresh(ids, prefix) else Fresh(ids, prefix) + [r]
  }

  /** `Fresh` keeps exactly the unindexed robots. */
  lemma {:induction false} FreshMembers(ids: map<int, ClientRef>, rs: seq<Robot>)
    decreases |rs|
    ensures forall r | r in Fresh(ids, rs) :: r in rs && r.robotId !in ids
    ensures forall r | r in rs && r.robotId !in ids :: r in Fresh(ids, rs)
  {
    if |rs| > 0 {
      var prefix := rs[..|rs| - 1];
      FreshMembers(ids, prefix);
      assert rs == prefix + [rs[|rs| - 1]];
      assert forall x | x in rs :: x in prefix || x == rs[|rs| - 1];
    }
  }

  /** The last robot of `rs` carrying `id`. */
  function LastWith(rs: seq<Robot>, id: int): (r: Robot)
    requires id in Ids(rs)
    ensures r in rs && r.robotId == id
  {
    var prefix := rs[..|rs| - 1];
    var last := rs[|rs| - 1];
    IdsAppend(prefix, last);
    assert rs == prefix + [last];
    if last.robotId == id then last else LastWith(prefix, id)
  }

  /** The clients the index points at for the ids of `rs`. */
  function Touched(ids: map<int, ClientRef>, rs: seq<Robot>): set<ClientRef> {
    set id | id in ids && id in Ids(rs) :: ids[id]
  }

  /**
   * The middle loop of `workWithRobots` over `rs`: a robot whose id is not in
   * the index gets a new client, added to the set and to `toWork`; otherwise
   * the indexed client's robot pointer is replaced and nothing else changes.
   */
  function Visit(t: Ticker, rs: seq<Robot>): (out: (Ticker, seq<ClientRef>))
    requires Wf(t)
    decreases |rs|
    ensures Wf(out.0)
    ensures out.0.ids == t.ids && out.0.name == t.name && out.0.robots == t.robots
    ensures |out.1| == |Fresh(t.ids, rs)| && out.0.next == t.next + |out.1|
  {
    if |rs| == 0 then (t, [])
    else
      var prefix := rs[..|rs| - 1];
      var r := rs[|rs| - 1];
      var p := Visit(t, prefix);
      if r.robotId !in t.ids then
        var a := Alloc(p.0, r);
        (a.0.(clients := a.0.clients + {a.1}), p.1 + [a.1])
      else
        var c := t.ids[r.robotId];
        (p.0.(heap := p.0.heap[c := p.0.heap[c].(robot := r)]), p.1)
  }

  /** One step of the loop for a robot without a client: a new client is made, listed and set to work. */
  lemma VisitStepNew(t: Ticker, rs: seq<Robot>)
    requires Wf(t) && |rs| > 0 && rs[|rs| - 1].robotId !in t.ids
    ensures var p := Visit(t, rs[..|rs| - 1]);
      var out := Visit(t, rs);
      && out.1 == p.1 + [p.0.next]
      && out.0.next == p.0.next + 1
      && out.0.heap == p.0.heap[p.0.next := TC.InitClient(rs[|rs| - 1])]
      && out.0.clients == p.0.clients + {p.0.next}
  {
    var p := Visit(t, rs[..|rs| - 1]);
    var a := Alloc(p.0, rs[|rs| - 1]);
    assert Visit(t, rs) == (a.0.(clients := a.0.clients + {a.1}), p.1 + [a.1]);
  }

  /** One step of the loop for an indexed robot: only that client's robot changes. */
  lemma VisitStepOld(t: Ticker, rs: seq<Robot>)
    requires Wf(t) && |rs| > 0 && rs[|rs| - 1].robotId in t.ids
    ensures var p := Visit(t, rs[..|rs| - 1]);
      var r := rs[|rs| - 1];
      var out := Visit(t, rs);
      && out.1 == p.1
      && out.0.next == p.0.next
      && out.0.heap == p.0.heap[t.ids[r.robotId] := p.0.heap[t.ids[r.robotId]].(robot := r)]
      && out.0.clients == p.0.clients
  {
  }

  /** One step of the loop, either way. */
  lemma VisitStep(t: Ticker, rs: seq<Robot>)
    requires Wf(t) && |rs| > 0
    ensures var p := Visit(t, rs[..|rs| - 1]);
      var r := rs[|rs| - 1];
      var out := Visit(t, rs);
      if r.robotId !in t.ids then
        && out.1 == p.1 + [p.0.next]
        && out.0.next == p.0.next + 1
        && out.0.heap == p.0.heap[p.0.next := TC.InitClient(r)]
        && out.0.clients == p.0.clients + {p.0.next}
      else
        && out.1 == p.1
        && out.0.next == p.0.next
        && out.0.heap == p.0.heap[t.ids[r.robotId] := p.0.heap[t.ids[r.robotId]].(robot := r)]
        && out.0.clients == p.0.clients
  {
    if rs[|rs| - 1].robotId !in t.ids {
      VisitStepNew(t, rs);
    } else {
      VisitStepOld(t, rs);
    }
  }

  /** The clients named by `rs` grow by the last robot's client, when it has one. */
  lemma TouchedStep(ids: map<int, ClientRef>, rs: seq<Robot>)
    requires |rs| > 0
    ensures var r := rs[|rs| - 1];
      Touched(ids, rs) == Touched(ids, rs[..|rs| - 1]) + if r.robotId in ids then {ids[r.robotId]} else {}
  {
    var prefix := rs[..|rs| - 1];
    var r := rs[|rs| - 1];
    IdsAppend(prefix, r);
    assert rs == prefix + [r];
  }

  /** The clients the loop over `rs` made: consecutive fresh references, each a buying client of its robot. */
  predicate MadeInOrder(t: Ticker, rs: seq<Robot>)
    requires Wf(t)
  {
    var out := Visit(t, rs);
    forall i | 0 <= i < |out.1| ::
      && out.1[i] == t.next + i
      && out.1[i] in out.0.heap
      && out.0.heap[out.1[i]] == TC.InitClient(Fresh(t.ids, rs)[i])
  }

  /** New clients: one per unindexed robot, in input order, each fresh and in the set. */
  lemma VisitFresh(t: Ticker, rs: seq<Robot>)
    requires Wf(t)
    ensures var out := Visit(t, rs);
      && (forall i | 0 <= i < |out.1| :: out.1[i] == t.next + i && out.1[i] in out.0.heap
            && out.0.heap[out.1[i]] == TC.InitClient(Fresh(t.ids, rs)[i]))
      && (forall c :: c in out.0.clients <==> c in t.clients || t.next <= c < out.0.next)
  {
    VisitMade(t, rs);
    VisitClientSet(t, rs);
  }

  lemma {:induction false} VisitMade(t: Ticker, rs: seq<Robot>)
    requires Wf(t)
    decreases |rs|
    ensures MadeInOrder(t, rs)
  {
    if |rs| > 0 {
      VisitMade(t, rs[..|rs| - 1]);
      if rs[|rs| - 1].robotId !in t.ids {
        MadeNew(t, rs);
      } else {
        MadeOld(t, rs);
      }
    }
  }

  lemma MadeNew(t: Ticker, rs: seq<Robot>)
    requires Wf(t) && |rs| > 0 && rs[|rs| - 1].robotId !in t.ids
    requires MadeInOrder(t, rs[..|rs| - 1])
    ensures MadeInOrder(t, rs)
  {
    var prefix := rs[..|rs| - 1];
    VisitStepNew(t, rs);
    var p := Visit(t, prefix);
    var out := Visit(t, rs);
    var made := Fresh(t.ids, rs);
    assert made == Fresh(t.ids, prefix) + [rs[|rs| - 1]];
    forall i | 0 <= i < |out.1|
      ensures out.1[i] == t.next + i && out.1[i] in out.0.heap && out.0.heap[out.1[i]] == TC.InitClient(made[i])
    {
      if i < |p.1| {
        assert out.1[i] == p.1[i] && made[i] == Fresh(t.ids, prefix)[i];
      }
    }
  }

  lemma MadeOld(t: Ticker, rs: seq<Robot>)
    requires Wf(t) && |rs| > 0 && rs[|rs| - 1].robotId in t.ids
    requires MadeInOrder(t, rs[..|rs| - 1])
    ensures MadeInOrder(t, rs)
  {
    var prefix := rs[..|rs| - 1];
    VisitStepOld(t, rs);
    var p := Visit(t, prefix);
    var out := Visit(t, rs);
    assert Fresh(t.ids, rs) == Fresh(t.ids, prefix);
    assert t.ids[rs[|rs| - 1].robotId] < t.next;
    forall i | 0 <= i < |out.1|
      ensures out.1[i] == t.next + i && out.1[i] in out.0.heap && out.0.heap[out.1[i]] == TC.InitClient(Fresh(t.ids, rs)[i])
    {
      assert out.1[i] == p.1[i];
    }
  }

  /** The client set gains exactly the references the loop allocated. */
  lemma {:induction false} VisitClientSet(t: Ticker, rs: seq<Robot>)
    requires Wf(t)
    decreases |rs|
    ensures var out := Visit(t, rs);
      forall c :: c in out.0.clients <==> c in t.clients || t.next <= c < out.0.next
  {
    if |rs| > 0 {
      VisitClientSet(t, rs[..|rs| - 1]);
      VisitStep(t, rs);
      assert rs[|rs| - 1].robotId in t.ids ==> t.ids[rs[|rs| - 1].robotId] < t.next;
    }
  }

  /** Clients the broadcast does not name keep their whole state. */
  lemma {:induction false} VisitUntouched(t: Ticker, rs: seq<Robot>)
    requires Wf(t)
    decreases |rs|
    ensures var out := Visit(t, rs);
      && (forall c | c in t.heap :: c in out.0.heap)
      && (forall c | c in t.heap && c !in Touched(t.ids, rs) :: out.0.heap[c] == t.heap[c])
  {
    if |rs| > 0 {
      var prefix := rs[..|rs| - 1];
      VisitUntouched(t, prefix);
      VisitStep(t, rs);
      TouchedStep(t.ids, rs);
    }
  }

  /** An indexed client of a listed robot gets the last listed robot and keeps its flags and prices. */
  lemma {:induction false} VisitIndexed(t: Ticker, rs: seq<Robot>)
    requires Wf(t)
    decreases |rs|
    ensures var out := Visit(t, rs);
      forall id | id in t.ids && id in Ids(rs) ::
        t.ids[id] in out.0.heap && out.0.heap[t.ids[id]] == t.heap[t.ids[id]].(robot := LastWith(rs, id))
  {
    if |rs| > 0 {
      var prefix := rs[..|rs| - 1];
      var r := rs[|rs| - 1];
      VisitIndexed(t, prefix);
      VisitUntouched(t, prefix);
      var out := Visit(t, rs);
      forall id | id in t.ids && id in Ids(rs)
        ensures t.ids[id] in out.0.heap && out.0.heap[t.ids[id]] == t.heap[t.ids[id]].(robot := LastWith(rs, id))
      {
        IndexedStep(t, rs, id);
      }
    }
  }

  /** The step of `VisitIndexed` for one id. */
  lemma IndexedStep(t: Ticker, rs: seq<Robot>, id: int)
    requires Wf(t) && |rs| > 0
    requires id in t.ids && id in Ids(rs)
    requires var prefix := rs[..|rs| - 1];
      forall id | id in t.ids && id in Ids(prefix) ::
        t.ids[id] in Visit(t, prefix).0.heap
        && Visit(t, prefix).0.heap[t.ids[id]] == t.heap[t.ids[id]].(robot := LastWith(prefix, id))
    requires var prefix := rs[..|rs| - 1];
      && (forall c | c in t.heap :: c in Visit(t, prefix).0.heap)
      && (forall c | c in t.heap && c !in Touched(t.ids, prefix) :: Visit(t, prefix).0.heap[c] == t.heap[c])
    ensures t.ids[id] in Visit(t, rs).0.heap
    ensures Visit(t, rs).0.heap[t.ids[id]] == t.heap[t.ids[id]].(robot := LastWith(rs, id))
  {
    var prefix := rs[..|rs| - 1];
    var r := rs[|rs| - 1];
    IdsAppend(prefix, r);
    assert rs == prefix + [r];
    var c := t.ids[id];
    if id == r.robotId {
      assert LastWith(rs, id) == r;
      VisitStepOld(t, rs);
      if id !in Ids(prefix) {
        assert c !in Touched(t.ids, prefix);
      }
    } else {
      assert id in Ids(prefix) && LastWith(rs, id) == LastWith(prefix, id);
      StepKeepsOther(t, rs, c);
    }
  }

  /** A client the last robot of `rs` does not name keeps what the loop over the prefix left in it. */
  lemma StepKeepsOther(t: Ticker, rs: seq<Robot>, c: ClientRef)
    requires Wf(t) && |rs| > 0 && c in t.heap
    requires c in Visit(t, rs[..|rs| - 1]).0.heap
    requires rs[|rs| - 1].robotId in t.ids ==> t.ids[rs[|rs| - 1].robotId] != c
    ensures c in Visit(t, rs).0.heap && Visit(t, rs).0.heap[c] == Visit(t, rs[..|rs| - 1]).0.heap[c]
  {
    if rs[|rs| - 1].robotId !in t.ids {
      VisitStepNew(t, rs);
    } else {
      VisitStepOld(t, rs);
    }
  }

  /** The robot ids of the current clients: the keys `toDelete` starts with. */
  function ClientIds(t: Ticker): set<int>
    requires Wf(t)
  {
    set c | c in t.clients :: t.heap[c].robot.robotId
  }

  /** Ids of clients whose robot is missing from `rbts`: the entries of `toDelete` still true. */
  function Departed(t: Ticker, rbts: seq<Robot>): set<int>
    requires Wf(t)
  {
    ClientIds(t) - Ids(rbts)
  }

  /** The outcome of `workWithRobots`: the new state, the clients to start and those told to unregister. */
  datatype Broadcast =
    | Applied(ticker: Ticker, toWork: seq<ClientRef>, stopped: set<ClientRef>)
    | Panicked

  /**
   * Sending unregister for a departed id panics: an id missing from the index
   * is a nil dereference, and an indexed client outside the set was already
   * sent unregister (the set loses a client nowhere else), so its `work` has
   * returned and closed the channel, and a second send panics.
   */
  predicate Unsendable(t: Ticker, id: int) {
    id !in t.ids || t.ids[id] !in t.clients
  }

  /**
   * `workWithRobots(rbts)`. Departed ids are looked up in the index, and the
   * broadcast panics on one whose unregister cannot be sent. Otherwise each
   * such client is sent unregister and dropped from the set.
   */
  function WorkWithRobots(t: Ticker, rbts: seq<Robot>): (o: Broadcast)
    requires Wf(t)
    ensures o.Panicked? <==> exists id | id in Departed(t, rbts) :: Unsendable(t, id)
    ensures o.Applied? ==> Wf(o.ticker) && o.ticker.ids == t.ids
    ensures o.Applied? ==> o.stopped == set id | id in Departed(t, rbts) :: t.ids[id]
    // toWork: exactly the new clients, one per robot missing from the index, in input order
    ensures o.Applied? ==> |o.toWork| == |Fresh(t.ids, rbts)|
    ensures o.Applied? ==> forall i | 0 <= i < |o.toWork| ::
      o.toWork[i] !in t.heap && o.toWork[i] in o.ticker.heap && o.ticker.heap[o.toWork[i]] == TC.InitClient(Fresh(t.ids, rbts)[i])
    // the client set: old and new clients, minus the unregistered ones
    ensures o.Applied? ==> forall c :: c in o.ticker.clients <==> (c in t.clients || c in o.toWork) && c !in o.stopped
    // an indexed client whose robot is listed keeps its flags and prices; only its robot is replaced
    ensures o.Applied? ==> forall id | id in t.ids && id in Ids(rbts) ::
      o.ticker.heap[t.ids[id]] == t.heap[t.ids[id]].(robot := LastWith(rbts, id))
    ensures o.Applied? ==> forall c | c in t.heap && c !in Touched(t.ids, rbts) :: c in o.ticker.heap && o.ticker.heap[c] == t.heap[c]
  {
    var departed := Departed(t, rbts);
    if exists id | id in departed :: Unsendable(t, id) then Panicked
    else
      var v := Visit(t, rbts);
      VisitFresh(t, rbts);
      VisitUntouched(t, rbts);
      VisitIndexed(t, rbts);
      FreshRange(t.next, v.1);
      var stopped := set id | id in departed :: t.ids[id];
      Applied(v.0.(clients := v.0.clients - stopped), v.1, stopped)
  }

  lemma FreshRange(next: ClientRef, toWork: seq<ClientRef>)
    requires forall i | 0 <= i < |toWork| :: toWork[i] == next + i
    ensures forall c :: c in toWork <==> next <= c < next + |toWork|
  {
    forall c | next <= c < next + |toWork| ensures c in toWork {
      assert toWork[c - next] == c;
    }
  }

  /** The stop arm. It first hands `true` to the deal loop; `received` says whether anyone takes it. */
  datatype Stop = Stopped(ticker: Ticker, closed: set<ClientRef>) | Blocked

  function StopArm(t: Ticker, received: bool): (o: Stop)
    ensures o.Stopped? <==> received
    ensures o.Stopped? ==> o.ticker.clients == {} && o.closed == t.clients
    ensures o.Stopped? ==> o.ticker == t.(clients := o.ticker.clients)
  {
    if received then Stopped(t.(clients := {}), t.clients) else Blocked
  }

  /** Every client is the one the index holds for its robot's id. */
  predicate Consistent(t: Ticker) {
    && Wf(t)
    && forall c | c in t.clients :: t.heap[c].robot.robotId in t.ids && t.ids[t.heap[c].robot.robotId] == c
  }

  /** Starting a new worker over robots with distinct ids gives a consistent worker holding one client per robot. */
  lemma StartIsConsistent(name: string, robots: seq<Robot>)
    requires DistinctIds(robots)
    ensures var out := StartArm(InitTicker(name, robots));
      Consistent(out.0) && (forall c :: c in out.0.clients <==> c in out.1)
  {
    var t := InitTicker(name, robots);
    var out := StartArm(t);
    forall i | 0 <= i < |robots| ensures robots[i].robotId !in Ids(robots[i + 1..]) {
      forall r | r in robots[i + 1..] ensures r.robotId != robots[i].robotId {
        var j :| 0 <= j < |robots[i + 1..]| && robots[i + 1..][j] == r;
        assert robots[i + 1 + j] == r;
      }
    }
    forall c | c in out.0.clients
      ensures out.0.heap[c].robot.robotId in out.0.ids && out.0.ids[out.0.heap[c].robot.robotId] == c
    {
      var i :| 0 <= i < |out.1| && out.1[i] == c;
      assert out.0.heap[c].robot == robots[i];
    }
  }

  /**
   * On a consistent worker a broadcast never panics, and exactly the clients
   * whose robot is missing from the new list are unregistered.
   */
  lemma ConsistentBroadcast(t: Ticker, rbts: seq<Robot>)
    requires Consistent(t)
    ensures var o := WorkWithRobots(t, rbts);
      o.Applied? && o.stopped == set c | c in t.clients && t.heap[c].robot.robotId !in Ids(rbts)
  {
    var o := WorkWithRobots(t, rbts);
    forall id | id in Departed(t, rbts) ensures !Unsendable(t, id) {
      var c :| c in t.clients && t.heap[c].robot.robotId == id;
    }
    assert o.Applied?;
    var gone := set c | c in t.clients && t.heap[c].robot.robotId !in Ids(rbts);
    forall c | c in o.stopped ensures c in gone {
      var id :| id in Departed(t, rbts) && t.ids[id] == c;
      var c' :| c' in t.clients && t.heap[c'].robot.robotId == id;
      assert t.ids[id] == c';
    }
    forall c | c in gone ensures c in o.stopped {
      var id := t.heap[c].robot.robotId;
      assert id in Departed(t, rbts);
    }
  }

  /**
   * A robot missing from the index gets a client in a broadcast; when a later
   * broadcast no longer lists it, its id is not in the index and the worker panics.
   */
  lemma NewcomerDepartureCrashes(t: Ticker, rbts1: seq<Robot>, rbts2: seq<Robot>, r: Robot)
    requires Wf(t) && r in rbts1 && r.robotId !in t.ids && r.robotId !in Ids(rbts2)
    requires WorkWithRobots(t, rbts1).Applied?
    ensures WorkWithRobots(WorkWithRobots(t, rbts1).ticker, rbts2).Panicked?
  {
    var o := WorkWithRobots(t, rbts1);
    var f := Fresh(t.ids, rbts1);
    FreshMembers(t.ids, rbts1);
    assert r in f;
    var i :| 0 <= i < |f| && f[i] == r;
    var c := o.toWork[i];
    assert c !in o.stopped;
    assert c in o.ticker.clients;
    assert o.ticker.heap[c].robot.robotId == r.robotId;
    assert r.robotId in Departed(o.ticker, rbts2);
  }

  /**
   * A started robot that leaves and later returns is not traded again: its
   * indexed client was dropped from the set and is not re-added, and since its
   * id is still indexed no new client is made for it.
   */
  lemma ReturningRobotStaysDetached(t: Ticker, rbts1: seq<Robot>, rbts2: seq<Robot>, id: int)
    requires Consistent(t) && id in t.ids && t.ids[id] in t.clients
    requires id !in Ids(rbts1)
    ensures var o1 := WorkWithRobots(t, rbts1);
      && o1.Applied? && t.ids[id] !in o1.ticker.clients
      && var o2 := WorkWithRobots(o1.ticker, rbts2);
         o2.Applied? ==>
           && t.ids[id] !in o2.ticker.clients
           && forall i | 0 <= i < |o2.toWork| :: o2.ticker.heap[o2.toWork[i]].robot.robotId != id
  {
    ConsistentBroadcast(t, rbts1);
    var o1 := WorkWithRobots(t, rbts1);
    var c := t.ids[id];
    assert t.heap[c].robot.robotId == id;
    assert c in o1.stopped;
    assert c !in o1.toWork;
    var o2 := WorkWithRobots(o1.ticker, rbts2);
    if o2.Applied? {
      assert c in o1.ticker.heap;
      assert c !in o2.toWork;
      FreshMembers(o1.ticker.ids, rbts2);
      forall i | 0 <= i < |o2.toWork| ensures o2.ticker.heap[o2.toWork[i]].robot.robotId != id {
        assert Fresh(o1.ticker.ids, rbts2)[i] in Fresh(o1.ticker.ids, rbts2);
      }
    }
  }

  /**
   * Two running clients of one robot id, only one of them indexed: when the
   * id departs, the indexed client is unregistered, and the next broadcast
   * without the id sends unregister to that stopped client again and panics.
   */
  lemma SecondDepartureCrashes(t: Ticker, rbts1: seq<Robot>, rbts2: seq<Robot>, c: ClientRef)
    requires Wf(t) && c in t.clients
    requires forall d | d in t.ids :: t.ids[d] != c
    requires t.heap[c].robot.robotId !in Ids(rbts1) && t.heap[c].robot.robotId !in Ids(rbts2)
    requires WorkWithRobots(t, rbts1).Applied?
    ensures WorkWithRobots(WorkWithRobots(t, rbts1).ticker, rbts2).Panicked?
  {
    var id := t.heap[c].robot.robotId;
    var o := WorkWithRobots(t, rbts1);
    assert id in Departed(t, rbts1);
    assert t.ids[id] in o.stopped;
    assert c !in o.stopped;
    assert c !in Touched(t.ids, rbts1);
    assert o.ticker.heap[c] == t.heap[c];
    assert id in Departed(o.ticker, rbts2);
    assert Unsendable(o.ticker, id);
  }

  /** Starting two robots of one id: both get clients, and the index holds only the second. */
  lemma DuplicateStart(name: string, a: Robot, b: Robot)
    requires a.robotId == b.robotId
    ensures var t := StartArm(InitTicker(name, [a, b])).0;
      && Wf(t) && t.ids == map[a.robotId := 1] && t.clients == {0, 1} && 0 in t.heap && t.heap[0].robot == a
  {
    var t0 := InitTicker(name, [a, b]);
    var out := StartArm(t0);
    assert [a, b][1..] == [b] && [a, b][2..] == [];
    assert [a, b][..1] == [a] && [a][..0] == [];
    assert out.0 == Started(t0);
    assert IndexClients(map[], 0, [a]) == map[a.robotId := 0];
    assert out.1[0] == 0 && out.1[1] == 1;
  }

  /**
   * A worker started with two robots of one id, then sent two broadcasts that
   * list neither: the first unregisters the indexed client, the second panics.
   */
  lemma DuplicateIdCrashes(name: string, a: Robot, b: Robot)
    requires a.robotId == b.robotId
    ensures var t := StartArm(InitTicker(name, [a, b])).0;
      var o := WorkWithRobots(t, []);
      o.Applied? && WorkWithRobots(o.ticker, []).Panicked?
  {
    var t := StartArm(InitTicker(name, [a, b])).0;
    DuplicateStart(name, a, b);
    assert Departed(t, []) == {a.robotId};
    assert !Unsendable(t, a.robotId);
    assert WorkWithRobots(t, []).Applied?;
    SecondDepartureCrashes(t, [], [], 0);
  }
}

=== FILE: wrappers.dfy ===
/** Small failure-carrying datatypes shared by every module of the model. */
module Wrappers {

  /** A value that may be absent; `None` stands for a Go nil pointer. */
  datatype Option<+T> = None | Some(value: T)

  /** A computation that either produced a value or failed with an error. */
  datatype Result<+R, +E> = Success(value: R) | Failure(error: E)
}
